=== FILE: README.md ===
# A verified model of the openLogic proof editor's document core

The front end of openLogic lets a student build a Fitch-style natural
deduction proof in a table (`frontend/proofs.js`). Behind the table is a
proof document: a nested array whose elements are lines `{wffstr, jstr}`
(formula and justification) or nested arrays (subproofs). A line is
addressed in two ways:

- by its **line number**, its position in the pre-order reading of the
  table;
- by its **location**, the path of indices that leads to it.

This project models that document core in Dafny and proves what it
promises. It covers:

- **Locations and flattening**: `flattenArray` (which gives every line its
  location) and `maxdepth`.
- **Edits by location**: inserting a line or a new subproof after a line,
  optionally in the parent subproof (`addNLtoPD`, `putNewLineAt`); editing
  a line's formula or justification (`changeWffAt`/`changeWffValue`,
  `changeJAt`/`changeJValue`); and deleting a line, or the whole subproof
  when its hypothesis is deleted (`deletePDLine`, `delLineFromLocation`).
- **The rule-name translator**: `changeRuleNames` shows canonical rule
  tokens such as `→E` as names such as "Modus Ponens";
  `unChangeRuleNames` maps names back. Both are ordered chains of
  first-occurrence `replace` calls, some of them case-insensitive
  regular expressions, three with the class `[v∨]`.
- **The serialisation map** `deepUnchange`, applied to the document
  before it is sent for checking.
- **The editing session**:
  - the premise count taken when the proof table is made;
  - the open line (`openline`, `jopen`) and the single input box, with
    the add, delete, click, type and check handlers and the commit step
    `registerInput`;
  - the fallback "new line"/"new subproof" buttons of an empty proof;
  - the check-response handler and its page-wide flag
    `proofBeingChecked`.

Modules, one file each:

| file | module | contents |
|---|---|---|
| `wrappers.dfy` | `Wrappers` | `Option` |
| `document.dfy` | `Document` | `Line`, `Node`, locations, the reference reading order `Lines`, well-formedness, shape |
| `flatten.dfy` | `Flatten` | `flattenArray` as written and corrected, resolving a line number to a location, `maxdepth` |
| `edits.dfy` | `Edits` | insertion, deletion, line edits, their inverses and invariants |
| `rule_names.dfy` | `RuleNames` | patterns, JavaScript `replace` semantics, the two translation tables |
| `rule_name_round_trip.dfy` | `RuleNameRoundTrip` | per-token evidence that every rule token survives the display round trip |
| `serialise.dfy` | `Serialise` | `deepUnchange` |
| `checking.dfy` | `Checking` | response classification, the `proofBeingChecked` handler as written and corrected, event traces |
| `session.dfy` | `Session` | the editor state, rendering of the input box, the handlers, whole sessions |

The reference meaning of a document is `Document.Lines`: its lines in
pre-order, by direct tree recursion. Every edit is specified by what it
does to `Lines`, that is to the numbered rows of the table, and by the
tree it leaves: an insertion or a deletion is undone by the opposite edit
at the same location, so every other line keeps its subproof. A well-formed document (`WellFormed`) is one
in which every subproof is non-empty and opens with a line (its
hypothesis). Every edit keeps that invariant.

The normalisers `fixWffInputStr` and `fixJInputStr` are defined outside
`frontend/proofs.js`. They are parameters of type `string -> string`. The
`confirm` prompt of a subproof deletion is a boolean parameter.

## Model

| member | source | states |
|---|---|---|
| Flatten.FlattenSound | frontend/proofs.js:288-302 | the corrected `flattenArray` has one entry per line, in pre-order; entry `k` carries the formula and justification of line `k + 1`, and its location selects subproofs at every index but the last, which selects that line |
| Flatten.FlattenComplete | frontend/proofs.js:288-302 | every line of the document is reached: the entry at its line number carries its own location (prefixed by the parent path) |
| Flatten.FlattenLines | frontend/proofs.js:288-302 | the entries read back as exactly the reference reading order of the document |
| Flatten.FlattenAsWrittenCopiesFormula | frontend/proofs.js:294-298 | `flattenArray` as written gives every entry the line's formula as its justification, and otherwise agrees with the corrected walk |
| Flatten.FlattenAsWrittenLosesJustification | frontend/proofs.js:296 | a one-line document whose line is the premise `P` flattens, as written, to an entry with justification `P` instead of `Pr` |
| Flatten.FlattenSameShape | frontend/proofs.js:288-302 | locations depend only on the shape: two documents of the same shape flatten to the same locations |
| Flatten.Resolve | frontend/proofs.js:305-310 | a line number below the line count resolves to the location of that very line; any other number stands for the root index itself |
| Flatten.ResolveOffset | frontend/proofs.js:305-310 | resolving is the inverse of numbering: the number of the line at a location resolves back to that location |
| Flatten.ResolveSameShape | frontend/proofs.js:336-344 | a line number resolves to the same location before and after an edit that keeps the shape |
| Flatten.MaxDepthBounds | frontend/proofs.js:74-83 | `maxdepth` bounds the length of every chain of nested subproofs |
| Flatten.DeepestPath | frontend/proofs.js:74-83 | the bound is attained: some chain of nested subproofs is exactly `maxdepth` long |
| Flatten.LocationParentIsSubproofPath | frontend/proofs.js:288-302 | every index of a location but the last selects a subproof |
| Flatten.LineDepthBounded | frontend/proofs.js:74-83 | every line sits at most `maxdepth` subproofs deep |
| Edits.SpliceInsert | frontend/proofs.js:317-319 | `splice(i, 0, x)` grows the array by one and puts `x` at `i`, or at the end when `i` is past it |
| Edits.SpliceInsertRemove | frontend/proofs.js:317-319 | removing at the place an insertion put its node restores the array |
| Edits.PutNewLineAtLines | frontend/proofs.js:314-325 | `putNewLineAt` inserts the new node's lines right after the lines of the anchor node: the node at the location, or its enclosing subproof when escaping to the parent from depth one |
| Edits.PutNewLineAtWellFormed | frontend/proofs.js:314-325 | insertion keeps every subproof non-empty and opened by a line |
| Edits.AddNLtoPD | frontend/proofs.js:304-312 | a plain insert after line `n + 1` puts the new node's lines at line number `n + 2`, all other lines keeping their order; past the last line, the new node is appended to the root |
| Edits.AddNLtoPDWellFormed | frontend/proofs.js:304-325 | `addNLtoPD` keeps the document well formed, for every position and mode |
| Edits.AddToParentLines | frontend/proofs.js:314-322 | escaping to the parent from a line inside a subproof inserts right after the lines of the innermost subproof that contains the line; in the tree, the new node is that subproof's next sibling, one level up, and deleting it restores the document |
| Edits.AddToParentAfterLastLine | frontend/proofs.js:314-322 | from the last line of a subproof (where the escape buttons are drawn), the escape lands right after that line, and the new node is the closed subproof's next sibling, whose deletion restores the document |
| Edits.PutUpIsPutAtParent | frontend/proofs.js:314-320 | at depth two or more, escaping to the parent from a location is a plain insert after the enclosing subproof's location |
| Edits.PutUpThenDelete | frontend/proofs.js:314-325 | an escaping insert puts the new node at a location one shorter than the anchor's, right after the enclosing subproof, and deleting it restores the document |
| Edits.DelLineFromLocationLines | frontend/proofs.js:382-389 | `delLineFromLocation` removes exactly the block of lines of the node at the location |
| Edits.DelLineFromLocationWellFormed | frontend/proofs.js:382-389 | deleting any node other than a subproof's first keeps the document well formed |
| Edits.InsertNodeAt | frontend/proofs.js:382-389 | the inverse placement of a deletion: the given node ends up at the given location |
| Edits.DeleteThenReinsert | frontend/proofs.js:382-389 | `delLineFromLocation` removes the node at the location and nothing else: putting that node back there gives the document back |
| Edits.InsertNodeAtInjective | frontend/proofs.js:382-389 | putting the same node at the same place into two arrays gives equal results only if the arrays were equal, so the reinsertion fixes the whole tree a deletion leaves |
| Edits.DeletePDLine | frontend/proofs.js:365-380 | deletion yields nothing exactly when the line number is past the last line; a declined subproof deletion leaves the document unchanged |
| Edits.DeleteLine | frontend/proofs.js:365-389 | deleting a line that opens no subproof removes exactly that line: the other lines keep their order, and putting the line back at its location rebuilds the document, so every other line keeps its subproof |
| Edits.DeleteSubproof | frontend/proofs.js:372-379 | deleting a hypothesis, confirmed, removes the whole subproof: its lines from the hypothesis to the subproof's end; putting the subproof back at its location rebuilds the document |
| Edits.DeletePDLineWellFormed | frontend/proofs.js:365-389 | every deletion keeps the document well formed |
| Edits.SubproofHeadIsLine | frontend/proofs.js:372-375 | in a well-formed document a subproof's first node is a line, so a hypothesis deletion always targets a line |
| Edits.PutThenDelete | frontend/proofs.js:314-325 | the node `putNewLineAt` inserts sits right after the anchor, numbered after its lines, and deleting it restores the document |
| Edits.InsertThenDelete | frontend/proofs.js:304-389 | a plain insert after line `n + 1`, then a delete of line `n + 2`, restores the document; for a new subproof, when the deletion is confirmed |
| Edits.AppendThenDelete | frontend/proofs.js:304-389 | on a well-formed document, an insert past the last line followed by a delete of the first new line restores the document |
| Edits.UpdateLineAtEffect | frontend/proofs.js:327-334 | rewriting the line at a location keeps the shape and changes only the line with that location's number |
| Edits.UpdateLineAtTwice | frontend/proofs.js:327-353 | rewriting a line twice with an edit that is idempotent on it is rewriting it once |
| Edits.SameShapeWellFormed | frontend/proofs.js:327-353 | an edit that keeps the shape keeps the document well formed |
| Edits.NodeAtSameShape | frontend/proofs.js:314-325 | a location selects nodes of the same kind in documents of the same shape |
| Edits.ClosesSubproofSameShape | frontend/proofs.js:257 | whether a line is the last of its subproof depends only on the shape |
| Edits.ChangeWffAt | frontend/proofs.js:327-334 | only the formula of the line at the location changes, to `fixWffInputStr(val)`; shape and line count are kept |
| Edits.ChangeJAt | frontend/proofs.js:346-353 | only the justification of the line at the location changes, to `fixJInputStr(unChangeRuleNames(val))` |
| Edits.ChangeWffValue | frontend/proofs.js:336-344 | editing line `pos + 1`'s formula changes only that line's formula |
| Edits.ChangeJValue | frontend/proofs.js:355-363 | editing line `pos + 1`'s justification changes only that line's justification, stored in canonical form |
| Edits.ChangeWffValueTwice | frontend/proofs.js:336-344 | committing the same formula twice is committing it once |
| Edits.ChangeJValueTwice | frontend/proofs.js:355-363 | committing the same justification twice is committing it once |
| RuleNames.FindFromSound | frontend/proofs.js:622-652 | the scan finds the leftmost occurrence of a pattern, and finds none exactly when there is none |
| RuleNames.ReplaceFirstLeftmost | frontend/proofs.js:622-652 | `replace` rewrites only the leftmost occurrence of its pattern and leaves a string without one unchanged |
| RuleNames.ChangeRuleNamesUnmatched | frontend/proofs.js:622-635 | a justification that contains no rule token is displayed as it is |
| RuleNames.UnChangeRuleNamesUnmatched | frontend/proofs.js:638-652 | a justification that contains no rule name is stored as it is |
| RuleNames.ChainThrough | frontend/proofs.js:622-652 | a chain maps a string to a new one when exactly one step rewrites the whole string and neither the earlier nor the later steps apply |
| RuleNameRoundTrip.RoundTrip | frontend/proofs.js:622-652 | each of DNE, →E, MT, DS, ∧E, ∨I, ∧I, ↔E, →I, ∀E, ∃I, ∃E and R is displayed as its name, the name is stored back as the token, and so `unChangeRuleNames(changeRuleNames(t)) == t` |
| RuleNameRoundTrip.ImpElimBackMissesModusTollendoPonens | frontend/proofs.js:640-642 | the name "Modus Tollendo Ponens" does not contain "modus ponens" in any letter case, so the earlier step cannot spoil it |
| RuleNameRoundTrip.MtBackMissesModusTollendoPonens | frontend/proofs.js:641-642 | nor does it contain "modus tollens" |
| RuleNameRoundTrip.OrIntroBackMissesAdjunction | frontend/proofs.js:644-645 | "Adjunction" does not contain "addition" in any letter case |
| RuleNameRoundTrip.OrIntroBackMissesConditionalDerivation | frontend/proofs.js:644-648 | "Conditional derivation" does not contain "addition" in any letter case |
| RuleNameRoundTrip.UnChangeShort | frontend/proofs.js:638-652 | every rule name is at least six characters long, so shorter justifications are stored unchanged |
| Serialise.DeepUnchange | frontend/proofs.js:527-531 | the serialised document has as many top-level nodes as the proof |
| Serialise.DeepUnchangeShape | frontend/proofs.js:527-531 | serialisation keeps the nesting: the same subproofs, the same line positions |
| Serialise.DeepUnchangeLines | frontend/proofs.js:527-531 | line `k` of the request is line `k` of the proof with the same formula and its justification passed through `unChangeRuleNames` |
| Serialise.MarkersSurvive | frontend/proofs.js:527-531 | premise and hypothesis lines reach the checker unchanged |
| Checking.Classify | frontend/proofs.js:49-61 | a proof is reported correct exactly when there are no issues and the conclusion was reached; unfinished exactly when there are no issues and it was not; in error, with the issues, exactly when there are issues |
| Checking.CompletionMeaning | frontend/proofs.js:49-61 | `proofCompleted` is "true", "false" or "error" exactly in those three cases |
| Checking.StartCheck | frontend/proofs.js:521-523 | starting a check makes this proof the one being checked, under a fresh request number, and puts only its results area into the waiting state |
| Checking.HandleResponseAsWritten | frontend/proofs.js:40-63 | as written, a response is dropped when no check is outstanding; otherwise the status goes to the response's own proof and the verdict to the proof being checked, no other panel or status changes, and the flag is cleared |
| Checking.HandleResponse | frontend/proofs.js:40-63 | corrected: a response is applied exactly when it answers the outstanding request, of its own proof and under that request's number; only that proof's status and results change, and then the flag is cleared; any other response changes nothing |
| Checking.AsWrittenAgreesWhenCurrent | frontend/proofs.js:40-63 | when the response answers the outstanding request, the handler as written and the corrected one agree |
| Checking.CheckThenReply | frontend/proofs.js:521-538 | a check followed by the response to that request shows that response's verdict and status |
| Checking.AsWrittenMisdirects | frontend/proofs.js:40-63 | as written, a response for one proof that arrives while another is being checked shows its verdict on the other proof and ends the other's check, while the response's own proof gets its status but keeps its old panel |
| Checking.RunPendingIsLatest | frontend/proofs.js:40-63 | the request being waited for is always the latest check of its proof |
| Checking.RunShowsLatestVerdicts | frontend/proofs.js:40-63 | with the corrected handler, over any sequence of checks and responses, every verdict a proof shows came from a response to the latest check of that proof |
| Checking.RunShowsOwnVerdicts | frontend/proofs.js:40-63 | in particular, every verdict a proof shows came from a response to that proof |
| Checking.OverlapShowsForeignVerdict | frontend/proofs.js:40-63 | with proof 2 checked while proof 1's answer is on its way, the handler as written shows "correct" on proof 2 although the only answer about it reported an error, and leaves proof 1 showing "Checking ..."; the corrected handler shows proof 2's error |
| Checking.RecheckShowsStaleVerdict | frontend/proofs.js:40-63 | with proof 1 checked twice, the handler as written lets the answer to the first check decide the verdict and drops the answer to the latest; the corrected handler shows the latest answer |
| Session.NumPremisesAppend | frontend/proofs.js:405-410 | the premise count is additive over concatenation |
| Session.NumPremisesOfBlock | frontend/proofs.js:405-410 | a start of premises followed by non-premises counts exactly its premises; nested lines never count |
| Session.Render | frontend/proofs.js:151-211 | redrawing opens a formula box on the open line exactly when it is not a premise, or a justification box, showing the display name, exactly when it is neither premise nor hypothesis; otherwise the old box stays |
| Session.RenderKeepsInput | frontend/proofs.js:151-211 | with no line open, redrawing changes nothing |
| Session.RegisterInput | frontend/proofs.js:509-519 | committing writes the box's text into its own line only (formula normalised, or justification stored in canonical form), keeps the shape, and keeps the box valid |
| Session.RegisterInputIdempotent | frontend/proofs.js:509-519 | since the box outlives the commit, committing again changes nothing |
| Session.TypeInput | frontend/proofs.js:176-210 | typing normalises the formula, or re-shows a justification under its display name; only the box changes |
| Session.TypedRuleNameStored | frontend/proofs.js:208-210 | typing a rule that the normaliser reduces to a token shows its display name in the box and stores the token when committed |
| Session.MakeProof | frontend/proofs.js:400-419 | a new table counts the top-level premises once, opens line 1, and opens a formula box on it exactly when line 1 exists and is not a premise |
| Session.AddClick | frontend/proofs.js:483-502 | an add handler keeps the state valid, commits the box and then inserts into the committed document; a plain insert, or an escape from a subproof's last line, puts the new node's lines right after line `n + 1` of the committed document; line `n + 2`'s formula is opened |
| Session.AddedLines | frontend/proofs.js:304-325 | every insertion at an existing line adds exactly the new node's lines, and a plain insert or an escape from a subproof's last line puts them right after line `n + 1` |
| Session.AddFocusesNewLine | frontend/proofs.js:483-502 | after adding below a line (or escaping from a subproof's last line) the formula box is open, empty, on the new line |
| Session.FallbackAddClick | frontend/proofs.js:594-609 | on a proof with no lines, the fallback buttons put a first line (or a first subproof) into the document and open its formula on line 1, without committing the box |
| Session.DeleteClick | frontend/proofs.js:226-233 | the delete link commits the box, closes it and the open line, and leaves `deletePDLine` of the committed document: exactly that line removed, unless it opens a subproof: then, confirmed, the whole subproof's lines; declined, nothing |
| Session.WffClick | frontend/proofs.js:159-164 | clicking a formula commits the box into the document and opens that line's formula in the box, showing the committed formula |
| Session.JClick | frontend/proofs.js:192-198 | clicking a justification commits the box into the document and opens the line's justification in the box under its display name |
| Session.CheckClick | frontend/proofs.js:436-443 | the check button closes the box and sends the serialised proof with the wanted conclusion and the premise count from the start |
| Session.Perform | frontend/proofs.js:159-278 | every user action keeps the document well formed and the box on an existing line, and never changes the premise count |
| Session.ReplayKeepsInvariant | frontend/proofs.js:400-419 | over any session, the document stays well formed, the box points at a line, and the premise count sent is the one taken at the start |

## Left out

- DOM rendering (`dataToRows`, `displayMe`, `countnonspacers`): cells,
  CSS classes, colspans, focus calls. Only the effect of rendering on the
  editor state is modelled, that is which input box exists.
- Network plumbing (`AJAXPostRequest`, `FormData`, `JSON.parse`, the
  `checkproof.php` call, `predicateSettings`, the `checkProofEvent`
  dispatch) is left out. A response is given directly as its issues and
  `concReached`.
- `fixWffInputStr`, `fixJInputStr` and `prettyStr` are defined elsewhere.
  The first two are uninterpreted parameters; `prettyStr` only affects
  display.
- `changeRuleNames` and `unChangeRuleNames` return `false` for an argument
  that is not a string. Justifications in the model are always strings.
- The `i` flag is modelled as ASCII case folding. That is exact for these
  patterns, whose letters are ASCII.
- Edits with a line number past the last line throw in the source. The
  model excludes them by precondition.
- The `confirm` prompt is a boolean parameter.
- "Start over" removes the table and runs `makeProof` again on the saved
  start (`MakeProof`), modelled as the untouched starting document. In the
  source the saved start (frontend/proofs.js:449-450) copies only the root
  array, and the table's document is the very array it was given
  (frontend/proofs.js:404). So the saved start shares every line object
  and every subproof array with the edited document: line edits, and
  inserts and deletes inside subproofs (in-place `splice`,
  frontend/proofs.js:316-322 and 382-388), leak into it. Only root-level
  inserts and deletes do not. Value semantics cannot express that sharing.
- The `Proof` record class and the administrator's public/private toggle
  are left out.
- The fallback "new line"/"new subproof" buttons below the table
  (frontend/proofs.js:594-609) are modelled as `Session.FallbackAddClick`,
  enabled exactly when the proof has no lines. The last row of a
  non-empty well-formed proof always offers add buttons, so the source
  draws the fallback buttons only then.
- Session.Enabled is wider than the controls the table draws. It admits
  a click on a premise's formula, a click on a premise's or hypothesis's
  justification, a delete of a premise, an add (line or subproof) after a
  premise other than the last, and an escape to the parent from any line. The source
  draws no control for these (frontend/proofs.js:151-168, 182-212 and
  214-278). So `Session.ReplayKeepsInvariant` covers every session the
  table allows, and some it does not. Session.Replay skips only actions
  that name no existing line, or the fallback buttons on a non-empty
  proof.
- RuleNameRoundTrip.RoundTrip covers the thirteen tokens of the display
  table. It says nothing about justifications that combine a token with
  other text.

## Findings

| source | as written | input that shows it | evidently intended | confidence | as-written member | corrected member |
|---|---|---|---|---|---|---|
| frontend/proofs.js:296 | `x.jstr = a[i].wffstr` copies the formula into the entry's justification | a proof whose one line is `{wffstr: "P", jstr: "Pr"}` flattens to an entry with `jstr == "P"` | `x.jstr = a[i].jstr`; no caller reads the field today, so the effect is latent | high that the line is a slip, not executed | Flatten.FlattenAsWrittenLosesJustification | Flatten.FlattenLines |
| frontend/proofs.js:40-63 | the handler only tests that some check is outstanding: it sets `proofCompleted` on the response's own proof but writes the verdict into whichever proof is being checked, then clears the flag | start over while a check of proof 1 is outstanding, check proof 2, then proof 1's "correct" answer arrives before proof 2's error answer: proof 2 shows "correct" and its own answer is dropped | apply a response only when its proof is the one being checked, and write both status and verdict to that proof | medium, not executed | Checking.OverlapShowsForeignVerdict | Checking.RunShowsLatestVerdicts |
| frontend/proofs.js:40-63 | a response carries no request number, so an answer to an earlier check of the same proof is taken for the answer to the latest | check proof 1, edit it, check it again; the first answer ("correct") arrives first and is shown, and the answer about the edited proof (an error) is dropped | tag each request with a number and apply only the answer to the outstanding request; the number is this model's addition, since the source has none | medium, not executed | Checking.RecheckShowsStaleVerdict | Checking.RunShowsLatestVerdicts |

=== FILE: checking.dfy ===
/**
 * Checking a proof: the editor posts the proof to the checker and, when the
 * answer arrives, writes a verdict into the proof's results area and a
 * completion status (`proofCompleted`) onto the proof.
 *
 * The page-wide variable `proofBeingChecked` is either `false` or the proof
 * table whose request is outstanding.  Proof tables are identified here by
 * a number; the board holds that variable and, per table, the completion
 * status and what its results area shows.
 */
module Checking {
  import opened Wrappers

  /** The checker's answer: the problems found and whether the conclusion was reached. */
  datatype Response = Response(issues: seq<string>, concReached: bool)

  datatype Verdict = Correct | NotYet | Errors(issues: seq<string>)

  /**
   * The three outcomes of a response.  Problems take precedence over the
   * conclusion flag; without problems the flag decides.
   */
  function Classify(r: Response): (v: Verdict)
    ensures v == Correct <==> r.issues == [] && r.concReached
    ensures v == NotYet <==> r.issues == [] && !r.concReached
    ensures v.Errors? <==> r.issues != []
    ensures v.Errors? ==> v.issues == r.issues
  {
    if r.issues == [] then (if r.concReached then Correct else NotYet) else Errors(r.issues)
  }

  /** The value stored in `proofCompleted`. */
  function Completion(v: Verdict): string
  {
    match v
    case Correct => "true"
    case NotYet => "false"
    case Errors(_) => "error"
  }

  /** `proofCompleted` is "true", "false" or "error" exactly in the three cases of a response. */
  lemma CompletionMeaning(r: Response)
    ensures Completion(Classify(r)) == "true" <==> r.issues == [] && r.concReached
    ensures Completion(Classify(r)) == "false" <==> r.issues == [] && !r.concReached
    ensures Completion(Classify(r)) == "error" <==> r.issues != []
  {
  }

  /** What a proof table's results area shows. */
  datatype Panel = Waiting | Shown(v: Verdict)

  /** An outstanding request: the proof table it checks and its request number. */
  datatype Pending = Pending(id: nat, token: nat)

  /**
   * `checking` is `proofBeingChecked`; `issued` counts the requests sent so
   * far and numbers the next one.  The source keeps no request number: the
   * as-written handler ignores it, the corrected one compares it.
   */
  datatype Board = Board(checking: Option<Pending>, issued: nat, completed: map<nat, string>, panels: map<nat, Panel>)

  const Initial: Board := Board(None, 0, map[], map[])

  /**
   * `startCheckMe`: this table becomes the one being checked, under a fresh
   * request number, and shows "Checking ...".
   */
  function StartCheck(b: Board, id: nat): (b': Board)
    ensures b'.checking == Some(Pending(id, b.issued))
    ensures b'.issued == b.issued + 1
    ensures b'.completed == b.completed
    ensures id in b'.panels && b'.panels[id] == Waiting
    ensures forall other :: other != id ==> (other in b'.panels <==> other in b.panels)
    ensures forall other :: other != id && other in b.panels ==> b'.panels[other] == b.panels[other]
  {
    b.(checking := Some(Pending(id, b.issued)), issued := b.issued + 1, panels := b.panels[id := Waiting])
  }

  /**
   * `processProofCheckResponse(text, context)` as written: a response is
   * dropped when no check is outstanding; otherwise the status goes to the
   * proof the response belongs to (`context`) but the verdict text goes to
   * whichever proof is currently being checked.
   */
  function HandleResponseAsWritten(b: Board, context: nat, r: Response): (b': Board)
    ensures b.checking.None? ==> b' == b
    ensures b'.checking.None? && b'.issued == b.issued
    ensures b.checking.Some? ==> context in b'.completed && b'.completed[context] == Completion(Classify(r))
    ensures b.checking.Some? ==> b.checking.value.id in b'.panels && b'.panels[b.checking.value.id] == Shown(Classify(r))
    ensures b.checking.Some? ==> forall other :: other != b.checking.value.id ==> (other in b'.panels <==> other in b.panels)
    ensures b.checking.Some? ==> forall other :: other != b.checking.value.id && other in b.panels ==> b'.panels[other] == b.panels[other]
    ensures forall other :: other != context ==> (other in b'.completed <==> other in b.completed)
    ensures forall other :: other != context && other in b.completed ==> b'.completed[other] == b.completed[other]
  {
    match b.checking
    case None => b
    case Some(current) =>
      var v := Classify(r);
      Board(None, b.issued, b.completed[context := Completion(v)], b.panels[current.id := Shown(v)])
  }

  /**
   * The handler as evidently intended: a response is applied only when it
   * answers the outstanding request, of its own proof and under that
   * request's number; then status and verdict both go to that proof.
   * Any other response is stale and dropped.
   */
  function HandleResponse(b: Board, context: nat, token: nat, r: Response): (b': Board)
    ensures b.checking != Some(Pending(context, token)) ==> b' == b
    ensures b.checking == Some(Pending(context, token)) ==> b'.checking.None?
    ensures b.checking == Some(Pending(context, token)) ==> context in b'.panels && b'.panels[context] == Shown(Classify(r))
    ensures b.checking == Some(Pending(context, token)) ==> context in b'.completed && b'.completed[context] == Completion(Classify(r))
    ensures b'.issued == b.issued
    ensures forall other :: other != context ==> (other in b'.panels <==> other in b.panels)
    ensures forall other :: other != context && other in b.panels ==> b'.panels[other] == b.panels[other]
    ensures forall other :: other != context ==> (other in b'.completed <==> other in b.completed)
    ensures forall other :: other != context && other in b.completed ==> b'.completed[other] == b.completed[other]
  {
    if b.checking == Some(Pending(context, token)) then
      var v := Classify(r);
      Board(None, b.issued, b.completed[context := Completion(v)], b.panels[context := Shown(v)])
    else b
  }

  /** When the response answers the outstanding request, both handlers agree. */
  lemma AsWrittenAgreesWhenCurrent(b: Board, context: nat, token: nat, r: Response)
    requires b.checking == Some(Pending(context, token))
    ensures HandleResponseAsWritten(b, context, r) == HandleResponse(b, context, token, r)
  {
  }

  /** A check followed by its own response shows that response's verdict. */
  lemma CheckThenReply(b: Board, id: nat, r: Response)
    ensures HandleResponse(StartCheck(b, id), id, b.issued, r).panels[id] == Shown(Classify(r))
    ensures HandleResponse(StartCheck(b, id), id, b.issued, r).completed[id] == Completion(Classify(r))
  {
  }

  /**
   * As written, a response for one proof arriving while another is being
   * checked is shown on the other proof, and the other proof's own check is
   * then forgotten; the response's own proof keeps its panel ("Checking ..."
   * if it was waiting) while only its status changes.
   */
  lemma AsWrittenMisdirects(b: Board, context: nat, r: Response)
    requires b.checking.Some? && b.checking.value.id != context
    ensures HandleResponseAsWritten(b, context, r).panels[b.checking.value.id] == Shown(Classify(r))
    ensures HandleResponseAsWritten(b, context, r).checking.None?
    ensures context in b.panels ==> HandleResponseAsWritten(b, context, r).panels[context] == b.panels[context]
    ensures HandleResponseAsWritten(b, context, r).completed[context] == Completion(Classify(r))
  {
  }

  /* Event traces: check clicks and checker responses, in arrival order. */

  /** A response names its proof and the number of the request it answers. */
  datatype Event = Check(id: nat) | Reply(id: nat, token: nat, r: Response)

  function Step(b: Board, e: Event): Board
  {
    match e
    case Check(id) => StartCheck(b, id)
    case Reply(id, t, r) => HandleResponse(b, id, t, r)
  }

  function StepAsWritten(b: Board, e: Event): Board
  {
    match e
    case Check(id) => StartCheck(b, id)
    case Reply(id, _, r) => HandleResponseAsWritten(b, id, r)
  }

  function Run(es: seq<Event>): Board
  {
    if es == [] then Initial else Step(Run(es[..|es| - 1]), es[|es| - 1])
  }

  function RunAsWritten(es: seq<Event>): Board
  {
    if es == [] then Initial else StepAsWritten(RunAsWritten(es[..|es| - 1]), es[|es| - 1])
  }

  /** The number of check clicks in `es`: the `k`-th click sends request number `k`. */
  function NumChecks(es: seq<Event>): nat
  {
    if es == [] then 0 else NumChecks(es[..|es| - 1]) + (if es[|es| - 1].Check? then 1 else 0)
  }

  /** The number of the latest request for proof `id` in `es`, if any. */
  function LatestRequest(es: seq<Event>, id: nat): Option<nat>
  {
    if es == [] then None
    else if es[|es| - 1] == Check(id) then Some(NumChecks(es[..|es| - 1]))
    else LatestRequest(es[..|es| - 1], id)
  }

  /** Some response in `es` for proof `id` has verdict `v`. */
  ghost predicate Answered(es: seq<Event>, id: nat, v: Verdict)
  {
    exists k :: 0 <= k < |es| && es[k].Reply? && es[k].id == id && Classify(es[k].r) == v
  }

  /** The response in `es` to the latest request for proof `id` has verdict `v`. */
  ghost predicate AnsweredLatest(es: seq<Event>, id: nat, v: Verdict)
  {
    && LatestRequest(es, id).Some?
    && exists k :: 0 <= k < |es| && es[k].Reply? && es[k].id == id && es[k].token == LatestRequest(es, id).value
                   && Classify(es[k].r) == v
  }

  /** Request numbers are handed out in order. */
  lemma {:induction false} RunIssued(es: seq<Event>)
    ensures Run(es).issued == NumChecks(es)
  {
    if es != [] {
      RunIssued(es[..|es| - 1]);
    }
  }

  /** The outstanding request is the latest request of its proof. */
  lemma {:induction false} RunPendingIsLatest(es: seq<Event>)
    ensures Run(es).checking.Some? ==>
              LatestRequest(es, Run(es).checking.value.id) == Some(Run(es).checking.value.token)
  {
    if es != [] {
      var init := es[..|es| - 1];
      RunPendingIsLatest(init);
      RunIssued(init);
    }
  }

  /**
   * Every verdict a proof table shows is the answer to that proof's latest
   * request: answers to other proofs and stale answers to its own earlier
   * requests never reach it.
   */
  lemma {:induction false} RunShowsLatestVerdicts(es: seq<Event>)
    ensures forall id :: id in Run(es).panels && Run(es).panels[id].Shown? ==> AnsweredLatest(es, id, Run(es).panels[id].v)
  {
    if es != [] {
      var init := es[..|es| - 1];
      var e := es[|es| - 1];
      RunShowsLatestVerdicts(init);
      RunPendingIsLatest(init);
      var b := Run(init);
      assert Run(es) == Step(b, e);
      forall id | id in Run(es).panels && Run(es).panels[id].Shown?
        ensures AnsweredLatest(es, id, Run(es).panels[id].v)
      {
        var v := Run(es).panels[id].v;
        assert e != Check(id);
        assert LatestRequest(es, id) == LatestRequest(init, id);
        if e.Reply? && e.id == id && b.checking == Some(Pending(id, e.token)) {
          assert es[|es| - 1] == e;
        } else {
          assert id in b.panels && b.panels[id] == Run(es).panels[id];
          var k :| 0 <= k < |init| && init[k].Reply? && init[k].id == id && init[k].token == LatestRequest(init, id).value
                   && Classify(init[k].r) == v;
          assert es[k] == init[k];
        }
      }
    }
  }

  /** Every verdict shown came from some response to that proof. */
  lemma {:induction false} RunShowsOwnVerdicts(es: seq<Event>)
    ensures forall id :: id in Run(es).panels && Run(es).panels[id].Shown? ==> Answered(es, id, Run(es).panels[id].v)
  {
    RunShowsLatestVerdicts(es);
  }

  const Ok: Response := Response([], true)
  const Bad: Response := Response(["line 3: wrong rule"], false)

  /** The trace behind the finding: proof 2 is checked while proof 1's answer is still on its way. */
  const Overlap: seq<Event> := [Check(1), Check(2), Reply(1, 0, Ok), Reply(2, 1, Bad)]

  /**
   * As written, proof 2 shows "correct" although the only answer about it
   * reported an error, and proof 1, whose answer that was, still shows
   * "Checking ..."; with the corrected handler proof 2 shows its error.
   */
  lemma OverlapShowsForeignVerdict()
    ensures 2 in RunAsWritten(Overlap).panels && RunAsWritten(Overlap).panels[2] == Shown(Correct)
    ensures 1 in RunAsWritten(Overlap).panels && RunAsWritten(Overlap).panels[1] == Waiting
    ensures !Answered(Overlap, 2, Correct)
    ensures 2 in Run(Overlap).panels && Run(Overlap).panels[2] == Shown(Errors(Bad.issues))
  {
    var p1 := [Check(1)];
    var p2 := p1 + [Check(2)];
    var p3 := p2 + [Reply(1, 0, Ok)];
    assert p1[..0] == [] && p2[..1] == p1 && p3[..2] == p2 && Overlap[..3] == p3;
    var b1 := StartCheck(Initial, 1);
    var b2 := StartCheck(b1, 2);
    assert Run(p1) == b1;
    assert RunAsWritten(p1) == b1;
    assert Run(p2) == b2;
    assert RunAsWritten(p2) == b2;
    assert Run(p3) == b2;
    assert RunAsWritten(p3) == HandleResponseAsWritten(b2, 1, Ok);
    forall k | 0 <= k < |Overlap| && Overlap[k].Reply? && Overlap[k].id == 2
      ensures Classify(Overlap[k].r) != Correct
    {
      assert k == 3;
    }
  }

  /** The same proof checked twice; the answer to the first request arrives first. */
  const Recheck: seq<Event> := [Check(1), Check(1), Reply(1, 0, Ok), Reply(1, 1, Bad)]

  /**
   * As written, the stale answer to the first request is shown and the
   * answer to the latest request is dropped; the corrected handler shows
   * the latest answer.
   */
  lemma RecheckShowsStaleVerdict()
    ensures 1 in RunAsWritten(Recheck).panels && RunAsWritten(Recheck).panels[1] == Shown(Correct)
    ensures LatestRequest(Recheck, 1) == Some(1) && Recheck[2].token != 1
    ensures 1 in Run(Recheck).panels && Run(Recheck).panels[1] == Shown(Errors(Bad.issues))
  {
    var p1 := [Check(1)];
    var p2 := p1 + [Check(1)];
    var p3 := p2 + [Reply(1, 0, Ok)];
    assert p1[..0] == [] && p2[..1] == p1 && p3[..2] == p2 && Recheck[..3] == p3;
    var b1 := StartCheck(Initial, 1);
    var b2 := StartCheck(b1, 1);
    assert Run(p1) == b1;
    assert RunAsWritten(p1) == b1;
    assert Run(p2) == b2;
    assert RunAsWritten(p2) == b2;
    assert Run(p3) == b2;
    assert RunAsWritten(p3) == HandleResponseAsWritten(b2, 1, Ok);
    assert NumChecks(p1) == 1 by {
      assert NumChecks(p1[..0]) == 0;
    }
    assert LatestRequest(p2, 1) == Some(1);
    assert LatestRequest(p3, 1) == Some(1);
  }
}

=== FILE: document.dfy ===
/**
 * The nested proof document of the Fitch-style proof editor.
 *
 * In the editor a proof is a JavaScript array whose elements are either
 * line objects `{wffstr, jstr}` or nested arrays (subproofs).  Here the
 * "array or object" test becomes an explicit variant: a node is a `Leaf`
 * holding one line or a `Sub` holding the subproof's children.  The
 * document root is a plain `seq<Node>`.
 *
 * A location is a path of indices: every index but the last selects a
 * nested subproof, the last selects a node inside the innermost one.
 */
module Document {

  /** One row of the derivation: its formula (`wffstr`) and justification (`jstr`). */
  datatype Line = Line(wff: string, just: string)

  datatype Node = Leaf(line: Line) | Sub(children: seq<Node>)

  type Location = seq<nat>

  /** The justification marking a premise row. */
  const Premise: string := "Pr"

  /** The justification marking the hypothesis that opens a subproof. */
  const Hypothesis: string := "Hyp"

  /**
   * The lines of a document in pre-order, by direct tree recursion: the
   * reading order of the proof table and the source of its line numbers
   * (line number = index + 1).
   */
  function Lines(a: seq<Node>): seq<Line>
  {
    if a == [] then [] else Lines(a[..|a| - 1]) + NodeLines(a[|a| - 1])
  }

  function NodeLines(n: Node): seq<Line>
  {
    match n
    case Leaf(l) => [l]
    case Sub(c) => Lines(c)
  }

  function LeafCount(a: seq<Node>): nat
  {
    |Lines(a)|
  }

  lemma {:induction false} LinesAppend(a: seq<Node>, b: seq<Node>)
    ensures Lines(a + b) == Lines(a) + Lines(b)
    decreases |b|
  {
    if b == [] {
      assert a + b == a;
    } else {
      var b' := b[..|b| - 1];
      assert (a + b)[..|a + b| - 1] == a + b';
      assert (a + b)[|a + b| - 1] == b[|b| - 1];
      LinesAppend(a, b');
    }
  }

  lemma LinesSingle(n: Node)
    ensures Lines([n]) == NodeLines(n)
  {
    assert [n][..0] == [];
  }

  /** The lines of `a` are those before node `i`, then node `i`'s, then those after it. */
  lemma LinesSplitAt(a: seq<Node>, i: nat)
    requires i < |a|
    ensures Lines(a) == Lines(a[..i]) + NodeLines(a[i]) + Lines(a[i + 1..])
  {
    var q, post := a[..i + 1], a[i + 1..];
    assert q + post == a;
    LinesAppend(q, post);
    assert q[..i] == a[..i] && q[i] == a[i];
    assert Lines(q) == Lines(a[..i]) + NodeLines(a[i]);
  }

  /** Replacing node `i` replaces exactly its block of lines. */
  lemma LinesUpdate(a: seq<Node>, i: nat, n: Node)
    requires i < |a|
    ensures Lines(a[i := n]) == Lines(a[..i]) + NodeLines(n) + Lines(a[i + 1..])
  {
    var b := a[i := n];
    LinesSplitAt(b, i);
    assert b[..i] == a[..i];
    assert b[i + 1..] == a[i + 1..];
  }

  /** Inserting node `n` before index `i` inserts its block of lines. */
  lemma LinesInsert(a: seq<Node>, i: nat, n: Node)
    requires i <= |a|
    ensures Lines(a[..i] + [n] + a[i..]) == Lines(a[..i]) + NodeLines(n) + Lines(a[i..])
  {
    LinesAppend(a[..i] + [n], a[i..]);
    LinesAppend(a[..i], [n]);
    LinesSingle(n);
  }

  /** `p` is a path to a node: every index but the last selects a subproof. */
  predicate IsNodePath(a: seq<Node>, p: Location)
    decreases p
  {
    && |p| > 0
    && p[0] < |a|
    && (|p| == 1 || (a[p[0]].Sub? && IsNodePath(a[p[0]].children, p[1..])))
  }

  function NodeAt(a: seq<Node>, p: Location): Node
    requires IsNodePath(a, p)
    decreases p
  {
    if |p| == 1 then a[p[0]] else NodeAt(a[p[0]].children, p[1..])
  }

  /** `p` is the location of a line (a leaf). */
  predicate IsLeafLoc(a: seq<Node>, p: Location)
  {
    IsNodePath(a, p) && NodeAt(a, p).Leaf?
  }

  /** `q` selects nested subproofs all the way down (the empty path selects the root). */
  predicate IsSubproofPath(a: seq<Node>, q: Location)
    decreases q
  {
    |q| == 0 || (q[0] < |a| && a[q[0]].Sub? && IsSubproofPath(a[q[0]].children, q[1..]))
  }

  /** The number of lines that precede the node at `p` in pre-order. */
  function Offset(a: seq<Node>, p: Location): nat
    requires IsNodePath(a, p)
    decreases p
  {
    LeafCount(a[..p[0]]) + (if |p| == 1 then 0 else Offset(a[p[0]].children, p[1..]))
  }

  /** The node at `p` owns the block of lines starting at `Offset(a, p)`. */
  lemma {:induction false} NodeLinesAtOffset(a: seq<Node>, p: Location)
    requires IsNodePath(a, p)
    ensures Offset(a, p) + |NodeLines(NodeAt(a, p))| <= LeafCount(a)
    ensures Lines(a)[Offset(a, p)..Offset(a, p) + |NodeLines(NodeAt(a, p))|] == NodeLines(NodeAt(a, p))
    decreases p
  {
    var i := p[0];
    LinesSplitAt(a, i);
    if |p| == 1 {
      SliceOfBlock(Lines(a[..i]), NodeLines(a[i]), Lines(a[i + 1..]), 0, |NodeLines(a[i])|);
    } else {
      var c := a[i].children;
      NodeLinesAtOffset(c, p[1..]);
      var o := Offset(c, p[1..]);
      var m := |NodeLines(NodeAt(c, p[1..]))|;
      SliceOfBlock(Lines(a[..i]), Lines(c), Lines(a[i + 1..]), o, o + m);
    }
  }

  /** A slice of the middle block of `pre + c + post`, in the whole sequence's indices. */
  lemma SliceOfBlock<T>(pre: seq<T>, c: seq<T>, post: seq<T>, e: nat, f: nat)
    requires e <= f <= |c|
    ensures |pre| + f <= |pre + c + post|
    ensures (pre + c + post)[|pre| + e..|pre| + f] == c[e..f]
  {
    var s := pre + c + post;
    assert forall k :: 0 <= k < f - e ==> s[|pre| + e..|pre| + f][k] == c[e..f][k];
  }

  /** The line at location `p` is the line numbered `Offset(a, p) + 1`. */
  lemma LeafAtOffset(a: seq<Node>, p: Location)
    requires IsLeafLoc(a, p)
    ensures Offset(a, p) < LeafCount(a)
    ensures Lines(a)[Offset(a, p)] == NodeAt(a, p).line
  {
    NodeLinesAtOffset(a, p);
    assert Lines(a)[Offset(a, p)] == Lines(a)[Offset(a, p)..Offset(a, p) + 1][0];
  }

  /** Appending nodes after a path changes neither what it selects nor its offset. */
  lemma PathInPrefix(a: seq<Node>, b: seq<Node>, p: Location)
    requires IsNodePath(a, p)
    ensures IsNodePath(a + b, p)
    ensures NodeAt(a + b, p) == NodeAt(a, p)
    ensures Offset(a + b, p) == Offset(a, p)
  {
    assert (a + b)[p[0]] == a[p[0]];
    assert (a + b)[..p[0]] == a[..p[0]];
  }

  /**
   * The structural invariant of the editor: every subproof is non-empty and
   * opens with a line (its hypothesis); the root has no such requirement.
   */
  predicate WellFormed(a: seq<Node>)
  {
    forall i :: 0 <= i < |a| ==> NodeWellFormed(a[i])
  }

  predicate NodeWellFormed(n: Node)
  {
    match n
    case Leaf(_) => true
    case Sub(c) => c != [] && c[0].Leaf? && WellFormed(c)
  }

  /** Two documents with the same nesting and the same leaf positions. */
  predicate SameShape(a: seq<Node>, b: seq<Node>)
  {
    |a| == |b| && forall i :: 0 <= i < |a| ==> NodeSameShape(a[i], b[i])
  }

  predicate NodeSameShape(m: Node, n: Node)
  {
    match m
    case Leaf(_) => n.Leaf?
    case Sub(c) => n.Sub? && SameShape(c, n.children)
  }
}

=== FILE: edits.dfy ===
/**
 * The location-addressed mutations of the proof editor: inserting a line
 * or a subproof (`addNLtoPD`, `putNewLineAt`), deleting a line or a whole
 * subproof (`deletePDLine`, `delLineFromLocation`) and editing a line's
 * formula or justification (`changeWffAt`/`changeWffValue`,
 * `changeJAt`/`changeJValue`).  Every operation resolves a flat line
 * position to a location and then descends the nested arrays along it.
 *
 * The input filters `fixWffInputStr` and `fixJInputStr` are not part of
 * this model; they are passed in as arbitrary string functions.
 */
module Edits {
  import opened Wrappers
  import opened Document
  import opened Flatten
  import opened RuleNames

  /** The node an add button inserts: an empty line, or a subproof opened by an empty hypothesis. */
  function NewNode(newsp: bool): Node
  {
    if newsp then Sub([Leaf(Line("", Hypothesis))]) else Leaf(Line("", ""))
  }

  /** `a.splice(i, 0, x)`: an index past the end appends. */
  function SpliceInsert(a: seq<Node>, i: nat, x: Node): (b: seq<Node>)
    ensures |b| == |a| + 1
    ensures b[if i < |a| then i else |a|] == x
  {
    var j := if i < |a| then i else |a|;
    a[..j] + [x] + a[j..]
  }

  /** `a.splice(i, 1)`: an index past the end removes nothing. */
  function SpliceRemove(a: seq<Node>, i: nat): (b: seq<Node>)
    ensures |b| == if i < |a| then |a| - 1 else |a|
  {
    if i < |a| then a[..i] + a[i + 1..] else a
  }

  /** Removing what was just spliced in gives the original array back. */
  lemma SpliceInsertRemove(a: seq<Node>, i: nat, x: Node)
    ensures SpliceRemove(SpliceInsert(a, i, x), if i < |a| then i else |a|) == a
  {
    var j := if i < |a| then i else |a|;
    var b := SpliceInsert(a, i, x);
    assert b[..j] == a[..j];
    assert b[j + 1..] == a[j..];
    assert a[..j] + a[j..] == a;
  }

  /** The first line after the node at `p`: its offset plus its own lines. */
  function End(a: seq<Node>, p: Location): nat
    requires IsNodePath(a, p)
  {
    Offset(a, p) + |NodeLines(NodeAt(a, p))|
  }

  /** A path through the subproof at `i` of `a`. */
  lemma PathCons(a: seq<Node>, i: nat, q: Location)
    requires i < |a| && a[i].Sub? && IsNodePath(a[i].children, q)
    ensures IsNodePath(a, [i] + q)
    ensures NodeAt(a, [i] + q) == NodeAt(a[i].children, q)
    ensures Offset(a, [i] + q) == LeafCount(a[..i]) + Offset(a[i].children, q)
  {
    assert ([i] + q)[0] == i;
    assert ([i] + q)[1..] == q;
  }

  /** A non-empty prefix of a node path is a node path (to an enclosing subproof). */
  lemma {:induction false} NodePathPrefix(a: seq<Node>, p: Location, k: nat)
    requires IsNodePath(a, p) && 0 < k <= |p|
    ensures IsNodePath(a, p[..k])
    ensures k < |p| ==> NodeAt(a, p[..k]).Sub? && p[k] < |NodeAt(a, p[..k]).children|
    decreases p
  {
    if k > 1 {
      NodePathPrefix(a[p[0]].children, p[1..], k - 1);
      assert p[..k][1..] == p[1..][..k - 1];
    }
  }

  /** The offset of a root node is the number of lines before it. */
  lemma RootOffset(a: seq<Node>, i: nat)
    requires i < |a|
    ensures IsNodePath(a, [i]) && NodeAt(a, [i]) == a[i]
    ensures Offset(a, [i]) == LeafCount(a[..i])
    ensures End(a, [i]) == LeafCount(a[..i]) + |NodeLines(a[i])|
  {
  }

  /** Rewriting one block of lines inside a larger sequence of lines. */
  lemma SpliceLines(pre: seq<Line>, c: seq<Line>, post: seq<Line>, e: nat, f: nat, x: seq<Line>)
    requires e <= f <= |c|
    ensures pre + (c[..e] + x + c[f..]) + post ==
            (pre + c + post)[..|pre| + e] + x + (pre + c + post)[|pre| + f..]
  {
    var l := pre + c + post;
    assert l[..|pre| + e] == pre + c[..e];
    assert l[|pre| + f..] == c[f..] + post;
  }

  /**
   * Rewriting a block of the lines of the subproof at root index `i`
   * rewrites the same block of the document's lines, shifted by the lines
   * before the subproof.
   */
  lemma LiftLines(a: seq<Node>, i: nat, c': seq<Node>, e: nat, f: nat, x: seq<Line>)
    requires i < |a| && a[i].Sub? && e <= f <= LeafCount(a[i].children)
    requires Lines(c') == Lines(a[i].children)[..e] + x + Lines(a[i].children)[f..]
    ensures LeafCount(a[..i]) + f <= LeafCount(a)
    ensures Lines(a[i := Sub(c')]) == Lines(a)[..LeafCount(a[..i]) + e] + x + Lines(a)[LeafCount(a[..i]) + f..]
  {
    LinesUpdate(a, i, Sub(c'));
    LinesSplitAt(a, i);
    SpliceLines(Lines(a[..i]), Lines(a[i].children), Lines(a[i + 1..]), e, f, x);
  }

  /*
   * Insertion.
   */

  /**
   * Where an insertion goes: after the node at `loc`, or, escaping to the
   * parent (`uppa`) from inside a subproof, after the subproof enclosing it.
   */
  function Anchor(loc: Location, uppa: bool): Location
  {
    if uppa && |loc| >= 2 then loc[..|loc| - 1] else loc
  }

  /**
   * `putNewLineAt(pd, loc, newsp, uppa)`: descends along `loc` and splices
   * the new node in right after the last index (after the second-to-last
   * one when escaping to the parent).
   */
  function PutNewLineAt(a: seq<Node>, loc: Location, newsp: bool, uppa: bool): seq<Node>
    requires |loc| == 1 || IsNodePath(a, loc)
    decreases |loc|
  {
    if |loc| == 1 || (|loc| == 2 && uppa) then
      SpliceInsert(a, loc[0] + 1, NewNode(newsp))
    else
      a[loc[0] := Sub(PutNewLineAt(a[loc[0]].children, loc[1..], newsp, uppa))]
  }

  /** The new node's lines appear right after the lines of the node at `Anchor(loc, uppa)`. */
  lemma {:induction false} PutNewLineAtLines(a: seq<Node>, loc: Location, newsp: bool, uppa: bool)
    requires IsNodePath(a, loc)
    ensures IsNodePath(a, Anchor(loc, uppa))
    ensures End(a, Anchor(loc, uppa)) <= LeafCount(a)
    ensures Lines(PutNewLineAt(a, loc, newsp, uppa)) ==
            Lines(a)[..End(a, Anchor(loc, uppa))] + NodeLines(NewNode(newsp)) + Lines(a)[End(a, Anchor(loc, uppa))..]
    decreases |loc|
  {
    if |loc| == 1 || (|loc| == 2 && uppa) {
      PutNewLineAtLinesRoot(a, loc, newsp, uppa);
    } else {
      var c := a[loc[0]].children;
      var q := Anchor(loc[1..], uppa);
      PutNewLineAtLines(c, loc[1..], newsp, uppa);
      PutNewLineAtLinesNested(a, loc, newsp, uppa, PutNewLineAt(c, loc[1..], newsp, uppa), q, End(c, q));
      assert Anchor(loc, uppa) == [loc[0]] + q;
    }
  }

  /** The base case of `PutNewLineAtLines`: the insertion happens in `a` itself. */
  lemma PutNewLineAtLinesRoot(a: seq<Node>, loc: Location, newsp: bool, uppa: bool)
    requires IsNodePath(a, loc) && (|loc| == 1 || (|loc| == 2 && uppa))
    ensures IsNodePath(a, Anchor(loc, uppa))
    ensures End(a, Anchor(loc, uppa)) <= LeafCount(a)
    ensures Lines(PutNewLineAt(a, loc, newsp, uppa)) ==
            Lines(a)[..End(a, Anchor(loc, uppa))] + NodeLines(NewNode(newsp)) + Lines(a)[End(a, Anchor(loc, uppa))..]
  {
    assert Anchor(loc, uppa) == [loc[0]];
    InsertAfterRoot(a, loc[0], NewNode(newsp));
    RootOffset(a, loc[0]);
  }

  /** The descending step of `PutNewLineAtLines`, from the subproof at `loc[0]` to the document. */
  lemma PutNewLineAtLinesNested(a: seq<Node>, loc: Location, newsp: bool, uppa: bool, c': seq<Node>, q: Location, e: nat)
    requires IsNodePath(a, loc) && !(|loc| == 1 || (|loc| == 2 && uppa))
    requires c' == PutNewLineAt(a[loc[0]].children, loc[1..], newsp, uppa)
    requires q == Anchor(loc[1..], uppa)
    requires IsNodePath(a[loc[0]].children, q) && e == End(a[loc[0]].children, q) && e <= LeafCount(a[loc[0]].children)
    requires Lines(c') == Lines(a[loc[0]].children)[..e] + NodeLines(NewNode(newsp)) + Lines(a[loc[0]].children)[e..]
    ensures IsNodePath(a, [loc[0]] + q)
    ensures End(a, [loc[0]] + q) == LeafCount(a[..loc[0]]) + e <= LeafCount(a)
    ensures Lines(a[loc[0] := Sub(c')]) ==
            Lines(a)[..LeafCount(a[..loc[0]]) + e] + NodeLines(NewNode(newsp)) + Lines(a)[LeafCount(a[..loc[0]]) + e..]
  {
    PathCons(a, loc[0], q);
    LiftLines(a, loc[0], c', e, e, NodeLines(NewNode(newsp)));
  }

  /** Splicing `x` in after root node `i` puts its lines right after that node's lines. */
  lemma InsertAfterRoot(a: seq<Node>, i: nat, x: Node)
    requires i < |a|
    ensures LeafCount(a[..i]) + |NodeLines(a[i])| <= LeafCount(a)
    ensures Lines(SpliceInsert(a, i + 1, x)) ==
            Lines(a)[..LeafCount(a[..i]) + |NodeLines(a[i])|] + NodeLines(x) + Lines(a)[LeafCount(a[..i]) + |NodeLines(a[i])|..]
  {
    var b := a[..i + 1];
    assert b[..i] == a[..i];
    var pre := Lines(b);
    var post := Lines(a[i + 1..]);
    assert pre == Lines(a[..i]) + NodeLines(a[i]);
    assert Lines(a) == pre + post by {
      assert a == b + a[i + 1..];
      LinesAppend(b, a[i + 1..]);
    }
    assert Lines(SpliceInsert(a, i + 1, x)) == pre + NodeLines(x) + post by {
      LinesInsert(a, i + 1, x);
    }
    assert (pre + post)[..|pre|] == pre;
    assert (pre + post)[|pre|..] == post;
  }

  /** Insertion keeps every subproof non-empty and opened by a line. */
  lemma {:induction false} PutNewLineAtWellFormed(a: seq<Node>, loc: Location, newsp: bool, uppa: bool)
    requires WellFormed(a) && (|loc| == 1 || IsNodePath(a, loc))
    ensures WellFormed(PutNewLineAt(a, loc, newsp, uppa))
    ensures |a| > 0 && a[0].Leaf? ==> |PutNewLineAt(a, loc, newsp, uppa)| > 0 && PutNewLineAt(a, loc, newsp, uppa)[0] == a[0]
    decreases |loc|
  {
    var b := PutNewLineAt(a, loc, newsp, uppa);
    if |loc| == 1 || (|loc| == 2 && uppa) {
      var j := if loc[0] + 1 < |a| then loc[0] + 1 else |a|;
      assert b == a[..j] + [NewNode(newsp)] + a[j..];
      assert NodeWellFormed(NewNode(newsp));
      forall k | 0 <= k < |b|
        ensures NodeWellFormed(b[k])
      {
        if k < j {
          assert b[k] == a[k];
        } else if k > j {
          assert b[k] == a[k - 1];
        }
      }
    } else {
      var c := a[loc[0]].children;
      PutNewLineAtWellFormed(c, loc[1..], newsp, uppa);
      assert NodeWellFormed(a[loc[0]]);
      assert NodeWellFormed(b[loc[0]]);
    }
  }

  /**
   * `addNLtoPD(pd, n, newsp, uppa)`: inserts after the line at flat
   * position `n`; a position past the last line stands for the root index
   * `n` itself.
   */
  function AddNLtoPD(a: seq<Node>, n: nat, newsp: bool, uppa: bool): (b: seq<Node>)
    ensures n < LeafCount(a) && (!uppa || |Resolve(a, n)| == 1) ==>
              Lines(b) == Lines(a)[..n + 1] + NodeLines(NewNode(newsp)) + Lines(a)[n + 1..]
    ensures n >= LeafCount(a) && WellFormed(a) ==> b == a + [NewNode(newsp)]
  {
    var loc := Resolve(a, n);
    if n < LeafCount(a) then
      PutNewLineAtLines(a, loc, newsp, uppa);
      PutNewLineAt(a, loc, newsp, uppa)
    else
      WellFormedFewerNodes(a);
      PutNewLineAt(a, loc, newsp, uppa)
  }

  /** In a well-formed document every node holds at least one line. */
  lemma {:induction false} WellFormedFewerNodes(a: seq<Node>)
    ensures WellFormed(a) ==> |a| <= LeafCount(a)
    decreases |a|
  {
    if a != [] && WellFormed(a) {
      var i := |a| - 1;
      assert WellFormed(a[..i]) by {
        forall k | 0 <= k < i
          ensures NodeWellFormed(a[..i][k])
        {
          assert a[..i][k] == a[k];
        }
      }
      WellFormedFewerNodes(a[..i]);
      assert Lines(a) == Lines(a[..i]) + NodeLines(a[i]);
      assert NodeWellFormed(a[i]);
      if a[i].Sub? {
        var c := a[i].children;
        assert c[0].Leaf?;
        LinesSplitAt(c, 0);
        assert |NodeLines(c[0])| == 1;
      }
    }
  }

  /** Every insertion keeps the document well formed. */
  lemma AddNLtoPDWellFormed(a: seq<Node>, n: nat, newsp: bool, uppa: bool)
    requires WellFormed(a)
    ensures WellFormed(AddNLtoPD(a, n, newsp, uppa))
  {
    PutNewLineAtWellFormed(a, Resolve(a, n), newsp, uppa);
  }

  /**
   * Escaping to the parent from a line inside a subproof inserts after the
   * lines of the enclosing subproof, as that subproof's next sibling.
   */
  lemma AddToParentLines(a: seq<Node>, n: nat, newsp: bool)
    requires n < LeafCount(a) && |Resolve(a, n)| >= 2
    ensures var q := Resolve(a, n)[..|Resolve(a, n)| - 1];
            && IsSubproofPath(a, q) && IsNodePath(a, q)
            && End(a, q) <= LeafCount(a)
            && Lines(AddNLtoPD(a, n, newsp, true)) ==
               Lines(a)[..End(a, q)] + NodeLines(NewNode(newsp)) + Lines(a)[End(a, q)..]
    ensures var p := Next(Resolve(a, n)[..|Resolve(a, n)| - 1]);
            && |p| == |Resolve(a, n)| - 1
            && IsNodePath(AddNLtoPD(a, n, newsp, true), p)
            && NodeAt(AddNLtoPD(a, n, newsp, true), p) == NewNode(newsp)
            && DelLineFromLocation(AddNLtoPD(a, n, newsp, true), p) == a
  {
    var loc := Resolve(a, n);
    PutNewLineAtLines(a, loc, newsp, true);
    LocationParentIsSubproofPath(a, loc);
    PutUpThenDelete(a, loc, newsp);
  }

  /**
   * The escape buttons sit on the last line of a subproof: there the new
   * node's lines follow that line, at flat position `n + 1`, while the node
   * itself closes the subproof and sits one level up, as its next sibling.
   */
  lemma AddToParentAfterLastLine(a: seq<Node>, n: nat, newsp: bool)
    requires n < LeafCount(a) && ClosesSubproof(a, Resolve(a, n))
    ensures Lines(AddNLtoPD(a, n, newsp, true)) ==
            Lines(a)[..n + 1] + NodeLines(NewNode(newsp)) + Lines(a)[n + 1..]
    ensures var p := Next(Resolve(a, n)[..|Resolve(a, n)| - 1]);
            && |p| == |Resolve(a, n)| - 1
            && IsNodePath(AddNLtoPD(a, n, newsp, true), p)
            && NodeAt(AddNLtoPD(a, n, newsp, true), p) == NewNode(newsp)
            && DelLineFromLocation(AddNLtoPD(a, n, newsp, true), p) == a
  {
    var loc := Resolve(a, n);
    var q := loc[..|loc| - 1];
    AddToParentLines(a, n, newsp);
    LastChildEnd(a, q, loc[|loc| - 1]);
    assert q + [loc[|loc| - 1]] == loc;
  }

  /** The node at `loc` is the last node of a subproof (where the escape buttons are drawn). */
  predicate ClosesSubproof(a: seq<Node>, loc: Location)
  {
    && |loc| >= 2
    && IsNodePath(a, loc[..|loc| - 1])
    && NodeAt(a, loc[..|loc| - 1]).Sub?
    && loc[|loc| - 1] + 1 == |NodeAt(a, loc[..|loc| - 1]).children|
  }

  /** The last line of a subproof ends that subproof's block of lines. */
  lemma {:induction false} LastChildEnd(a: seq<Node>, q: Location, j: nat)
    requires IsNodePath(a, q) && NodeAt(a, q).Sub? && j + 1 == |NodeAt(a, q).children|
    ensures IsNodePath(a, q + [j])
    ensures End(a, q + [j]) == End(a, q)
    decreases q
  {
    var i := q[0];
    if |q| == 1 {
      var c := a[i].children;
      assert (q + [j])[1..] == [j];
      PathCons(a, i, [j]);
      RootOffset(c, j);
      assert c == c[..j] + [c[j]];
      assert Lines(c) == Lines(c[..j]) + NodeLines(c[j]);
    } else {
      var c := a[i].children;
      LastChildEnd(c, q[1..], j);
      assert q == [i] + q[1..];
      assert q + [j] == [i] + (q[1..] + [j]);
      PathCons(a, i, q[1..]);
      PathCons(a, i, q[1..] + [j]);
    }
  }

  /*
   * Deletion.
   */

  /** `delLineFromLocation(pd, loc)`: splices out the node at `loc`. */
  function DelLineFromLocation(a: seq<Node>, loc: Location): seq<Node>
    requires IsNodePath(a, loc)
    decreases |loc|
  {
    if |loc| == 1 then SpliceRemove(a, loc[0])
    else a[loc[0] := Sub(DelLineFromLocation(a[loc[0]].children, loc[1..]))]
  }

  /** `loc` names a place for a node: a path to a subproof's array, then any index up to its length. */
  predicate IsInsertPath(a: seq<Node>, loc: Location)
    decreases |loc|
  {
    && |loc| > 0
    && if |loc| == 1 then loc[0] <= |a|
       else loc[0] < |a| && a[loc[0]].Sub? && IsInsertPath(a[loc[0]].children, loc[1..])
  }

  /**
   * Puts `x` into the array `loc` leads to, at `loc`'s last index; every
   * other node keeps its place and its subproof.
   */
  function InsertNodeAt(a: seq<Node>, loc: Location, x: Node): (b: seq<Node>)
    requires IsInsertPath(a, loc)
    ensures IsNodePath(b, loc) && NodeAt(b, loc) == x
    decreases |loc|
  {
    if |loc| == 1 then
      assert (a[..loc[0]] + [x] + a[loc[0]..])[loc[0]] == x;
      a[..loc[0]] + [x] + a[loc[0]..]
    else
      a[loc[0] := Sub(InsertNodeAt(a[loc[0]].children, loc[1..], x))]
  }

  /** Two arrays that become equal once the same node is put at the same place were equal. */
  lemma {:induction false} InsertNodeAtInjective(a: seq<Node>, b: seq<Node>, loc: Location, x: Node)
    requires IsInsertPath(a, loc) && IsInsertPath(b, loc)
    requires InsertNodeAt(a, loc, x) == InsertNodeAt(b, loc, x)
    ensures a == b
    decreases |loc|
  {
    var i := loc[0];
    var u := InsertNodeAt(a, loc, x);
    if |loc| == 1 {
      assert |a| == |b|;
      forall k | 0 <= k < |a|
        ensures a[k] == b[k]
      {
        if k < i {
          assert a[k] == u[k] == b[k];
        } else {
          assert a[k] == u[k + 1] == b[k];
        }
      }
    } else {
      assert |a| == |u| == |b|;
      InsertNodeAtInjective(a[i].children, b[i].children, loc[1..], x);
      assert a[i] == b[i];
      forall k | 0 <= k < |a|
        ensures a[k] == b[k]
      {
        if k != i {
          assert a[k] == u[k] == b[k];
        }
      }
    }
  }

  /**
   * Deletion removes the node at `p` and nothing else: putting that node
   * back at `p` rebuilds the document. Together with
   * `InsertNodeAtInjective`, this fixes the deleted document's tree, not
   * only its lines.
   */
  lemma {:induction false} DeleteThenReinsert(a: seq<Node>, p: Location)
    requires IsNodePath(a, p)
    ensures IsInsertPath(DelLineFromLocation(a, p), p)
    ensures InsertNodeAt(DelLineFromLocation(a, p), p, NodeAt(a, p)) == a
    decreases |p|
  {
    var i := p[0];
    var b := DelLineFromLocation(a, p);
    if |p| == 1 {
      assert b[..i] == a[..i] && b[i..] == a[i + 1..];
      assert a[..i] + [a[i]] + a[i + 1..] == a;
    } else {
      var c := a[i].children;
      DeleteThenReinsert(c, p[1..]);
      assert b[i := Sub(InsertNodeAt(DelLineFromLocation(c, p[1..]), p[1..], NodeAt(a, p)))] == a;
    }
  }

  /** Deleting the node at `p` removes exactly its block of lines. */
  lemma {:induction false} DelLineFromLocationLines(a: seq<Node>, p: Location)
    requires IsNodePath(a, p)
    ensures Offset(a, p) <= End(a, p) <= LeafCount(a)
    ensures Lines(DelLineFromLocation(a, p)) == Lines(a)[..Offset(a, p)] + Lines(a)[End(a, p)..]
    decreases |p|
  {
    if |p| == 1 {
      DelLineFromLocationLinesRoot(a, p);
    } else {
      var c := a[p[0]].children;
      DelLineFromLocationLines(c, p[1..]);
      DelLineFromLocationLinesNested(a, p, DelLineFromLocation(c, p[1..]), Offset(c, p[1..]), End(c, p[1..]));
      assert p == [p[0]] + p[1..];
    }
  }

  /** The base case of `DelLineFromLocationLines`: the node is spliced out of `a` itself. */
  lemma DelLineFromLocationLinesRoot(a: seq<Node>, p: Location)
    requires IsNodePath(a, p) && |p| == 1
    ensures Offset(a, p) <= End(a, p) <= LeafCount(a)
    ensures Lines(DelLineFromLocation(a, p)) == Lines(a)[..Offset(a, p)] + Lines(a)[End(a, p)..]
  {
    DeleteRoot(a, p[0]);
    RootOffset(a, p[0]);
    assert p == [p[0]];
  }

  /** Splicing out root node `i` removes exactly its lines. */
  lemma DeleteRoot(a: seq<Node>, i: nat)
    requires i < |a|
    ensures LeafCount(a[..i]) + |NodeLines(a[i])| <= LeafCount(a)
    ensures Lines(SpliceRemove(a, i)) == Lines(a)[..LeafCount(a[..i])] + Lines(a)[LeafCount(a[..i]) + |NodeLines(a[i])|..]
  {
    var pre := Lines(a[..i]);
    var mid := NodeLines(a[i]);
    var post := Lines(a[i + 1..]);
    assert Lines(a) == pre + mid + post by {
      LinesSplitAt(a, i);
    }
    assert Lines(SpliceRemove(a, i)) == pre + post by {
      LinesAppend(a[..i], a[i + 1..]);
    }
    assert (pre + mid + post)[..|pre|] == pre;
    assert (pre + mid + post)[|pre| + |mid|..] == post;
  }

  /** The descending step of `DelLineFromLocationLines`, from the subproof at `p[0]` to the document. */
  lemma DelLineFromLocationLinesNested(a: seq<Node>, p: Location, c': seq<Node>, o: nat, e: nat)
    requires IsNodePath(a, p) && |p| > 1
    requires c' == DelLineFromLocation(a[p[0]].children, p[1..])
    requires o == Offset(a[p[0]].children, p[1..]) && e == End(a[p[0]].children, p[1..])
    requires o <= e <= LeafCount(a[p[0]].children)
    requires Lines(c') == Lines(a[p[0]].children)[..o] + Lines(a[p[0]].children)[e..]
    ensures IsNodePath(a, [p[0]] + p[1..])
    ensures Offset(a, [p[0]] + p[1..]) == LeafCount(a[..p[0]]) + o
    ensures End(a, [p[0]] + p[1..]) == LeafCount(a[..p[0]]) + e <= LeafCount(a)
    ensures Lines(a[p[0] := Sub(c')]) == Lines(a)[..LeafCount(a[..p[0]]) + o] + Lines(a)[LeafCount(a[..p[0]]) + e..]
  {
    PathCons(a, p[0], p[1..]);
    LiftLines(a, p[0], c', o, e, []);
  }

  /**
   * Deleting a node that does not open a subproof keeps the document well
   * formed, and keeps the first node of every array whose first node is a line.
   */
  lemma {:induction false} DelLineFromLocationWellFormed(a: seq<Node>, p: Location)
    requires WellFormed(a) && IsNodePath(a, p)
    requires |p| == 1 || p[|p| - 1] > 0
    ensures WellFormed(DelLineFromLocation(a, p))
    ensures |a| > 0 && a[0].Leaf? && (p[0] > 0 || |p| > 1) ==>
              |DelLineFromLocation(a, p)| > 0 && DelLineFromLocation(a, p)[0] == a[0]
    decreases |p|
  {
    var b := DelLineFromLocation(a, p);
    var i := p[0];
    if |p| == 1 {
      forall k | 0 <= k < |b|
        ensures NodeWellFormed(b[k])
      {
        if k < i {
          assert b[k] == a[k];
        } else {
          assert b[k] == a[k + 1];
        }
      }
    } else {
      var c := a[i].children;
      assert NodeWellFormed(a[i]);
      assert p[1..][|p[1..]| - 1] == p[|p| - 1];
      DelLineFromLocationWellFormed(c, p[1..]);
      assert NodeWellFormed(b[i]);
    }
  }

  /** The line at `loc` is a subproof's hypothesis: the first node of a nested array. */
  predicate OpensSubproof(loc: Location)
  {
    |loc| > 1 && loc[|loc| - 1] == 0
  }

  /**
   * `deletePDLine(pd, pos)`: `None` (the source's `undefined`) past the
   * last line; deleting a hypothesis deletes its whole subproof, but only
   * once the user confirms, and otherwise nothing changes.
   */
  function DeletePDLine(a: seq<Node>, pos: nat, confirmed: bool): (r: Option<seq<Node>>)
    ensures r.None? <==> pos >= LeafCount(a)
    ensures r.Some? && OpensSubproof(Resolve(a, pos)) && !confirmed ==> r.value == a
  {
    if pos < LeafCount(a) then
      var loc := Resolve(a, pos);
      if OpensSubproof(loc) then
        if confirmed then
          NodePathPrefix(a, loc, |loc| - 1);
          Some(DelLineFromLocation(a, loc[..|loc| - 1]))
        else
          Some(a)
      else
        Some(DelLineFromLocation(a, loc))
    else
      None
  }

  /**
   * Deleting a line that opens no subproof removes exactly that line: the
   * other lines keep their order, and putting the line back at its
   * location rebuilds the document, so every other node keeps its nesting.
   */
  lemma DeleteLine(a: seq<Node>, pos: nat, confirmed: bool)
    requires pos < LeafCount(a) && !OpensSubproof(Resolve(a, pos))
    ensures DeletePDLine(a, pos, confirmed).Some?
    ensures Lines(DeletePDLine(a, pos, confirmed).value) == Lines(a)[..pos] + Lines(a)[pos + 1..]
    ensures IsInsertPath(DeletePDLine(a, pos, confirmed).value, Resolve(a, pos))
    ensures InsertNodeAt(DeletePDLine(a, pos, confirmed).value, Resolve(a, pos), Leaf(Lines(a)[pos])) == a
  {
    DelLineFromLocationLines(a, Resolve(a, pos));
    DeleteThenReinsert(a, Resolve(a, pos));
  }

  /**
   * Deleting a hypothesis, confirmed, removes its whole subproof: the lines
   * from the hypothesis to the end of the subproof; putting the subproof
   * back at its location rebuilds the document.
   */
  lemma DeleteSubproof(a: seq<Node>, pos: nat)
    requires pos < LeafCount(a) && OpensSubproof(Resolve(a, pos))
    ensures var q := Resolve(a, pos)[..|Resolve(a, pos)| - 1];
            && IsNodePath(a, q) && NodeAt(a, q).Sub?
            && Offset(a, q) == pos
            && pos + |Lines(NodeAt(a, q).children)| <= LeafCount(a)
            && DeletePDLine(a, pos, true).Some?
            && Lines(DeletePDLine(a, pos, true).value) ==
               Lines(a)[..pos] + Lines(a)[pos + |Lines(NodeAt(a, q).children)|..]
            && IsInsertPath(DeletePDLine(a, pos, true).value, q)
            && InsertNodeAt(DeletePDLine(a, pos, true).value, q, NodeAt(a, q)) == a
  {
    var loc := Resolve(a, pos);
    var q := loc[..|loc| - 1];
    NodePathPrefix(a, loc, |loc| - 1);
    DelLineFromLocationLines(a, q);
    DeleteThenReinsert(a, q);
    FirstChildOffset(a, q);
    assert q + [0] == loc;
  }

  /** A subproof's hypothesis has the subproof's own offset. */
  lemma {:induction false} FirstChildOffset(a: seq<Node>, q: Location)
    requires IsNodePath(a, q) && NodeAt(a, q).Sub? && |NodeAt(a, q).children| > 0
    ensures IsNodePath(a, q + [0])
    ensures NodeAt(a, q + [0]) == NodeAt(a, q).children[0]
    ensures Offset(a, q + [0]) == Offset(a, q)
    decreases q
  {
    var i := q[0];
    if |q| == 1 {
      assert (q + [0])[1..] == [0];
      PathCons(a, i, [0]);
    } else {
      FirstChildOffset(a[i].children, q[1..]);
      assert q == [i] + q[1..];
      assert q + [0] == [i] + (q[1..] + [0]);
      PathCons(a, i, q[1..]);
      PathCons(a, i, q[1..] + [0]);
    }
  }

  /** Every deletion keeps the document well formed. */
  lemma DeletePDLineWellFormed(a: seq<Node>, pos: nat, confirmed: bool)
    requires WellFormed(a) && DeletePDLine(a, pos, confirmed).Some?
    ensures WellFormed(DeletePDLine(a, pos, confirmed).value)
  {
    var loc := Resolve(a, pos);
    if OpensSubproof(loc) {
      if confirmed {
        NodePathPrefix(a, loc, |loc| - 1);
        var q := loc[..|loc| - 1];
        if |q| > 1 {
          LocationParentIsSubproofPath(a, q);
          NodePathPrefix(a, q, |q| - 1);
          SubproofHeadIsLine(a, q[..|q| - 1]);
          assert q == q[..|q| - 1] + [q[|q| - 1]];
        }
        DelLineFromLocationWellFormed(a, q);
      }
    } else {
      DelLineFromLocationWellFormed(a, loc);
    }
  }

  /** In a well-formed document the first node of every subproof is a line. */
  lemma {:induction false} SubproofHeadIsLine(a: seq<Node>, q: Location)
    requires WellFormed(a) && IsNodePath(a, q) && NodeAt(a, q).Sub?
    ensures IsNodePath(a, q + [0]) && NodeAt(a, q + [0]).Leaf?
    decreases q
  {
    var i := q[0];
    assert NodeWellFormed(a[i]);
    if |q| == 1 {
      assert (q + [0])[1..] == [0];
      PathCons(a, i, [0]);
    } else {
      SubproofHeadIsLine(a[i].children, q[1..]);
      assert q + [0] == [i] + (q[1..] + [0]);
      PathCons(a, i, q[1..] + [0]);
    }
  }

  /*
   * Insertion followed by deletion.
   */

  /** The location right after `loc`, in the same array. */
  function Next(loc: Location): Location
    requires |loc| > 0
  {
    loc[..|loc| - 1] + [loc[|loc| - 1] + 1]
  }

  /**
   * A plain insertion at `loc` puts the new node at `Next(loc)`, whose
   * lines start where the node at `loc` ends; deleting it gives `a` back.
   */
  lemma {:induction false} PutThenDelete(a: seq<Node>, loc: Location, newsp: bool)
    requires IsNodePath(a, loc)
    ensures IsNodePath(PutNewLineAt(a, loc, newsp, false), Next(loc))
    ensures NodeAt(PutNewLineAt(a, loc, newsp, false), Next(loc)) == NewNode(newsp)
    ensures Offset(PutNewLineAt(a, loc, newsp, false), Next(loc)) == End(a, loc)
    ensures DelLineFromLocation(PutNewLineAt(a, loc, newsp, false), Next(loc)) == a
    decreases |loc|
  {
    if |loc| == 1 {
      PutThenDeleteRoot(a, loc[0], newsp);
      assert loc == [loc[0]];
    } else {
      var c := a[loc[0]].children;
      PutThenDelete(c, loc[1..], newsp);
      PutThenDeleteNested(a, loc, newsp, PutNewLineAt(c, loc[1..], newsp, false), Next(loc[1..]));
      assert Next(loc) == [loc[0]] + Next(loc[1..]);
      assert loc == [loc[0]] + loc[1..];
    }
  }

  /** The base case of `PutThenDelete`. */
  lemma PutThenDeleteRoot(a: seq<Node>, i: nat, newsp: bool)
    requires i < |a|
    ensures IsNodePath(PutNewLineAt(a, [i], newsp, false), [i + 1])
    ensures NodeAt(PutNewLineAt(a, [i], newsp, false), [i + 1]) == NewNode(newsp)
    ensures Offset(PutNewLineAt(a, [i], newsp, false), [i + 1]) == End(a, [i])
    ensures DelLineFromLocation(PutNewLineAt(a, [i], newsp, false), [i + 1]) == a
  {
    var x := NewNode(newsp);
    var b := PutNewLineAt(a, [i], newsp, false);
    assert b == SpliceInsert(a, i + 1, x);
    assert DelLineFromLocation(b, [i + 1]) == a by {
      SpliceInsertRemove(a, i + 1, x);
    }
    assert |b| == |a| + 1 && b[i + 1] == x && b[..i + 1] == a[..i + 1] by {
      assert b == a[..i + 1] + [x] + a[i + 1..];
    }
    RootOffset(b, i + 1);
    RootEnd(a, i);
  }

  /** The lines up to and including root node `i` end where that node ends. */
  lemma RootEnd(a: seq<Node>, i: nat)
    requires i < |a|
    ensures IsNodePath(a, [i]) && End(a, [i]) == LeafCount(a[..i + 1])
  {
    RootOffset(a, i);
    assert a[..i + 1][..i] == a[..i];
    assert Lines(a[..i + 1]) == Lines(a[..i]) + NodeLines(a[i]);
  }

  /** The descending step of `PutThenDelete`. */
  lemma PutThenDeleteNested(a: seq<Node>, loc: Location, newsp: bool, c': seq<Node>, l': Location)
    requires IsNodePath(a, loc) && |loc| > 1
    requires c' == PutNewLineAt(a[loc[0]].children, loc[1..], newsp, false) && l' == Next(loc[1..])
    requires IsNodePath(c', l') && NodeAt(c', l') == NewNode(newsp)
    requires Offset(c', l') == End(a[loc[0]].children, loc[1..])
    requires DelLineFromLocation(c', l') == a[loc[0]].children
    ensures IsNodePath(a[loc[0] := Sub(c')], [loc[0]] + l')
    ensures NodeAt(a[loc[0] := Sub(c')], [loc[0]] + l') == NewNode(newsp)
    ensures Offset(a[loc[0] := Sub(c')], [loc[0]] + l') == End(a, [loc[0]] + loc[1..])
    ensures DelLineFromLocation(a[loc[0] := Sub(c')], [loc[0]] + l') == a
  {
    var i := loc[0];
    var b := a[i := Sub(c')];
    PathCons(b, i, l');
    PathCons(a, i, loc[1..]);
    assert b[..i] == a[..i];
    assert ([i] + l')[1..] == l';
    assert b[i := Sub(a[i].children)] == a;
  }

  /**
   * Escaping to the parent from `loc` is a plain insertion after the
   * enclosing subproof: the new node becomes that subproof's next sibling.
   */
  lemma {:induction false} PutUpIsPutAtParent(a: seq<Node>, loc: Location, newsp: bool)
    requires IsNodePath(a, loc) && |loc| >= 2
    ensures IsNodePath(a, loc[..|loc| - 1])
    ensures PutNewLineAt(a, loc, newsp, true) == PutNewLineAt(a, loc[..|loc| - 1], newsp, false)
    decreases |loc|
  {
    NodePathPrefix(a, loc, |loc| - 1);
    if |loc| > 2 {
      var c := a[loc[0]].children;
      PutUpIsPutAtParent(c, loc[1..], newsp);
      assert loc[..|loc| - 1][1..] == loc[1..][..|loc[1..]| - 1];
    }
  }

  /**
   * The "finish subproof" insert from `loc` puts the new node one level up,
   * at `Next(Anchor(loc, true))`, right after the enclosing subproof and
   * outside it; deleting that node gives `a` back.
   */
  lemma PutUpThenDelete(a: seq<Node>, loc: Location, newsp: bool)
    requires IsNodePath(a, loc) && |loc| >= 2
    ensures var p := Next(Anchor(loc, true));
            && |p| == |loc| - 1
            && IsNodePath(PutNewLineAt(a, loc, newsp, true), p)
            && NodeAt(PutNewLineAt(a, loc, newsp, true), p) == NewNode(newsp)
            && DelLineFromLocation(PutNewLineAt(a, loc, newsp, true), p) == a
  {
    PutUpIsPutAtParent(a, loc, newsp);
    PutThenDelete(a, loc[..|loc| - 1], newsp);
  }

  /**
   * A plain insertion after the line at position `n` is undone by deleting
   * position `n + 1`; an inserted subproof is undone by deleting its
   * hypothesis, once confirmed.
   */
  lemma InsertThenDelete(a: seq<Node>, n: nat, newsp: bool, confirmed: bool)
    requires n < LeafCount(a)
    ensures confirmed || !newsp ==> DeletePDLine(AddNLtoPD(a, n, newsp, false), n + 1, confirmed) == Some(a)
  {
    var loc := Resolve(a, n);
    var b := AddNLtoPD(a, n, newsp, false);
    assert b == PutNewLineAt(a, loc, newsp, false);
    PutThenDelete(a, loc, newsp);
    var l := Next(loc);
    if newsp {
      FirstChildOffset(b, l);
      ResolveOffset(b, l + [0]);
      assert (l + [0])[..|l + [0]| - 1] == l;
    } else {
      ResolveOffset(b, l);
    }
  }

  /**
   * On a well-formed document, an insertion past the last line appends at
   * the root, and deleting the first line after the old ones undoes it.
   */
  lemma AppendThenDelete(a: seq<Node>, n: nat, newsp: bool, uppa: bool, confirmed: bool)
    requires WellFormed(a) && n >= LeafCount(a)
    ensures confirmed || !newsp ==> DeletePDLine(AddNLtoPD(a, n, newsp, uppa), LeafCount(a), confirmed) == Some(a)
  {
    var x := NewNode(newsp);
    var b := a + [x];
    assert AddNLtoPD(a, n, newsp, uppa) == b;
    RootOffset(b, |a|);
    assert b[..|a|] == a;
    assert SpliceRemove(b, |a|) == a;
    if newsp {
      FirstChildOffset(b, [|a|]);
      ResolveOffset(b, [|a|, 0]);
      assert [|a|] + [0] == [|a|, 0];
    } else {
      ResolveOffset(b, [|a|]);
    }
  }

  /*
   * Editing a line.
   */

  /** Replaces the line at `loc` by `f` of it, descending along `loc`. */
  function UpdateLineAt(a: seq<Node>, loc: Location, f: Line -> Line): seq<Node>
    requires IsLeafLoc(a, loc)
    decreases |loc|
  {
    if |loc| == 1 then a[loc[0] := Leaf(f(a[loc[0]].line))]
    else a[loc[0] := Sub(UpdateLineAt(a[loc[0]].children, loc[1..], f))]
  }

  /** Updating a line keeps the shape and changes exactly that line. */
  lemma {:induction false} UpdateLineAtEffect(a: seq<Node>, loc: Location, f: Line -> Line)
    requires IsLeafLoc(a, loc)
    ensures SameShape(UpdateLineAt(a, loc, f), a)
    ensures Offset(a, loc) < LeafCount(a)
    ensures Lines(UpdateLineAt(a, loc, f)) == Lines(a)[Offset(a, loc) := f(NodeAt(a, loc).line)]
    decreases |loc|
  {
    LeafAtOffset(a, loc);
    var i := loc[0];
    var b := UpdateLineAt(a, loc, f);
    if |loc| == 1 {
      assert loc == [i];
      RootOffset(a, i);
      UpdateRootLine(a, i, f(a[i].line));
      SameShapeUpdate(a, i, Leaf(f(a[i].line)));
    } else {
      var c := a[i].children;
      UpdateLineAtEffect(c, loc[1..], f);
      UpdateLineAtNested(a, loc, f);
    }
  }

  /** The base case of `UpdateLineAtEffect`. */
  lemma UpdateRootLine(a: seq<Node>, i: nat, l: Line)
    requires i < |a| && a[i].Leaf?
    ensures LeafCount(a[..i]) < LeafCount(a)
    ensures Lines(a[i := Leaf(l)]) == Lines(a)[LeafCount(a[..i]) := l]
  {
    var pre := Lines(a[..i]);
    var post := Lines(a[i + 1..]);
    assert Lines(a) == pre + [a[i].line] + post by {
      LinesSplitAt(a, i);
    }
    assert Lines(a[i := Leaf(l)]) == pre + [l] + post by {
      LinesUpdate(a, i, Leaf(l));
    }
    UpdateMiddle(pre, a[i].line, post, l);
  }

  lemma UpdateMiddle(pre: seq<Line>, x: Line, post: seq<Line>, l: Line)
    ensures (pre + [x] + post)[|pre| := l] == pre + [l] + post
  {
  }

  /** The descending step of `UpdateLineAtEffect`. */
  lemma UpdateLineAtNested(a: seq<Node>, loc: Location, f: Line -> Line)
    requires IsLeafLoc(a, loc) && |loc| > 1
    requires var c := a[loc[0]].children;
             && SameShape(UpdateLineAt(c, loc[1..], f), c)
             && Offset(c, loc[1..]) < LeafCount(c)
             && Lines(UpdateLineAt(c, loc[1..], f)) == Lines(c)[Offset(c, loc[1..]) := f(NodeAt(c, loc[1..]).line)]
    ensures SameShape(UpdateLineAt(a, loc, f), a)
    ensures Offset(a, loc) < LeafCount(a)
    ensures Lines(UpdateLineAt(a, loc, f)) == Lines(a)[Offset(a, loc) := f(NodeAt(a, loc).line)]
  {
    var i := loc[0];
    var c := a[i].children;
    var c' := UpdateLineAt(c, loc[1..], f);
    var o := Offset(c, loc[1..]);
    var l := f(NodeAt(c, loc[1..]).line);
    var pre := LeafCount(a[..i]);
    assert UpdateLineAt(a, loc, f) == a[i := Sub(c')];
    assert Offset(a, loc) == pre + o && NodeAt(a, loc) == NodeAt(c, loc[1..]) by {
      assert loc == [i] + loc[1..];
      PathCons(a, i, loc[1..]);
    }
    assert SameShape(a[i := Sub(c')], a) by {
      SameShapeUpdate(a, i, Sub(c'));
    }
    assert Lines(c') == Lines(c)[o := l];
    LiftLine(a, i, c', o, l);
  }

  /** Rewriting line `o` of subproof `i` rewrites the matching line of the whole document. */
  lemma LiftLine(a: seq<Node>, i: nat, c': seq<Node>, o: nat, l: Line)
    requires i < |a| && a[i].Sub? && o < LeafCount(a[i].children)
    requires Lines(c') == Lines(a[i].children)[o := l]
    ensures LeafCount(a[..i]) + o < LeafCount(a)
    ensures Lines(a[i := Sub(c')]) == Lines(a)[LeafCount(a[..i]) + o := l]
  {
    var c := a[i].children;
    var pre := LeafCount(a[..i]);
    assert Lines(c') == Lines(c)[..o] + [l] + Lines(c)[o + 1..];
    LiftLines(a, i, c', o, o + 1, [l]);
    assert Lines(a)[pre + o := l] == Lines(a)[..pre + o] + [l] + Lines(a)[pre + o + 1..];
  }

  /** Replacing a node by one of the same shape keeps the document's shape. */
  lemma SameShapeUpdate(a: seq<Node>, i: nat, n: Node)
    requires i < |a| && NodeSameShape(n, a[i])
    ensures SameShape(a[i := n], a)
  {
    SameShapeReflexive(a);
  }

  /** Every document has its own shape. */
  lemma {:induction false} SameShapeReflexive(a: seq<Node>)
    ensures SameShape(a, a)
    decreases a
  {
    forall i | 0 <= i < |a|
      ensures NodeSameShape(a[i], a[i])
    {
      if a[i].Sub? {
        SameShapeReflexive(a[i].children);
      }
    }
  }

  /** A document with the shape of a well-formed one is well formed. */
  lemma {:induction false} SameShapeWellFormed(a: seq<Node>, b: seq<Node>)
    requires SameShape(a, b) && WellFormed(b)
    ensures WellFormed(a)
    decreases a
  {
    forall i | 0 <= i < |a|
      ensures NodeWellFormed(a[i])
    {
      assert NodeWellFormed(b[i]);
      if a[i].Sub? {
        SameShapeWellFormed(a[i].children, b[i].children);
        assert NodeSameShape(a[i].children[0], b[i].children[0]);
      }
    }
  }

  /** A path selects nodes of the same shape in documents of the same shape. */
  lemma {:induction false} NodeAtSameShape(a: seq<Node>, b: seq<Node>, p: Location)
    requires SameShape(b, a) && IsNodePath(a, p)
    ensures IsNodePath(b, p) && NodeSameShape(NodeAt(b, p), NodeAt(a, p))
    decreases p
  {
    assert NodeSameShape(b[p[0]], a[p[0]]);
    if |p| > 1 {
      NodeAtSameShape(a[p[0]].children, b[p[0]].children, p[1..]);
    }
  }

  /** Whether a line closes its subproof depends only on the shape. */
  lemma ClosesSubproofSameShape(a: seq<Node>, b: seq<Node>, loc: Location)
    requires SameShape(b, a) && ClosesSubproof(a, loc)
    ensures ClosesSubproof(b, loc)
  {
    NodeAtSameShape(a, b, loc[..|loc| - 1]);
  }

  /** The line edits: overwrite one field. */
  function SetWff(w: string): Line -> Line
  {
    (l: Line) => l.(wff := w)
  }

  function SetJust(j: string): Line -> Line
  {
    (l: Line) => l.(just := j)
  }

  /**
   * Updating a line twice with an edit that is idempotent on it is the same
   * as updating it once; the updated location still holds a line.
   */
  lemma {:induction false} UpdateLineAtTwice(a: seq<Node>, loc: Location, f: Line -> Line)
    requires IsLeafLoc(a, loc)
    requires f(f(NodeAt(a, loc).line)) == f(NodeAt(a, loc).line)
    ensures IsLeafLoc(UpdateLineAt(a, loc, f), loc)
    ensures NodeAt(UpdateLineAt(a, loc, f), loc) == Leaf(f(NodeAt(a, loc).line))
    ensures UpdateLineAt(UpdateLineAt(a, loc, f), loc, f) == UpdateLineAt(a, loc, f)
    decreases |loc|
  {
    if |loc| > 1 {
      UpdateLineAtTwice(a[loc[0]].children, loc[1..], f);
    }
  }

  /** `changeWffAt(pd, loc, val)`: the formula at `loc` becomes `fixWffInputStr(val)`. */
  function ChangeWffAt(a: seq<Node>, loc: Location, val: string, fixWff: string -> string): (b: seq<Node>)
    requires IsLeafLoc(a, loc)
    ensures SameShape(b, a)
    ensures Offset(a, loc) < LeafCount(a)
    ensures Lines(b) == Lines(a)[Offset(a, loc) := Line(fixWff(val), NodeAt(a, loc).line.just)]
  {
    UpdateLineAtEffect(a, loc, SetWff(fixWff(val)));
    UpdateLineAt(a, loc, SetWff(fixWff(val)))
  }

  /**
   * `changeJAt(pd, loc, val)`: the justification at `loc` becomes
   * `fixJInputStr(unChangeRuleNames(val))`, so a displayed rule name is
   * stored as its canonical token.
   */
  function ChangeJAt(a: seq<Node>, loc: Location, val: string, fixJ: string -> string): (b: seq<Node>)
    requires IsLeafLoc(a, loc)
    ensures SameShape(b, a)
    ensures Offset(a, loc) < LeafCount(a)
    ensures Lines(b) == Lines(a)[Offset(a, loc) := Line(NodeAt(a, loc).line.wff, fixJ(UnChangeRuleNames(val)))]
  {
    UpdateLineAtEffect(a, loc, SetJust(fixJ(UnChangeRuleNames(val))));
    UpdateLineAt(a, loc, SetJust(fixJ(UnChangeRuleNames(val))))
  }

  /**
   * `changeWffValue(pd, pos, val)`: the source throws unless `pos` names a
   * line, hence the precondition.  Only line `pos + 1` changes, only in its
   * formula, and the shape is kept.
   */
  function ChangeWffValue(a: seq<Node>, pos: nat, val: string, fixWff: string -> string): (b: seq<Node>)
    requires pos < LeafCount(a)
    ensures SameShape(b, a)
    ensures Lines(b) == Lines(a)[pos := Line(fixWff(val), Lines(a)[pos].just)]
  {
    ChangeWffAt(a, Resolve(a, pos), val, fixWff)
  }

  /** `changeJValue(pd, pos, val)`: as `ChangeWffValue`, for the justification. */
  function ChangeJValue(a: seq<Node>, pos: nat, val: string, fixJ: string -> string): (b: seq<Node>)
    requires pos < LeafCount(a)
    ensures SameShape(b, a)
    ensures Lines(b) == Lines(a)[pos := Line(Lines(a)[pos].wff, fixJ(UnChangeRuleNames(val)))]
  {
    ChangeJAt(a, Resolve(a, pos), val, fixJ)
  }

  /** Committing the same formula twice is committing it once. */
  lemma ChangeWffValueTwice(a: seq<Node>, pos: nat, val: string, fixWff: string -> string)
    requires pos < LeafCount(a)
    ensures ChangeWffValue(ChangeWffValue(a, pos, val, fixWff), pos, val, fixWff) == ChangeWffValue(a, pos, val, fixWff)
  {
    var loc := Resolve(a, pos);
    var b := ChangeWffValue(a, pos, val, fixWff);
    ResolveSameShape(b, a, pos);
    UpdateLineAtTwice(a, loc, SetWff(fixWff(val)));
  }

  /** Committing the same justification twice is committing it once. */
  lemma ChangeJValueTwice(a: seq<Node>, pos: nat, val: string, fixJ: string -> string)
    requires pos < LeafCount(a)
    ensures ChangeJValue(ChangeJValue(a, pos, val, fixJ), pos, val, fixJ) == ChangeJValue(a, pos, val, fixJ)
  {
    var loc := Resolve(a, pos);
    var b := ChangeJValue(a, pos, val, fixJ);
    ResolveSameShape(b, a, pos);
    UpdateLineAtTwice(a, loc, SetJust(fixJ(UnChangeRuleNames(val))));
  }
}

=== FILE: flatten.dfy ===
/**
 * Location and flattening: `flattenArray` and `maxdepth` of the proof
 * editor, and the resolution of a flat line position to a location that
 * every location-addressed operation starts with.
 */
module Flatten {
  import opened Document

  /** One entry of the flattened document.  The editor reads only `location`. */
  datatype FlatLine = FlatLine(wff: string, just: string, location: Location)

  /**
   * `flattenArray(a, dpar)`: a left-to-right walk that emits one entry per
   * line, descending into subproofs; `dpar` is the location of `a` itself.
   * The justification is copied from the line's own justification; the
   * source copies the formula there instead, see `FlattenAsWritten`.
   */
  function Flatten(a: seq<Node>, dpar: Location): seq<FlatLine>
  {
    if a == [] then []
    else
      var i := |a| - 1;
      Flatten(a[..i], dpar) +
      match a[i]
      case Leaf(l) => [FlatLine(l.wff, l.just, dpar + [i])]
      case Sub(c) => Flatten(c, dpar + [i])
  }

  /** Entry `e` of `Flatten(a, dpar)` at index `k` names the `k`-th line of `a` below `dpar`. */
  ghost predicate EntryNamesLine(a: seq<Node>, dpar: Location, e: FlatLine, k: nat)
  {
    && |dpar| < |e.location|
    && e.location[..|dpar|] == dpar
    && IsLeafLoc(a, e.location[|dpar|..])
    && Offset(a, e.location[|dpar|..]) == k
    && e.wff == NodeAt(a, e.location[|dpar|..]).line.wff
    && e.just == NodeAt(a, e.location[|dpar|..]).line.just
  }

  /**
   * Exactly one entry per line, in pre-order: there are as many entries as
   * lines, and entry `k` carries the location of the line numbered `k + 1`,
   * whose every index but the last selects a subproof.
   */
  lemma FlattenSound(a: seq<Node>, dpar: Location)
    ensures |Flatten(a, dpar)| == LeafCount(a)
    ensures forall k :: 0 <= k < |Flatten(a, dpar)| ==> EntryNamesLine(a, dpar, Flatten(a, dpar)[k], k)
  {
    FlattenLength(a, dpar);
    forall k | 0 <= k < |Flatten(a, dpar)|
      ensures EntryNamesLine(a, dpar, Flatten(a, dpar)[k], k)
    {
      FlattenEntry(a, dpar, k);
    }
  }

  /** One entry per line. */
  lemma {:induction false} FlattenLength(a: seq<Node>, dpar: Location)
    ensures |Flatten(a, dpar)| == LeafCount(a)
  {
    if a != [] {
      var i := |a| - 1;
      FlattenLength(a[..i], dpar);
      assert |Lines(a)| == |Lines(a[..i])| + |NodeLines(a[i])|;
      match a[i]
      case Leaf(_) =>
      case Sub(c) => FlattenLength(c, dpar + [i]);
    }
  }

  /** Entry `k` names line `k`. */
  lemma {:induction false} FlattenEntry(a: seq<Node>, dpar: Location, k: nat)
    requires k < |Flatten(a, dpar)|
    ensures EntryNamesLine(a, dpar, Flatten(a, dpar)[k], k)
  {
    var i := |a| - 1;
    var a' := a[..i];
    if k < |Flatten(a', dpar)| {
      FlattenEntry(a', dpar, k);
      FlattenEntryPrefix(a, dpar, k);
    } else if a[i].Leaf? {
      FlattenEntryLastLeaf(a, dpar, k);
    } else {
      FlattenLength(a', dpar);
      var c := a[i].children;
      FlattenLastSub(a, dpar);
      FlattenEntry(c, dpar + [i], k - LeafCount(a'));
      FlattenEntryLastSub(a, dpar, k);
    }
  }

  /** An entry before the last node's entries is the shorter document's entry. */
  lemma FlattenEntryPrefix(a: seq<Node>, dpar: Location, k: nat)
    requires a != [] && k < |Flatten(a[..|a| - 1], dpar)|
    requires EntryNamesLine(a[..|a| - 1], dpar, Flatten(a[..|a| - 1], dpar)[k], k)
    ensures k < |Flatten(a, dpar)|
    ensures EntryNamesLine(a, dpar, Flatten(a, dpar)[k], k)
  {
    var f' := Flatten(a[..|a| - 1], dpar);
    assert Flatten(a, dpar)[..|f'|] == f';
    assert Flatten(a, dpar)[k] == f'[k];
    EntryInPrefix(a, dpar, f'[k], k);
  }

  /** The entry of a last node that is a line names that line. */
  lemma FlattenEntryLastLeaf(a: seq<Node>, dpar: Location, k: nat)
    requires a != [] && a[|a| - 1].Leaf?
    requires |Flatten(a[..|a| - 1], dpar)| <= k < |Flatten(a, dpar)|
    ensures EntryNamesLine(a, dpar, Flatten(a, dpar)[k], k)
  {
    var i := |a| - 1;
    var l := a[i].line;
    var f' := Flatten(a[..i], dpar);
    FlattenLength(a[..i], dpar);
    assert Flatten(a, dpar) == f' + [FlatLine(l.wff, l.just, dpar + [i])];
    assert Flatten(a, dpar)[k].location[|dpar|..] == [i];
  }

  /** When the last node is a subproof, its entries close the list. */
  lemma FlattenLastSub(a: seq<Node>, dpar: Location)
    requires a != [] && a[|a| - 1].Sub?
    ensures Flatten(a, dpar) == Flatten(a[..|a| - 1], dpar) + Flatten(a[|a| - 1].children, dpar + [|a| - 1])
  {
  }

  /** An entry of a last node that is a subproof is that subproof's entry. */
  lemma FlattenEntryLastSub(a: seq<Node>, dpar: Location, k: nat)
    requires a != [] && a[|a| - 1].Sub?
    requires LeafCount(a[..|a| - 1]) == |Flatten(a[..|a| - 1], dpar)| <= k < |Flatten(a, dpar)|
    requires var c := a[|a| - 1].children; var k' := k - LeafCount(a[..|a| - 1]);
             k' < |Flatten(c, dpar + [|a| - 1])| && EntryNamesLine(c, dpar + [|a| - 1], Flatten(c, dpar + [|a| - 1])[k'], k')
    ensures EntryNamesLine(a, dpar, Flatten(a, dpar)[k], k)
  {
    var i := |a| - 1;
    var c := a[i].children;
    var f' := Flatten(a[..i], dpar);
    var g := Flatten(c, dpar + [i]);
    FlattenLastSub(a, dpar);
    assert Flatten(a, dpar)[k] == g[k - |f'|];
    EntryInLastSub(a, dpar, g[k - |f'|], k - |f'|);
  }

  /** An entry of the document without its last node names the same line in the whole document. */
  lemma EntryInPrefix(a: seq<Node>, dpar: Location, e: FlatLine, k: nat)
    requires a != [] && EntryNamesLine(a[..|a| - 1], dpar, e, k)
    ensures EntryNamesLine(a, dpar, e, k)
  {
    var a' := a[..|a| - 1];
    assert a == a' + [a[|a| - 1]];
    PathInPrefix(a', [a[|a| - 1]], e.location[|dpar|..]);
  }

  /** An entry of the last subproof names the matching line of the whole document. */
  lemma EntryInLastSub(a: seq<Node>, dpar: Location, e: FlatLine, k: nat)
    requires a != [] && a[|a| - 1].Sub?
    requires EntryNamesLine(a[|a| - 1].children, dpar + [|a| - 1], e, k)
    ensures EntryNamesLine(a, dpar, e, LeafCount(a[..|a| - 1]) + k)
  {
    var i := |a| - 1;
    var loc := e.location;
    assert loc[..|dpar|] == (loc[..|dpar + [i]|])[..|dpar|];
    var l := loc[|dpar|..];
    assert l[0] == i;
    assert l[1..] == loc[|dpar + [i]|..];
  }

  /** Every line of `a` has its entry, at the index given by its offset. */
  lemma {:induction false} FlattenComplete(a: seq<Node>, dpar: Location, l: Location)
    requires IsLeafLoc(a, l)
    ensures Offset(a, l) < |Flatten(a, dpar)|
    ensures Flatten(a, dpar)[Offset(a, l)].location == dpar + l
  {
    var i := |a| - 1;
    var a' := a[..i];
    if l[0] < i {
      assert IsLeafLoc(a', l) && Offset(a', l) == Offset(a, l) by {
        assert a == a' + [a[i]];
        PathInPrefix(a', [a[i]], l);
      }
      FlattenComplete(a', dpar, l);
    } else {
      if a[i].Sub? {
        FlattenComplete(a[i].children, dpar + [i], l[1..]);
      }
      FlattenCompleteLast(a, dpar, l);
    }
  }

  /** The case of `FlattenComplete` for a line in the last node. */
  lemma FlattenCompleteLast(a: seq<Node>, dpar: Location, l: Location)
    requires IsLeafLoc(a, l) && l[0] == |a| - 1
    requires a[|a| - 1].Sub? ==>
               var c := a[|a| - 1].children;
               && |l| > 1 && IsLeafLoc(c, l[1..])
               && Offset(c, l[1..]) < |Flatten(c, dpar + [|a| - 1])|
               && Flatten(c, dpar + [|a| - 1])[Offset(c, l[1..])].location == dpar + [|a| - 1] + l[1..]
    ensures Offset(a, l) < |Flatten(a, dpar)|
    ensures Flatten(a, dpar)[Offset(a, l)].location == dpar + l
  {
    var i := |a| - 1;
    var a' := a[..i];
    var f' := Flatten(a', dpar);
    assert |f'| == LeafCount(a') by {
      FlattenSound(a', dpar);
    }
    match a[i]
    case Leaf(_) =>
      assert l == [i];
    case Sub(c) =>
      assert dpar + [i] + l[1..] == dpar + l;
  }
  /** The flattened entries list the document's lines in reading order. */
  lemma FlattenLines(a: seq<Node>)
    ensures |Flatten(a, [])| == LeafCount(a)
    ensures forall k :: 0 <= k < LeafCount(a) ==>
              Lines(a)[k] == Line(Flatten(a, [])[k].wff, Flatten(a, [])[k].just)
  {
    FlattenSound(a, []);
    forall k | 0 <= k < LeafCount(a)
      ensures Lines(a)[k] == Line(Flatten(a, [])[k].wff, Flatten(a, [])[k].just)
    {
      var loc := Flatten(a, [])[k].location;
      assert EntryNamesLine(a, [], Flatten(a, [])[k], k);
      assert loc[0..] == loc;
      LeafAtOffset(a, loc);
    }
  }

  /**
   * `flattenArray` exactly as written: it copies the formula into the
   * justification slot (`x.jstr = a[i].wffstr`).
   */
  function FlattenAsWritten(a: seq<Node>, dpar: Location): seq<FlatLine>
  {
    if a == [] then []
    else
      var i := |a| - 1;
      FlattenAsWritten(a[..i], dpar) +
      match a[i]
      case Leaf(l) => [FlatLine(l.wff, l.wff, dpar + [i])]
      case Sub(c) => FlattenAsWritten(c, dpar + [i])
  }

  /** The as-written walk agrees with `Flatten` except that every justification is the formula. */
  lemma {:induction false} FlattenAsWrittenCopiesFormula(a: seq<Node>, dpar: Location)
    ensures |FlattenAsWritten(a, dpar)| == |Flatten(a, dpar)|
    ensures forall k :: 0 <= k < |Flatten(a, dpar)| ==>
              FlattenAsWritten(a, dpar)[k] == Flatten(a, dpar)[k].(just := Flatten(a, dpar)[k].wff)
  {
    if a != [] {
      var i := |a| - 1;
      FlattenAsWrittenCopiesFormula(a[..i], dpar);
      match a[i]
      case Leaf(_) =>
      case Sub(c) => FlattenAsWrittenCopiesFormula(c, dpar + [i]);
    }
  }

  /** A premise line whose entry carries its formula, not `Pr`, as justification. */
  lemma FlattenAsWrittenLosesJustification()
    ensures FlattenAsWritten([Leaf(Line("P", Premise))], [])[0].just == "P"
    ensures Flatten([Leaf(Line("P", Premise))], [])[0].just == Premise
  {
    var a := [Leaf(Line("P", Premise))];
    assert a[..0] == [];
  }

  /**
   * The location a flat position resolves to (`addNLtoPD`): the entry's
   * location when the position names a line, otherwise the root index `n`.
   */
  function Resolve(a: seq<Node>, n: nat): (loc: Location)
    ensures n < LeafCount(a) ==> IsLeafLoc(a, loc) && Offset(a, loc) == n
    ensures n < LeafCount(a) ==> NodeAt(a, loc).line == Lines(a)[n]
    ensures n >= LeafCount(a) ==> loc == [n]
  {
    FlattenSound(a, []);
    var fa := Flatten(a, []);
    if |fa| > 0 && n < |fa| then
      assert EntryNamesLine(a, [], fa[n], n);
      assert fa[n].location[0..] == fa[n].location;
      LeafAtOffset(a, fa[n].location);
      fa[n].location
    else
      [n]
  }

  /** Resolving a line's offset gives back its location: positions and locations are in bijection. */
  lemma ResolveOffset(a: seq<Node>, l: Location)
    requires IsLeafLoc(a, l)
    ensures Offset(a, l) < LeafCount(a)
    ensures Resolve(a, Offset(a, l)) == l
  {
    FlattenComplete(a, [], l);
    FlattenSound(a, []);
  }

  /** `maxdepth`: the deepest subproof nesting present, empty subproofs included. */
  function MaxDepth(a: seq<Node>): nat
  {
    if a == [] then 0
    else
      var d := match a[|a| - 1] case Leaf(_) => 0 case Sub(c) => MaxDepth(c) + 1;
      var m := MaxDepth(a[..|a| - 1]);
      if d > m then d else m
  }

  /** No chain of nested subproofs is deeper than `MaxDepth`. */
  lemma {:induction false} MaxDepthBounds(a: seq<Node>, q: Location)
    requires IsSubproofPath(a, q)
    ensures |q| <= MaxDepth(a)
  {
    if |q| > 0 {
      var i := |a| - 1;
      if q[0] < i {
        var a' := a[..i];
        assert a'[q[0]] == a[q[0]];
        MaxDepthBounds(a', q);
      } else {
        MaxDepthBounds(a[i].children, q[1..]);
      }
    }
  }

  /** A chain of nested subproofs as deep as `MaxDepth`: the bound is attained. */
  function DeepestPath(a: seq<Node>): (q: Location)
    ensures IsSubproofPath(a, q)
    ensures |q| == MaxDepth(a)
  {
    if a == [] then []
    else
      var i := |a| - 1;
      var a' := a[..i];
      var m := MaxDepth(a');
      var q' := DeepestPath(a');
      assert a'[..|a'|] == a';
      match a[i]
      case Leaf(_) =>
        PrefixKeepsSubproofPath(a', [a[i]], q');
        assert a' + [a[i]] == a;
        q'
      case Sub(c) =>
        if MaxDepth(c) + 1 > m then
          [i] + DeepestPath(c)
        else
          PrefixKeepsSubproofPath(a', [a[i]], q');
          assert a' + [a[i]] == a;
          q'
  }

  lemma PrefixKeepsSubproofPath(a: seq<Node>, b: seq<Node>, q: Location)
    requires IsSubproofPath(a, q)
    ensures IsSubproofPath(a + b, q)
  {
    if |q| > 0 {
      assert (a + b)[q[0]] == a[q[0]];
    }
  }

  /** Every index of a location but the last selects a subproof. */
  lemma {:induction false} LocationParentIsSubproofPath(a: seq<Node>, p: Location)
    requires IsNodePath(a, p)
    ensures IsSubproofPath(a, p[..|p| - 1])
    decreases p
  {
    if |p| > 1 {
      LocationParentIsSubproofPath(a[p[0]].children, p[1..]);
      assert p[..|p| - 1][1..] == p[1..][..|p[1..]| - 1];
    }
  }

  /** Every line sits at depth (location length minus one) at most `MaxDepth`. */
  lemma LineDepthBounded(a: seq<Node>, k: nat)
    requires k < LeafCount(a)
    ensures |Resolve(a, k)| - 1 <= MaxDepth(a)
  {
    var loc := Resolve(a, k);
    LocationParentIsSubproofPath(a, loc);
    MaxDepthBounds(a, loc[..|loc| - 1]);
  }

  /** Locations depend only on the shape: documents of the same shape flatten to the same locations. */
  lemma {:induction false} FlattenSameShape(a: seq<Node>, b: seq<Node>, dpar: Location)
    requires SameShape(a, b)
    ensures |Flatten(a, dpar)| == |Flatten(b, dpar)|
    ensures forall k :: 0 <= k < |Flatten(a, dpar)| ==> Flatten(a, dpar)[k].location == Flatten(b, dpar)[k].location
    decreases a
  {
    if a != [] {
      var i := |a| - 1;
      assert SameShape(a[..i], b[..i]) by {
        forall k | 0 <= k < i
          ensures NodeSameShape(a[..i][k], b[..i][k])
        {
          assert a[..i][k] == a[k] && b[..i][k] == b[k];
        }
      }
      FlattenSameShape(a[..i], b[..i], dpar);
      assert NodeSameShape(a[i], b[i]);
      match a[i]
      case Leaf(_) =>
      case Sub(c) => FlattenSameShape(c, b[i].children, dpar + [i]);
    }
  }

  /** A flat position resolves to the same location in documents of the same shape. */
  lemma ResolveSameShape(a: seq<Node>, b: seq<Node>, n: nat)
    requires SameShape(a, b)
    ensures Resolve(a, n) == Resolve(b, n)
  {
    FlattenSameShape(a, b, []);
    FlattenSound(a, []);
    FlattenSound(b, []);
  }
}

=== FILE: rule_name_round_trip.dfy ===
/**
 * The rule-name round trip, token by token.  For each of the thirteen
 * canonical tokens the proof follows both chains step by step: every rule
 * before the one that fires is shown not to occur (by a character of its
 * pattern missing from the string's alphabet, by length, or by an explicit
 * mismatch at every anchor), the firing rule matches the whole string, and
 * no later rule occurs in the replacement.
 */
module RuleNameRoundTrip {
  import opened RuleNames

  lemma ImpElimBackMissesModusTollendoPonens()
    ensures NoOccurrence("Modus Tollendo Ponens", ImpElimBack.pattern)
  {
    AnchoredNoOccurrence("Modus Tollendo Ponens", ImpElimBack.pattern, [0], [6]);
  }

  lemma MtBackMissesModusTollendoPonens()
    ensures NoOccurrence("Modus Tollendo Ponens", MtBack.pattern)
  {
    AnchoredNoOccurrence("Modus Tollendo Ponens", MtBack.pattern, [0], [12]);
  }

  lemma OrIntroBackMissesAdjunction()
    ensures NoOccurrence("Adjunction", OrIntroBack.pattern)
  {
    AnchoredNoOccurrence("Adjunction", OrIntroBack.pattern, [0], [2]);
  }

  lemma OrIntroBackMissesConditionalDerivation()
    ensures NoOccurrence("Conditional derivation", OrIntroBack.pattern)
  {
    AnchoredNoOccurrence("Conditional derivation", OrIntroBack.pattern, [9, 17], [1, 1]);
  }

  // `DNE` and `Double Negation`: alphabets, the firing rules, and the rules that do not fire.
  lemma DneAlphabets()
    ensures Within("DNE", {'D', 'E', 'N'}) && Within("Double Negation", {' ', 'D', 'N', 'a', 'b', 'e', 'g', 'i', 'l', 'n', 'o', 't', 'u'})
  {
  }

  lemma DneShownHead()
    ensures forall k :: 0 <= k < |DisplayTable[0].pattern.before| ==> CharMatches("DNE"[k], DisplayTable[0].pattern.before[k], DisplayTable[0].pattern.ignoreCase)
  {
  }

  lemma DneShown()
    ensures OccursAt("DNE", 0, DisplayTable[0].pattern)
  {
    DneShownHead();
    OccursWhole("DNE", DisplayTable[0].pattern);
  }

  lemma DneStoredHead()
    ensures forall k :: 0 <= k < |CanonicalTable[0].pattern.before| ==> CharMatches("Double Negation"[k], CanonicalTable[0].pattern.before[k], CanonicalTable[0].pattern.ignoreCase)
  {
  }

  lemma DneStored()
    ensures OccursAt("Double Negation", 0, CanonicalTable[0].pattern)
  {
    DneStoredHead();
    OccursWhole("Double Negation", CanonicalTable[0].pattern);
  }

  lemma DneShownAfter1()
    ensures KeepPart("Double Negation", {' ', 'D', 'N', 'a', 'b', 'e', 'g', 'i', 'l', 'n', 'o', 't', 'u'}, DisplayTable, 1, [0, 0, 1, 0, 0, 0, 0, 0, 0, 0, 0, 0], 0, 3)
  {
  }

  lemma DneShownAfter2()
    ensures KeepPart("Double Negation", {' ', 'D', 'N', 'a', 'b', 'e', 'g', 'i', 'l', 'n', 'o', 't', 'u'}, DisplayTable, 1, [0, 0, 1, 0, 0, 0, 0, 0, 0, 0, 0, 0], 3, 6)
  {
  }

  lemma DneShownAfter3()
    ensures KeepPart("Double Negation", {' ', 'D', 'N', 'a', 'b', 'e', 'g', 'i', 'l', 'n', 'o', 't', 'u'}, DisplayTable, 1, [0, 0, 1, 0, 0, 0, 0, 0, 0, 0, 0, 0], 6, 9)
  {
  }

  lemma DneShownAfter4()
    ensures KeepPart("Double Negation", {' ', 'D', 'N', 'a', 'b', 'e', 'g', 'i', 'l', 'n', 'o', 't', 'u'}, DisplayTable, 1, [0, 0, 1, 0, 0, 0, 0, 0, 0, 0, 0, 0], 9, 12)
  {
  }

  lemma DneStoredAfter1()
    ensures KeepPart("DNE", {'D', 'E', 'N'}, CanonicalTable, 1, [-2, -2, -2, -2, -2, -2, -2, -2, -2, -2, -2, -2, -2], 0, 3)
  {
  }

  lemma DneStoredAfter2()
    ensures KeepPart("DNE", {'D', 'E', 'N'}, CanonicalTable, 1, [-2, -2, -2, -2, -2, -2, -2, -2, -2, -2, -2, -2, -2], 3, 6)
  {
  }

  lemma DneStoredAfter3()
    ensures KeepPart("DNE", {'D', 'E', 'N'}, CanonicalTable, 1, [-2, -2, -2, -2, -2, -2, -2, -2, -2, -2, -2, -2, -2], 6, 9)
  {
  }

  lemma DneStoredAfter4()
    ensures KeepPart("DNE", {'D', 'E', 'N'}, CanonicalTable, 1, [-2, -2, -2, -2, -2, -2, -2, -2, -2, -2, -2, -2, -2], 9, 12)
  {
  }

  lemma DneStoredAfter5()
    ensures KeepPart("DNE", {'D', 'E', 'N'}, CanonicalTable, 1, [-2, -2, -2, -2, -2, -2, -2, -2, -2, -2, -2, -2, -2], 12, 13)
  {
  }

  // `→E` and `Modus Ponens`: alphabets, the firing rules, and the rules that do not fire.
  lemma ImpElimAlphabets()
    ensures Within("→E", {'E', '→'}) && Within("Modus Ponens", {' ', 'M', 'P', 'd', 'e', 'n', 'o', 's', 'u'})
  {
  }

  lemma ImpElimShownHead()
    ensures forall k :: 0 <= k < |DisplayTable[1].pattern.before| ==> CharMatches("→E"[k], DisplayTable[1].pattern.before[k], DisplayTable[1].pattern.ignoreCase)
  {
  }

  lemma ImpElimShown()
    ensures OccursAt("→E", 0, DisplayTable[1].pattern)
  {
    ImpElimShownHead();
    OccursWhole("→E", DisplayTable[1].pattern);
  }

  lemma ImpElimStoredHead()
    ensures forall k :: 0 <= k < |CanonicalTable[1].pattern.before| ==> CharMatches("Modus Ponens"[k], CanonicalTable[1].pattern.before[k], CanonicalTable[1].pattern.ignoreCase)
  {
  }

  lemma ImpElimStored()
    ensures OccursAt("Modus Ponens", 0, CanonicalTable[1].pattern)
  {
    ImpElimStoredHead();
    OccursWhole("Modus Ponens", CanonicalTable[1].pattern);
  }

  lemma ImpElimShownBefore()
    ensures KeepRun("→E", {'E', '→'}, DisplayTable, 0, [-2])
  {
  }

  lemma ImpElimShownAfter1()
    ensures KeepPart("Modus Ponens", {' ', 'M', 'P', 'd', 'e', 'n', 'o', 's', 'u'}, DisplayTable, 2, [1, 0, 0, 0, 0, 0, 0, 0, 0, 0, 0], 0, 3)
  {
  }

  lemma ImpElimShownAfter2()
    ensures KeepPart("Modus Ponens", {' ', 'M', 'P', 'd', 'e', 'n', 'o', 's', 'u'}, DisplayTable, 2, [1, 0, 0, 0, 0, 0, 0, 0, 0, 0, 0], 3, 6)
  {
  }

  lemma ImpElimShownAfter3()
    ensures KeepPart("Modus Ponens", {' ', 'M', 'P', 'd', 'e', 'n', 'o', 's', 'u'}, DisplayTable, 2, [1, 0, 0, 0, 0, 0, 0, 0, 0, 0, 0], 6, 9)
  {
  }

  lemma ImpElimShownAfter4()
    ensures KeepPart("Modus Ponens", {' ', 'M', 'P', 'd', 'e', 'n', 'o', 's', 'u'}, DisplayTable, 2, [1, 0, 0, 0, 0, 0, 0, 0, 0, 0, 0], 9, 11)
  {
  }

  lemma ImpElimStoredBefore()
    ensures KeepRun("Modus Ponens", {' ', 'M', 'P', 'd', 'e', 'n', 'o', 's', 'u'}, CanonicalTable, 0, [-2])
  {
  }

  lemma ImpElimStoredAfter1()
    ensures KeepPart("→E", {'E', '→'}, CanonicalTable, 2, [-2, -2, -2, -2, -2, -2, -2, -2, -2, -2, -2, -2], 0, 3)
  {
  }

  lemma ImpElimStoredAfter2()
    ensures KeepPart("→E", {'E', '→'}, CanonicalTable, 2, [-2, -2, -2, -2, -2, -2, -2, -2, -2, -2, -2, -2], 3, 6)
  {
  }

  lemma ImpElimStoredAfter3()
    ensures KeepPart("→E", {'E', '→'}, CanonicalTable, 2, [-2, -2, -2, -2, -2, -2, -2, -2, -2, -2, -2, -2], 6, 9)
  {
  }

  lemma ImpElimStoredAfter4()
    ensures KeepPart("→E", {'E', '→'}, CanonicalTable, 2, [-2, -2, -2, -2, -2, -2, -2, -2, -2, -2, -2, -2], 9, 12)
  {
  }

  // `MT` and `Modus Tollens`: alphabets, the firing rules, and the rules that do not fire.
  lemma MtAlphabets()
    ensures Within("MT", {'M', 'T'}) && Within("Modus Tollens", {' ', 'M', 'T', 'd', 'e', 'l', 'n', 'o', 's', 'u'})
  {
  }

  lemma MtShownHead()
    ensures forall k :: 0 <= k < |DisplayTable[2].pattern.before| ==> CharMatches("MT"[k], DisplayTable[2].pattern.before[k], DisplayTable[2].pattern.ignoreCase)
  {
  }

  lemma MtShown()
    ensures OccursAt("MT", 0, DisplayTable[2].pattern)
  {
    MtShownHead();
    OccursWhole("MT", DisplayTable[2].pattern);
  }

  lemma MtStoredHead()
    ensures forall k :: 0 <= k < |CanonicalTable[2].pattern.before| ==> CharMatches("Modus Tollens"[k], CanonicalTable[2].pattern.before[k], CanonicalTable[2].pattern.ignoreCase)
  {
  }

  lemma MtStored()
    ensures OccursAt("Modus Tollens", 0, CanonicalTable[2].pattern)
  {
    MtStoredHead();
    OccursWhole("Modus Tollens", CanonicalTable[2].pattern);
  }

  lemma MtShownBefore()
    ensures KeepRun("MT", {'M', 'T'}, DisplayTable, 0, [-2, 0])
  {
  }

  lemma MtShownAfter1()
    ensures KeepPart("Modus Tollens", {' ', 'M', 'T', 'd', 'e', 'l', 'n', 'o', 's', 'u'}, DisplayTable, 3, [0, 0, 0, 0, 0, 0, 0, 0, 0, 0], 0, 3)
  {
  }

  lemma MtShownAfter2()
    ensures KeepPart("Modus Tollens", {' ', 'M', 'T', 'd', 'e', 'l', 'n', 'o', 's', 'u'}, DisplayTable, 3, [0, 0, 0, 0, 0, 0, 0, 0, 0, 0], 3, 6)
  {
  }

  lemma MtShownAfter3()
    ensures KeepPart("Modus Tollens", {' ', 'M', 'T', 'd', 'e', 'l', 'n', 'o', 's', 'u'}, DisplayTable, 3, [0, 0, 0, 0, 0, 0, 0, 0, 0, 0], 6, 9)
  {
  }

  lemma MtShownAfter4()
    ensures KeepPart("Modus Tollens", {' ', 'M', 'T', 'd', 'e', 'l', 'n', 'o', 's', 'u'}, DisplayTable, 3, [0, 0, 0, 0, 0, 0, 0, 0, 0, 0], 9, 10)
  {
  }

  lemma MtStoredBefore()
    ensures KeepRun("Modus Tollens", {' ', 'M', 'T', 'd', 'e', 'l', 'n', 'o', 's', 'u'}, CanonicalTable, 0, [-2, 6])
  {
  }

  lemma MtStoredAfter1()
    ensures KeepPart("MT", {'M', 'T'}, CanonicalTable, 3, [-2, -2, -2, -2, -2, -2, -2, -2, -2, -2, -2], 0, 3)
  {
  }

  lemma MtStoredAfter2()
    ensures KeepPart("MT", {'M', 'T'}, CanonicalTable, 3, [-2, -2, -2, -2, -2, -2, -2, -2, -2, -2, -2], 3, 6)
  {
  }

  lemma MtStoredAfter3()
    ensures KeepPart("MT", {'M', 'T'}, CanonicalTable, 3, [-2, -2, -2, -2, -2, -2, -2, -2, -2, -2, -2], 6, 9)
  {
  }

  lemma MtStoredAfter4()
    ensures KeepPart("MT", {'M', 'T'}, CanonicalTable, 3, [-2, -2, -2, -2, -2, -2, -2, -2, -2, -2, -2], 9, 11)
  {
  }

  // `DS` and `Modus Tollendo Ponens`: alphabets, the firing rules, and the rules that do not fire.
  lemma DsAlphabets()
    ensures Within("DS", {'D', 'S'}) && Within("Modus Tollendo Ponens", {' ', 'M', 'P', 'T', 'd', 'e', 'l', 'n', 'o', 's', 'u'})
  {
  }

  lemma DsShownHead()
    ensures forall k :: 0 <= k < |DisplayTable[3].pattern.before| ==> CharMatches("DS"[k], DisplayTable[3].pattern.before[k], DisplayTable[3].pattern.ignoreCase)
  {
  }

  lemma DsShown()
    ensures OccursAt("DS", 0, DisplayTable[3].pattern)
  {
    DsShownHead();
    OccursWhole("DS", DisplayTable[3].pattern);
  }

  lemma DsStoredHead()
    ensures forall k :: 0 <= k < |CanonicalTable[3].pattern.before| ==> CharMatches("Modus Tollendo Ponens"[k], CanonicalTable[3].pattern.before[k], CanonicalTable[3].pattern.ignoreCase)
  {
  }

  lemma DsStored()
    ensures OccursAt("Modus Tollendo Ponens", 0, CanonicalTable[3].pattern)
  {
    DsStoredHead();
    OccursWhole("Modus Tollendo Ponens", CanonicalTable[3].pattern);
  }

  lemma DsShownBefore()
    ensures KeepRun("DS", {'D', 'S'}, DisplayTable, 0, [-2, 0, 0])
  {
  }

  lemma DsShownAfter1()
    ensures KeepPart("Modus Tollendo Ponens", {' ', 'M', 'P', 'T', 'd', 'e', 'l', 'n', 'o', 's', 'u'}, DisplayTable, 4, [0, 0, 0, 0, 0, 0, 0, 0, 0], 0, 3)
  {
  }

  lemma DsShownAfter2()
    ensures KeepPart("Modus Tollendo Ponens", {' ', 'M', 'P', 'T', 'd', 'e', 'l', 'n', 'o', 's', 'u'}, DisplayTable, 4, [0, 0, 0, 0, 0, 0, 0, 0, 0], 3, 6)
  {
  }

  lemma DsShownAfter3()
    ensures KeepPart("Modus Tollendo Ponens", {' ', 'M', 'P', 'T', 'd', 'e', 'l', 'n', 'o', 's', 'u'}, DisplayTable, 4, [0, 0, 0, 0, 0, 0, 0, 0, 0], 6, 9)
  {
  }

  lemma DsStoredBefore()
    ensures KeepRun("Modus Tollendo Ponens", {' ', 'M', 'P', 'T', 'd', 'e', 'l', 'n', 'o', 's', 'u'}, CanonicalTable, 0, [3, -1, -1])
  {
    ImpElimBackMissesModusTollendoPonens();
    MtBackMissesModusTollendoPonens();
  }

  lemma DsStoredAfter1()
    ensures KeepPart("DS", {'D', 'S'}, CanonicalTable, 4, [-2, -2, -2, -2, -2, -2, -2, -2, -2, -2], 0, 3)
  {
  }

  lemma DsStoredAfter2()
    ensures KeepPart("DS", {'D', 'S'}, CanonicalTable, 4, [-2, -2, -2, -2, -2, -2, -2, -2, -2, -2], 3, 6)
  {
  }

  lemma DsStoredAfter3()
    ensures KeepPart("DS", {'D', 'S'}, CanonicalTable, 4, [-2, -2, -2, -2, -2, -2, -2, -2, -2, -2], 6, 9)
  {
  }

  lemma DsStoredAfter4()
    ensures KeepPart("DS", {'D', 'S'}, CanonicalTable, 4, [-2, -2, -2, -2, -2, -2, -2, -2, -2, -2], 9, 10)
  {
  }

  // `∧E` and `Simplification`: alphabets, the firing rules, and the rules that do not fire.
  lemma AndElimAlphabets()
    ensures Within("∧E", {'E', '∧'}) && Within("Simplification", {'S', 'a', 'c', 'f', 'i', 'l', 'm', 'n', 'o', 'p', 't'})
  {
  }

  lemma AndElimShownHead()
    ensures forall k :: 0 <= k < |DisplayTable[4].pattern.before| ==> CharMatches("∧E"[k], DisplayTable[4].pattern.before[k], DisplayTable[4].pattern.ignoreCase)
  {
  }

  lemma AndElimShown()
    ensures OccursAt("∧E", 0, DisplayTable[4].pattern)
  {
    AndElimShownHead();
    OccursWhole("∧E", DisplayTable[4].pattern);
  }

  lemma AndElimStoredHead()
    ensures forall k :: 0 <= k < |CanonicalTable[4].pattern.before| ==> CharMatches("Simplification"[k], CanonicalTable[4].pattern.before[k], CanonicalTable[4].pattern.ignoreCase)
  {
  }

  lemma AndElimStored()
    ensures OccursAt("Simplification", 0, CanonicalTable[4].pattern)
  {
    AndElimStoredHead();
    OccursWhole("Simplification", CanonicalTable[4].pattern);
  }

  lemma AndElimShownBefore1()
    ensures KeepPart("∧E", {'E', '∧'}, DisplayTable, 0, [-2, 0, 0, 0], 0, 3)
  {
  }

  lemma AndElimShownBefore2()
    ensures KeepPart("∧E", {'E', '∧'}, DisplayTable, 0, [-2, 0, 0, 0], 3, 4)
  {
  }

  lemma AndElimShownAfter1()
    ensures KeepPart("Simplification", {'S', 'a', 'c', 'f', 'i', 'l', 'm', 'n', 'o', 'p', 't'}, DisplayTable, 5, [0, 0, 0, 0, 0, 0, 0, 0], 0, 3)
  {
  }

  lemma AndElimShownAfter2()
    ensures KeepPart("Simplification", {'S', 'a', 'c', 'f', 'i', 'l', 'm', 'n', 'o', 'p', 't'}, DisplayTable, 5, [0, 0, 0, 0, 0, 0, 0, 0], 3, 6)
  {
  }

  lemma AndElimShownAfter3()
    ensures KeepPart("Simplification", {'S', 'a', 'c', 'f', 'i', 'l', 'm', 'n', 'o', 'p', 't'}, DisplayTable, 5, [0, 0, 0, 0, 0, 0, 0, 0], 6, 8)
  {
  }

  lemma AndElimStoredBefore1()
    ensures KeepPart("Simplification", {'S', 'a', 'c', 'f', 'i', 'l', 'm', 'n', 'o', 'p', 't'}, CanonicalTable, 0, [-2, 2, 2, -2], 0, 3)
  {
  }

  lemma AndElimStoredBefore2()
    ensures KeepPart("Simplification", {'S', 'a', 'c', 'f', 'i', 'l', 'm', 'n', 'o', 'p', 't'}, CanonicalTable, 0, [-2, 2, 2, -2], 3, 4)
  {
  }

  lemma AndElimStoredAfter1()
    ensures KeepPart("∧E", {'E', '∧'}, CanonicalTable, 5, [-2, -2, -2, -2, -2, -2, -2, -2, -2], 0, 3)
  {
  }

  lemma AndElimStoredAfter2()
    ensures KeepPart("∧E", {'E', '∧'}, CanonicalTable, 5, [-2, -2, -2, -2, -2, -2, -2, -2, -2], 3, 6)
  {
  }

  lemma AndElimStoredAfter3()
    ensures KeepPart("∧E", {'E', '∧'}, CanonicalTable, 5, [-2, -2, -2, -2, -2, -2, -2, -2, -2], 6, 9)
  {
  }

  // `∨I` and `Addition`: alphabets, the firing rules, and the rules that do not fire.
  lemma OrIntroAlphabets()
    ensures Within("∨I", {'I', '∨'}) && Within("Addition", {'A', 'd', 'i', 'n', 'o', 't'})
  {
  }

  lemma OrIntroShownHead()
    ensures forall k :: 0 <= k < |DisplayTable[5].pattern.before| ==> CharMatches("∨I"[k], DisplayTable[5].pattern.before[k], DisplayTable[5].pattern.ignoreCase)
  {
  }

  lemma OrIntroShown()
    ensures OccursAt("∨I", 0, DisplayTable[5].pattern)
  {
    OrIntroShownHead();
    OccursWhole("∨I", DisplayTable[5].pattern);
  }

  lemma OrIntroStoredHead()
    ensures forall k :: 0 <= k < |CanonicalTable[5].pattern.before| ==> CharMatches("Addition"[k], CanonicalTable[5].pattern.before[k], CanonicalTable[5].pattern.ignoreCase)
  {
  }

  lemma OrIntroStored()
    ensures OccursAt("Addition", 0, CanonicalTable[5].pattern)
  {
    OrIntroStoredHead();
    OccursWhole("Addition", CanonicalTable[5].pattern);
  }

  lemma OrIntroShownBefore1()
    ensures KeepPart("∨I", {'I', '∨'}, DisplayTable, 0, [-2, 0, 0, 0, 0], 0, 3)
  {
  }

  lemma OrIntroShownBefore2()
    ensures KeepPart("∨I", {'I', '∨'}, DisplayTable, 0, [-2, 0, 0, 0, 0], 3, 5)
  {
  }

  lemma OrIntroShownAfter1()
    ensures KeepPart("Addition", {'A', 'd', 'i', 'n', 'o', 't'}, DisplayTable, 6, [0, 0, 0, 0, 0, 0, 0], 0, 3)
  {
  }

  lemma OrIntroShownAfter2()
    ensures KeepPart("Addition", {'A', 'd', 'i', 'n', 'o', 't'}, DisplayTable, 6, [0, 0, 0, 0, 0, 0, 0], 3, 6)
  {
  }

  lemma OrIntroShownAfter3()
    ensures KeepPart("Addition", {'A', 'd', 'i', 'n', 'o', 't'}, DisplayTable, 6, [0, 0, 0, 0, 0, 0, 0], 6, 7)
  {
  }

  lemma OrIntroStoredBefore1()
    ensures KeepPart("Addition", {'A', 'd', 'i', 'n', 'o', 't'}, CanonicalTable, 0, [-2, -2, -2, -2, -2], 0, 3)
  {
  }

  lemma OrIntroStoredBefore2()
    ensures KeepPart("Addition", {'A', 'd', 'i', 'n', 'o', 't'}, CanonicalTable, 0, [-2, -2, -2, -2, -2], 3, 5)
  {
  }

  lemma OrIntroStoredAfter1()
    ensures KeepPart("∨I", {'I', '∨'}, CanonicalTable, 6, [-2, -2, -2, -2, -2, -2, -2, -2], 0, 3)
  {
  }

  lemma OrIntroStoredAfter2()
    ensures KeepPart("∨I", {'I', '∨'}, CanonicalTable, 6, [-2, -2, -2, -2, -2, -2, -2, -2], 3, 6)
  {
  }

  lemma OrIntroStoredAfter3()
    ensures KeepPart("∨I", {'I', '∨'}, CanonicalTable, 6, [-2, -2, -2, -2, -2, -2, -2, -2], 6, 8)
  {
  }

  // `∧I` and `Adjunction`: alphabets, the firing rules, and the rules that do not fire.
  lemma AndIntroAlphabets()
    ensures Within("∧I", {'I', '∧'}) && Within("Adjunction", {'A', 'c', 'd', 'i', 'j', 'n', 'o', 't', 'u'})
  {
  }

  lemma AndIntroShownHead()
    ensures forall k :: 0 <= k < |DisplayTable[6].pattern.before| ==> CharMatches("∧I"[k], DisplayTable[6].pattern.before[k], DisplayTable[6].pattern.ignoreCase)
  {
  }

  lemma AndIntroShown()
    ensures OccursAt("∧I", 0, DisplayTable[6].pattern)
  {
    AndIntroShownHead();
    OccursWhole("∧I", DisplayTable[6].pattern);
  }

  lemma AndIntroStoredHead()
    ensures forall k :: 0 <= k < |CanonicalTable[6].pattern.before| ==> CharMatches("Adjunction"[k], CanonicalTable[6].pattern.before[k], CanonicalTable[6].pattern.ignoreCase)
  {
  }

  lemma AndIntroStored()
    ensures OccursAt("Adjunction", 0, CanonicalTable[6].pattern)
  {
    AndIntroStoredHead();
    OccursWhole("Adjunction", CanonicalTable[6].pattern);
  }

  lemma AndIntroShownBefore1()
    ensures KeepPart("∧I", {'I', '∧'}, DisplayTable, 0, [-2, 0, 0, 0, 1, 0], 0, 3)
  {
  }

  lemma AndIntroShownBefore2()
    ensures KeepPart("∧I", {'I', '∧'}, DisplayTable, 0, [-2, 0, 0, 0, 1, 0], 3, 6)
  {
  }

  lemma AndIntroShownAfter1()
    ensures KeepPart("Adjunction", {'A', 'c', 'd', 'i', 'j', 'n', 'o', 't', 'u'}, DisplayTable, 7, [0, 0, 0, 0, 0, 0], 0, 3)
  {
  }

  lemma AndIntroShownAfter2()
    ensures KeepPart("Adjunction", {'A', 'c', 'd', 'i', 'j', 'n', 'o', 't', 'u'}, DisplayTable, 7, [0, 0, 0, 0, 0, 0], 3, 6)
  {
  }

  lemma AndIntroStoredBefore1()
    ensures KeepPart("Adjunction", {'A', 'c', 'd', 'i', 'j', 'n', 'o', 't', 'u'}, CanonicalTable, 0, [-2, -2, -2, -2, -2, -1], 0, 3)
  {
  }

  lemma AndIntroStoredBefore2()
    ensures KeepPart("Adjunction", {'A', 'c', 'd', 'i', 'j', 'n', 'o', 't', 'u'}, CanonicalTable, 0, [-2, -2, -2, -2, -2, -1], 3, 6)
  {
    OrIntroBackMissesAdjunction();
  }

  lemma AndIntroStoredAfter1()
    ensures KeepPart("∧I", {'I', '∧'}, CanonicalTable, 7, [-2, -2, -2, -2, -2, -2, -2], 0, 3)
  {
  }

  lemma AndIntroStoredAfter2()
    ensures KeepPart("∧I", {'I', '∧'}, CanonicalTable, 7, [-2, -2, -2, -2, -2, -2, -2], 3, 6)
  {
  }

  lemma AndIntroStoredAfter3()
    ensures KeepPart("∧I", {'I', '∧'}, CanonicalTable, 7, [-2, -2, -2, -2, -2, -2, -2], 6, 7)
  {
  }

  // `↔E` and `Equivalence`: alphabets, the firing rules, and the rules that do not fire.
  lemma IffElimAlphabets()
    ensures Within("↔E", {'E', '↔'}) && Within("Equivalence", {'E', 'a', 'c', 'e', 'i', 'l', 'n', 'q', 'u', 'v'})
  {
  }

  lemma IffElimShownHead()
    ensures forall k :: 0 <= k < |DisplayTable[7].pattern.before| ==> CharMatches("↔E"[k], DisplayTable[7].pattern.before[k], DisplayTable[7].pattern.ignoreCase)
  {
  }

  lemma IffElimShown()
    ensures OccursAt("↔E", 0, DisplayTable[7].pattern)
  {
    IffElimShownHead();
    OccursWhole("↔E", DisplayTable[7].pattern);
  }

  lemma IffElimStoredHead()
    ensures forall k :: 0 <= k < |CanonicalTable[7].pattern.before| ==> CharMatches("Equivalence"[k], CanonicalTable[7].pattern.before[k], CanonicalTable[7].pattern.ignoreCase)
  {
  }

  lemma IffElimStoredTail()
    ensures forall k :: 0 <= k < |CanonicalTable[7].pattern.after| ==> CharMatches("Equivalence"[11 - |CanonicalTable[7].pattern.after| + k], CanonicalTable[7].pattern.after[k], CanonicalTable[7].pattern.ignoreCase)
  {
  }

  lemma IffElimStored()
    ensures OccursAt("Equivalence", 0, CanonicalTable[7].pattern)
  {
    IffElimStoredHead();
    IffElimStoredTail();
    OccursWhole("Equivalence", CanonicalTable[7].pattern);
  }

  lemma IffElimShownBefore1()
    ensures KeepPart("↔E", {'E', '↔'}, DisplayTable, 0, [-2, 0, 0, 0, 0, 0, 0], 0, 3)
  {
  }

  lemma IffElimShownBefore2()
    ensures KeepPart("↔E", {'E', '↔'}, DisplayTable, 0, [-2, 0, 0, 0, 0, 0, 0], 3, 6)
  {
  }

  lemma IffElimShownBefore3()
    ensures KeepPart("↔E", {'E', '↔'}, DisplayTable, 0, [-2, 0, 0, 0, 0, 0, 0], 6, 7)
  {
  }

  lemma IffElimShownAfter1()
    ensures KeepPart("Equivalence", {'E', 'a', 'c', 'e', 'i', 'l', 'n', 'q', 'u', 'v'}, DisplayTable, 8, [0, 0, 0, 0, 0], 0, 3)
  {
  }

  lemma IffElimShownAfter2()
    ensures KeepPart("Equivalence", {'E', 'a', 'c', 'e', 'i', 'l', 'n', 'q', 'u', 'v'}, DisplayTable, 8, [0, 0, 0, 0, 0], 3, 5)
  {
  }

  lemma IffElimStoredBefore1()
    ensures KeepPart("Equivalence", {'E', 'a', 'c', 'e', 'i', 'l', 'n', 'q', 'u', 'v'}, CanonicalTable, 0, [-2, -2, -2, -2, -2, 1, 1], 0, 3)
  {
  }

  lemma IffElimStoredBefore2()
    ensures KeepPart("Equivalence", {'E', 'a', 'c', 'e', 'i', 'l', 'n', 'q', 'u', 'v'}, CanonicalTable, 0, [-2, -2, -2, -2, -2, 1, 1], 3, 6)
  {
  }

  lemma IffElimStoredBefore3()
    ensures KeepPart("Equivalence", {'E', 'a', 'c', 'e', 'i', 'l', 'n', 'q', 'u', 'v'}, CanonicalTable, 0, [-2, -2, -2, -2, -2, 1, 1], 6, 7)
  {
  }

  lemma IffElimStoredAfter1()
    ensures KeepPart("↔E", {'E', '↔'}, CanonicalTable, 8, [-2, -2, -2, -2, -2, -2], 0, 3)
  {
  }

  lemma IffElimStoredAfter2()
    ensures KeepPart("↔E", {'E', '↔'}, CanonicalTable, 8, [-2, -2, -2, -2, -2, -2], 3, 6)
  {
  }

  // `→I` and `Conditional derivation`: alphabets, the firing rules, and the rules that do not fire.
  lemma ImpIntroAlphabets()
    ensures Within("→I", {'I', '→'}) && Within("Conditional derivation", {' ', 'C', 'a', 'd', 'e', 'i', 'l', 'n', 'o', 'r', 't', 'v'})
  {
  }

  lemma ImpIntroShownHead()
    ensures forall k :: 0 <= k < |DisplayTable[8].pattern.before| ==> CharMatches("→I"[k], DisplayTable[8].pattern.before[k], DisplayTable[8].pattern.ignoreCase)
  {
  }

  lemma ImpIntroShown()
    ensures OccursAt("→I", 0, DisplayTable[8].pattern)
  {
    ImpIntroShownHead();
    OccursWhole("→I", DisplayTable[8].pattern);
  }

  lemma ImpIntroStoredHead()
    ensures forall k :: 0 <= k < |CanonicalTable[9].pattern.before| ==> CharMatches("Conditional derivation"[k], CanonicalTable[9].pattern.before[k], CanonicalTable[9].pattern.ignoreCase)
  {
  }

  lemma ImpIntroStoredTail()
    ensures forall k :: 0 <= k < |CanonicalTable[9].pattern.after| ==> CharMatches("Conditional derivation"[22 - |CanonicalTable[9].pattern.after| + k], CanonicalTable[9].pattern.after[k], CanonicalTable[9].pattern.ignoreCase)
  {
  }

  lemma ImpIntroStored()
    ensures OccursAt("Conditional derivation", 0, CanonicalTable[9].pattern)
  {
    ImpIntroStoredHead();
    ImpIntroStoredTail();
    OccursWhole("Conditional derivation", CanonicalTable[9].pattern);
  }

  lemma ImpIntroShownBefore1()
    ensures KeepPart("→I", {'I', '→'}, DisplayTable, 0, [-2, 1, 0, 0, 0, 0, 0, 0], 0, 3)
  {
  }

  lemma ImpIntroShownBefore2()
    ensures KeepPart("→I", {'I', '→'}, DisplayTable, 0, [-2, 1, 0, 0, 0, 0, 0, 0], 3, 6)
  {
  }

  lemma ImpIntroShownBefore3()
    ensures KeepPart("→I", {'I', '→'}, DisplayTable, 0, [-2, 1, 0, 0, 0, 0, 0, 0], 6, 8)
  {
  }

  lemma ImpIntroShownAfter1()
    ensures KeepPart("Conditional derivation", {' ', 'C', 'a', 'd', 'e', 'i', 'l', 'n', 'o', 'r', 't', 'v'}, DisplayTable, 9, [0, 0, 0, 0], 0, 3)
  {
  }

  lemma ImpIntroShownAfter2()
    ensures KeepPart("Conditional derivation", {' ', 'C', 'a', 'd', 'e', 'i', 'l', 'n', 'o', 'r', 't', 'v'}, DisplayTable, 9, [0, 0, 0, 0], 3, 4)
  {
  }

  lemma ImpIntroStoredBefore1()
    ensures KeepPart("Conditional derivation", {' ', 'C', 'a', 'd', 'e', 'i', 'l', 'n', 'o', 'r', 't', 'v'}, CanonicalTable, 0, [2, 0, 0, 0, 0, -1, 2, 1, 0], 0, 3)
  {
  }

  lemma ImpIntroStoredBefore2()
    ensures KeepPart("Conditional derivation", {' ', 'C', 'a', 'd', 'e', 'i', 'l', 'n', 'o', 'r', 't', 'v'}, CanonicalTable, 0, [2, 0, 0, 0, 0, -1, 2, 1, 0], 3, 6)
  {
    OrIntroBackMissesConditionalDerivation();
  }

  lemma ImpIntroStoredBefore3()
    ensures KeepPart("Conditional derivation", {' ', 'C', 'a', 'd', 'e', 'i', 'l', 'n', 'o', 'r', 't', 'v'}, CanonicalTable, 0, [2, 0, 0, 0, 0, -1, 2, 1, 0], 6, 9)
  {
  }

  lemma ImpIntroStoredAfter1()
    ensures KeepPart("→I", {'I', '→'}, CanonicalTable, 10, [-2, -2, -2, -2], 0, 3)
  {
  }

  lemma ImpIntroStoredAfter2()
    ensures KeepPart("→I", {'I', '→'}, CanonicalTable, 10, [-2, -2, -2, -2], 3, 4)
  {
  }

  // `∀E` and `Universal instantiation`: alphabets, the firing rules, and the rules that do not fire.
  lemma AllElimAlphabets()
    ensures Within("∀E", {'E', '∀'}) && Within("Universal instantiation", {' ', 'U', 'a', 'e', 'i', 'l', 'n', 'o', 'r', 's', 't', 'v'})
  {
  }

  lemma AllElimShownHead()
    ensures forall k :: 0 <= k < |DisplayTable[9].pattern.before| ==> CharMatches("∀E"[k], DisplayTable[9].pattern.before[k], DisplayTable[9].pattern.ignoreCase)
  {
  }

  lemma AllElimShown()
    ensures OccursAt("∀E", 0, DisplayTable[9].pattern)
  {
    AllElimShownHead();
    OccursWhole("∀E", DisplayTable[9].pattern);
  }

  lemma AllElimStoredHead()
    ensures forall k :: 0 <= k < |CanonicalTable[10].pattern.before| ==> CharMatches("Universal instantiation"[k], CanonicalTable[10].pattern.before[k], CanonicalTable[10].pattern.ignoreCase)
  {
  }

  lemma AllElimStoredTail()
    ensures forall k :: 0 <= k < |CanonicalTable[10].pattern.after| ==> CharMatches("Universal instantiation"[23 - |CanonicalTable[10].pattern.after| + k], CanonicalTable[10].pattern.after[k], CanonicalTable[10].pattern.ignoreCase)
  {
  }

  lemma AllElimStored()
    ensures OccursAt("Universal instantiation", 0, CanonicalTable[10].pattern)
  {
    AllElimStoredHead();
    AllElimStoredTail();
    OccursWhole("Universal instantiation", CanonicalTable[10].pattern);
  }

  lemma AllElimShownBefore1()
    ensures KeepPart("∀E", {'E', '∀'}, DisplayTable, 0, [-2, 0, 0, 0, 0, 0, 0, 0, 0], 0, 3)
  {
  }

  lemma AllElimShownBefore2()
    ensures KeepPart("∀E", {'E', '∀'}, DisplayTable, 0, [-2, 0, 0, 0, 0, 0, 0, 0, 0], 3, 6)
  {
  }

  lemma AllElimShownBefore3()
    ensures KeepPart("∀E", {'E', '∀'}, DisplayTable, 0, [-2, 0, 0, 0, 0, 0, 0, 0, 0], 6, 9)
  {
  }

  lemma AllElimShownAfter()
    ensures KeepRun("Universal instantiation", {' ', 'U', 'a', 'e', 'i', 'l', 'n', 'o', 'r', 's', 't', 'v'}, DisplayTable, 10, [0, 0, 0])
  {
  }

  lemma AllElimStoredBefore1()
    ensures KeepPart("Universal instantiation", {' ', 'U', 'a', 'e', 'i', 'l', 'n', 'o', 'r', 's', 't', 'v'}, CanonicalTable, 0, [0, 0, 0, 0, 2, 1, 1, 1, 0, 0], 0, 3)
  {
  }

  lemma AllElimStoredBefore2()
    ensures KeepPart("Universal instantiation", {' ', 'U', 'a', 'e', 'i', 'l', 'n', 'o', 'r', 's', 't', 'v'}, CanonicalTable, 0, [0, 0, 0, 0, 2, 1, 1, 1, 0, 0], 3, 6)
  {
  }

  lemma AllElimStoredBefore3()
    ensures KeepPart("Universal instantiation", {' ', 'U', 'a', 'e', 'i', 'l', 'n', 'o', 'r', 's', 't', 'v'}, CanonicalTable, 0, [0, 0, 0, 0, 2, 1, 1, 1, 0, 0], 6, 9)
  {
  }

  lemma AllElimStoredBefore4()
    ensures KeepPart("Universal instantiation", {' ', 'U', 'a', 'e', 'i', 'l', 'n', 'o', 'r', 's', 't', 'v'}, CanonicalTable, 0, [0, 0, 0, 0, 2, 1, 1, 1, 0, 0], 9, 10)
  {
  }

  lemma AllElimStoredAfter()
    ensures KeepRun("∀E", {'E', '∀'}, CanonicalTable, 11, [-2, -2, -2])
  {
  }

  // `∃I` and `Existential generalization`: alphabets, the firing rules, and the rules that do not fire.
  lemma ExIntroAlphabets()
    ensures Within("∃I", {'I', '∃'}) && Within("Existential generalization", {' ', 'E', 'a', 'e', 'g', 'i', 'l', 'n', 'o', 'r', 's', 't', 'x', 'z'})
  {
  }

  lemma ExIntroShownHead()
    ensures forall k :: 0 <= k < |DisplayTable[10].pattern.before| ==> CharMatches("∃I"[k], DisplayTable[10].pattern.before[k], DisplayTable[10].pattern.ignoreCase)
  {
  }

  lemma ExIntroShown()
    ensures OccursAt("∃I", 0, DisplayTable[10].pattern)
  {
    ExIntroShownHead();
    OccursWhole("∃I", DisplayTable[10].pattern);
  }

  lemma ExIntroStoredHead()
    ensures forall k :: 0 <= k < |CanonicalTable[11].pattern.before| ==> CharMatches("Existential generalization"[k], CanonicalTable[11].pattern.before[k], CanonicalTable[11].pattern.ignoreCase)
  {
  }

  lemma ExIntroStored()
    ensures OccursAt("Existential generalization", 0, CanonicalTable[11].pattern)
  {
    ExIntroStoredHead();
    OccursWhole("Existential generalization", CanonicalTable[11].pattern);
  }

  lemma ExIntroShownBefore1()
    ensures KeepPart("∃I", {'I', '∃'}, DisplayTable, 0, [-2, 0, 0, 0, 0, 0, 0, 0, 0, 0], 0, 3)
  {
  }

  lemma ExIntroShownBefore2()
    ensures KeepPart("∃I", {'I', '∃'}, DisplayTable, 0, [-2, 0, 0, 0, 0, 0, 0, 0, 0, 0], 3, 6)
  {
  }

  lemma ExIntroShownBefore3()
    ensures KeepPart("∃I", {'I', '∃'}, DisplayTable, 0, [-2, 0, 0, 0, 0, 0, 0, 0, 0, 0], 6, 9)
  {
  }

  lemma ExIntroShownBefore4()
    ensures KeepPart("∃I", {'I', '∃'}, DisplayTable, 0, [-2, 0, 0, 0, 0, 0, 0, 0, 0, 0], 9, 10)
  {
  }

  lemma ExIntroShownAfter()
    ensures KeepRun("Existential generalization", {' ', 'E', 'a', 'e', 'g', 'i', 'l', 'n', 'o', 'r', 's', 't', 'x', 'z'}, DisplayTable, 11, [0, 0])
  {
  }

  lemma ExIntroStoredBefore1()
    ensures KeepPart("Existential generalization", {' ', 'E', 'a', 'e', 'g', 'i', 'l', 'n', 'o', 'r', 's', 't', 'x', 'z'}, CanonicalTable, 0, [0, 0, 0, 0, 2, 1, 1, 1, 0, 0, 0], 0, 3)
  {
  }

  lemma ExIntroStoredBefore2()
    ensures KeepPart("Existential generalization", {' ', 'E', 'a', 'e', 'g', 'i', 'l', 'n', 'o', 'r', 's', 't', 'x', 'z'}, CanonicalTable, 0, [0, 0, 0, 0, 2, 1, 1, 1, 0, 0, 0], 3, 6)
  {
  }

  lemma ExIntroStoredBefore3()
    ensures KeepPart("Existential generalization", {' ', 'E', 'a', 'e', 'g', 'i', 'l', 'n', 'o', 'r', 's', 't', 'x', 'z'}, CanonicalTable, 0, [0, 0, 0, 0, 2, 1, 1, 1, 0, 0, 0], 6, 9)
  {
  }

  lemma ExIntroStoredBefore4()
    ensures KeepPart("Existential generalization", {' ', 'E', 'a', 'e', 'g', 'i', 'l', 'n', 'o', 'r', 's', 't', 'x', 'z'}, CanonicalTable, 0, [0, 0, 0, 0, 2, 1, 1, 1, 0, 0, 0], 9, 11)
  {
  }

  lemma ExIntroStoredAfter()
    ensures KeepRun("∃I", {'I', '∃'}, CanonicalTable, 12, [-2, -2])
  {
  }

  // `∃E` and `Existential instantiation`: alphabets, the firing rules, and the rules that do not fire.
  lemma ExElimAlphabets()
    ensures Within("∃E", {'E', '∃'}) && Within("Existential instantiation", {' ', 'E', 'a', 'e', 'i', 'l', 'n', 'o', 's', 't', 'x'})
  {
  }

  lemma ExElimShownHead()
    ensures forall k :: 0 <= k < |DisplayTable[11].pattern.before| ==> CharMatches("∃E"[k], DisplayTable[11].pattern.before[k], DisplayTable[11].pattern.ignoreCase)
  {
  }

  lemma ExElimShown()
    ensures OccursAt("∃E", 0, DisplayTable[11].pattern)
  {
    ExElimShownHead();
    OccursWhole("∃E", DisplayTable[11].pattern);
  }

  lemma ExElimStoredHead()
    ensures forall k :: 0 <= k < |CanonicalTable[12].pattern.before| ==> CharMatches("Existential instantiation"[k], CanonicalTable[12].pattern.before[k], CanonicalTable[12].pattern.ignoreCase)
  {
  }

  lemma ExElimStored()
    ensures OccursAt("Existential instantiation", 0, CanonicalTable[12].pattern)
  {
    ExElimStoredHead();
    OccursWhole("Existential instantiation", CanonicalTable[12].pattern);
  }

  lemma ExElimShownBefore1()
    ensures KeepPart("∃E", {'E', '∃'}, DisplayTable, 0, [-2, 0, 0, 0, 0, 0, 0, 0, 0, 0, 1], 0, 3)
  {
  }

  lemma ExElimShownBefore2()
    ensures KeepPart("∃E", {'E', '∃'}, DisplayTable, 0, [-2, 0, 0, 0, 0, 0, 0, 0, 0, 0, 1], 3, 6)
  {
  }

  lemma ExElimShownBefore3()
    ensures KeepPart("∃E", {'E', '∃'}, DisplayTable, 0, [-2, 0, 0, 0, 0, 0, 0, 0, 0, 0, 1], 6, 9)
  {
  }

  lemma ExElimShownBefore4()
    ensures KeepPart("∃E", {'E', '∃'}, DisplayTable, 0, [-2, 0, 0, 0, 0, 0, 0, 0, 0, 0, 1], 9, 11)
  {
  }

  lemma ExElimShownAfter()
    ensures KeepRun("Existential instantiation", {' ', 'E', 'a', 'e', 'i', 'l', 'n', 'o', 's', 't', 'x'}, DisplayTable, 12, [0])
  {
  }

  lemma ExElimStoredBefore1()
    ensures KeepPart("Existential instantiation", {' ', 'E', 'a', 'e', 'i', 'l', 'n', 'o', 's', 't', 'x'}, CanonicalTable, 0, [0, 0, 0, 0, 2, 1, 1, 1, 0, 0, 0, -2], 0, 3)
  {
  }

  lemma ExElimStoredBefore2()
    ensures KeepPart("Existential instantiation", {' ', 'E', 'a', 'e', 'i', 'l', 'n', 'o', 's', 't', 'x'}, CanonicalTable, 0, [0, 0, 0, 0, 2, 1, 1, 1, 0, 0, 0, -2], 3, 6)
  {
  }

  lemma ExElimStoredBefore3()
    ensures KeepPart("Existential instantiation", {' ', 'E', 'a', 'e', 'i', 'l', 'n', 'o', 's', 't', 'x'}, CanonicalTable, 0, [0, 0, 0, 0, 2, 1, 1, 1, 0, 0, 0, -2], 6, 9)
  {
  }

  lemma ExElimStoredBefore4()
    ensures KeepPart("Existential instantiation", {' ', 'E', 'a', 'e', 'i', 'l', 'n', 'o', 's', 't', 'x'}, CanonicalTable, 0, [0, 0, 0, 0, 2, 1, 1, 1, 0, 0, 0, -2], 9, 12)
  {
  }

  lemma ExElimStoredAfter()
    ensures KeepRun("∃E", {'E', '∃'}, CanonicalTable, 13, [-2])
  {
  }

  // `R` and `Repeat`: alphabets, the firing rules, and the rules that do not fire.
  lemma RepAlphabets()
    ensures Within("R", {'R'}) && Within("Repeat", {'R', 'a', 'e', 'p', 't'})
  {
  }

  lemma RepShownHead()
    ensures forall k :: 0 <= k < |DisplayTable[12].pattern.before| ==> CharMatches("R"[k], DisplayTable[12].pattern.before[k], DisplayTable[12].pattern.ignoreCase)
  {
  }

  lemma RepShown()
    ensures OccursAt("R", 0, DisplayTable[12].pattern)
  {
    RepShownHead();
    OccursWhole("R", DisplayTable[12].pattern);
  }

  lemma RepStoredHead()
    ensures forall k :: 0 <= k < |CanonicalTable[13].pattern.before| ==> CharMatches("Repeat"[k], CanonicalTable[13].pattern.before[k], CanonicalTable[13].pattern.ignoreCase)
  {
  }

  lemma RepStored()
    ensures OccursAt("Repeat", 0, CanonicalTable[13].pattern)
  {
    RepStoredHead();
    OccursWhole("Repeat", CanonicalTable[13].pattern);
  }

  lemma RepShownBefore1()
    ensures KeepPart("R", {'R'}, DisplayTable, 0, [-2, -2, -2, -2, -2, -2, -2, -2, -2, -2, -2, -2], 0, 3)
  {
  }

  lemma RepShownBefore2()
    ensures KeepPart("R", {'R'}, DisplayTable, 0, [-2, -2, -2, -2, -2, -2, -2, -2, -2, -2, -2, -2], 3, 6)
  {
  }

  lemma RepShownBefore3()
    ensures KeepPart("R", {'R'}, DisplayTable, 0, [-2, -2, -2, -2, -2, -2, -2, -2, -2, -2, -2, -2], 6, 9)
  {
  }

  lemma RepShownBefore4()
    ensures KeepPart("R", {'R'}, DisplayTable, 0, [-2, -2, -2, -2, -2, -2, -2, -2, -2, -2, -2, -2], 9, 12)
  {
  }

  lemma RepStoredBefore1()
    ensures KeepPart("Repeat", {'R', 'a', 'e', 'p', 't'}, CanonicalTable, 0, [-2, -2, -2, -2, -2, -2, -2, -2, -2, -2, -2, -2, -2], 0, 3)
  {
  }

  lemma RepStoredBefore2()
    ensures KeepPart("Repeat", {'R', 'a', 'e', 'p', 't'}, CanonicalTable, 0, [-2, -2, -2, -2, -2, -2, -2, -2, -2, -2, -2, -2, -2], 3, 6)
  {
  }

  lemma RepStoredBefore3()
    ensures KeepPart("Repeat", {'R', 'a', 'e', 'p', 't'}, CanonicalTable, 0, [-2, -2, -2, -2, -2, -2, -2, -2, -2, -2, -2, -2, -2], 6, 9)
  {
  }

  lemma RepStoredBefore4()
    ensures KeepPart("Repeat", {'R', 'a', 'e', 'p', 't'}, CanonicalTable, 0, [-2, -2, -2, -2, -2, -2, -2, -2, -2, -2, -2, -2, -2], 9, 12)
  {
  }

  lemma RepStoredBefore5()
    ensures KeepPart("Repeat", {'R', 'a', 'e', 'p', 't'}, CanonicalTable, 0, [-2, -2, -2, -2, -2, -2, -2, -2, -2, -2, -2, -2, -2], 12, 13)
  {
  }

  /** `DNE` is displayed as `Double Negation`, and `Double Negation` is stored back as `DNE`. */
  lemma RoundTripDne(t: string, n: string)
    requires t == "DNE" && n == "Double Negation"
    ensures ChangeRuleNames(t) == n && UnChangeRuleNames(n) == t
  {
    DneAlphabets();
    DneShown();
    DneStored();
    DneShownAfter1();
    DneShownAfter2();
    DneShownAfter3();
    DneShownAfter4();
    KeepPartJoin(n, {' ', 'D', 'N', 'a', 'b', 'e', 'g', 'i', 'l', 'n', 'o', 't', 'u'}, DisplayTable, 1, [0, 0, 1, 0, 0, 0, 0, 0, 0, 0, 0, 0], 6, 9, 12);
    KeepPartJoin(n, {' ', 'D', 'N', 'a', 'b', 'e', 'g', 'i', 'l', 'n', 'o', 't', 'u'}, DisplayTable, 1, [0, 0, 1, 0, 0, 0, 0, 0, 0, 0, 0, 0], 3, 6, 12);
    KeepPartJoin(n, {' ', 'D', 'N', 'a', 'b', 'e', 'g', 'i', 'l', 'n', 'o', 't', 'u'}, DisplayTable, 1, [0, 0, 1, 0, 0, 0, 0, 0, 0, 0, 0, 0], 0, 3, 12);
    DneStoredAfter1();
    DneStoredAfter2();
    DneStoredAfter3();
    DneStoredAfter4();
    DneStoredAfter5();
    KeepPartJoin(t, {'D', 'E', 'N'}, CanonicalTable, 1, [-2, -2, -2, -2, -2, -2, -2, -2, -2, -2, -2, -2, -2], 9, 12, 13);
    KeepPartJoin(t, {'D', 'E', 'N'}, CanonicalTable, 1, [-2, -2, -2, -2, -2, -2, -2, -2, -2, -2, -2, -2, -2], 6, 9, 13);
    KeepPartJoin(t, {'D', 'E', 'N'}, CanonicalTable, 1, [-2, -2, -2, -2, -2, -2, -2, -2, -2, -2, -2, -2, -2], 3, 6, 13);
    KeepPartJoin(t, {'D', 'E', 'N'}, CanonicalTable, 1, [-2, -2, -2, -2, -2, -2, -2, -2, -2, -2, -2, -2, -2], 0, 3, 13);
    assert KeepRun(t, {'D', 'E', 'N'}, DisplayTable, 0, []);
    assert KeepRun(n, {' ', 'D', 'N', 'a', 'b', 'e', 'g', 'i', 'l', 'n', 'o', 't', 'u'}, CanonicalTable, 0, []);
    ChainThrough(t, {'D', 'E', 'N'}, n, {' ', 'D', 'N', 'a', 'b', 'e', 'g', 'i', 'l', 'n', 'o', 't', 'u'}, DisplayTable, 0, [], [0, 0, 1, 0, 0, 0, 0, 0, 0, 0, 0, 0]);
    ChainThrough(n, {' ', 'D', 'N', 'a', 'b', 'e', 'g', 'i', 'l', 'n', 'o', 't', 'u'}, t, {'D', 'E', 'N'}, CanonicalTable, 0, [], [-2, -2, -2, -2, -2, -2, -2, -2, -2, -2, -2, -2, -2]);
  }

  /** `→E` is displayed as `Modus Ponens`, and `Modus Ponens` is stored back as `→E`. */
  lemma RoundTripImpElim(t: string, n: string)
    requires t == "→E" && n == "Modus Ponens"
    ensures ChangeRuleNames(t) == n && UnChangeRuleNames(n) == t
  {
    ImpElimAlphabets();
    ImpElimShown();
    ImpElimStored();
    ImpElimShownBefore();
    ImpElimShownAfter1();
    ImpElimShownAfter2();
    ImpElimShownAfter3();
    ImpElimShownAfter4();
    KeepPartJoin(n, {' ', 'M', 'P', 'd', 'e', 'n', 'o', 's', 'u'}, DisplayTable, 2, [1, 0, 0, 0, 0, 0, 0, 0, 0, 0, 0], 6, 9, 11);
    KeepPartJoin(n, {' ', 'M', 'P', 'd', 'e', 'n', 'o', 's', 'u'}, DisplayTable, 2, [1, 0, 0, 0, 0, 0, 0, 0, 0, 0, 0], 3, 6, 11);
    KeepPartJoin(n, {' ', 'M', 'P', 'd', 'e', 'n', 'o', 's', 'u'}, DisplayTable, 2, [1, 0, 0, 0, 0, 0, 0, 0, 0, 0, 0], 0, 3, 11);
    ImpElimStoredBefore();
    ImpElimStoredAfter1();
    ImpElimStoredAfter2();
    ImpElimStoredAfter3();
    ImpElimStoredAfter4();
    KeepPartJoin(t, {'E', '→'}, CanonicalTable, 2, [-2, -2, -2, -2, -2, -2, -2, -2, -2, -2, -2, -2], 6, 9, 12);
    KeepPartJoin(t, {'E', '→'}, CanonicalTable, 2, [-2, -2, -2, -2, -2, -2, -2, -2, -2, -2, -2, -2], 3, 6, 12);
    KeepPartJoin(t, {'E', '→'}, CanonicalTable, 2, [-2, -2, -2, -2, -2, -2, -2, -2, -2, -2, -2, -2], 0, 3, 12);
    ChainThrough(t, {'E', '→'}, n, {' ', 'M', 'P', 'd', 'e', 'n', 'o', 's', 'u'}, DisplayTable, 1, [-2], [1, 0, 0, 0, 0, 0, 0, 0, 0, 0, 0]);
    ChainThrough(n, {' ', 'M', 'P', 'd', 'e', 'n', 'o', 's', 'u'}, t, {'E', '→'}, CanonicalTable, 1, [-2], [-2, -2, -2, -2, -2, -2, -2, -2, -2, -2, -2, -2]);
  }

  /** `MT` is displayed as `Modus Tollens`, and `Modus Tollens` is stored back as `MT`. */
  lemma RoundTripMt(t: string, n: string)
    requires t == "MT" && n == "Modus Tollens"
    ensures ChangeRuleNames(t) == n && UnChangeRuleNames(n) == t
  {
    MtAlphabets();
    MtShown();
    MtStored();
    MtShownBefore();
    MtShownAfter1();
    MtShownAfter2();
    MtShownAfter3();
    MtShownAfter4();
    KeepPartJoin(n, {' ', 'M', 'T', 'd', 'e', 'l', 'n', 'o', 's', 'u'}, DisplayTable, 3, [0, 0, 0, 0, 0, 0, 0, 0, 0, 0], 6, 9, 10);
    KeepPartJoin(n, {' ', 'M', 'T', 'd', 'e', 'l', 'n', 'o', 's', 'u'}, DisplayTable, 3, [0, 0, 0, 0, 0, 0, 0, 0, 0, 0], 3, 6, 10);
    KeepPartJoin(n, {' ', 'M', 'T', 'd', 'e', 'l', 'n', 'o', 's', 'u'}, DisplayTable, 3, [0, 0, 0, 0, 0, 0, 0, 0, 0, 0], 0, 3, 10);
    MtStoredBefore();
    MtStoredAfter1();
    MtStoredAfter2();
    MtStoredAfter3();
    MtStoredAfter4();
    KeepPartJoin(t, {'M', 'T'}, CanonicalTable, 3, [-2, -2, -2, -2, -2, -2, -2, -2, -2, -2, -2], 6, 9, 11);
    KeepPartJoin(t, {'M', 'T'}, CanonicalTable, 3, [-2, -2, -2, -2, -2, -2, -2, -2, -2, -2, -2], 3, 6, 11);
    KeepPartJoin(t, {'M', 'T'}, CanonicalTable, 3, [-2, -2, -2, -2, -2, -2, -2, -2, -2, -2, -2], 0, 3, 11);
    ChainThrough(t, {'M', 'T'}, n, {' ', 'M', 'T', 'd', 'e', 'l', 'n', 'o', 's', 'u'}, DisplayTable, 2, [-2, 0], [0, 0, 0, 0, 0, 0, 0, 0, 0, 0]);
    ChainThrough(n, {' ', 'M', 'T', 'd', 'e', 'l', 'n', 'o', 's', 'u'}, t, {'M', 'T'}, CanonicalTable, 2, [-2, 6], [-2, -2, -2, -2, -2, -2, -2, -2, -2, -2, -2]);
  }

  /** `DS` is displayed as `Modus Tollendo Ponens`, and `Modus Tollendo Ponens` is stored back as `DS`. */
  lemma RoundTripDs(t: string, n: string)
    requires t == "DS" && n == "Modus Tollendo Ponens"
    ensures ChangeRuleNames(t) == n && UnChangeRuleNames(n) == t
  {
    DsAlphabets();
    DsShown();
    DsStored();
    DsShownBefore();
    DsShownAfter1();
    DsShownAfter2();
    DsShownAfter3();
    KeepPartJoin(n, {' ', 'M', 'P', 'T', 'd', 'e', 'l', 'n', 'o', 's', 'u'}, DisplayTable, 4, [0, 0, 0, 0, 0, 0, 0, 0, 0], 3, 6, 9);
    KeepPartJoin(n, {' ', 'M', 'P', 'T', 'd', 'e', 'l', 'n', 'o', 's', 'u'}, DisplayTable, 4, [0, 0, 0, 0, 0, 0, 0, 0, 0], 0, 3, 9);
    DsStoredBefore();
    DsStoredAfter1();
    DsStoredAfter2();
    DsStoredAfter3();
    DsStoredAfter4();
    KeepPartJoin(t, {'D', 'S'}, CanonicalTable, 4, [-2, -2, -2, -2, -2, -2, -2, -2, -2, -2], 6, 9, 10);
    KeepPartJoin(t, {'D', 'S'}, CanonicalTable, 4, [-2, -2, -2, -2, -2, -2, -2, -2, -2, -2], 3, 6, 10);
    KeepPartJoin(t, {'D', 'S'}, CanonicalTable, 4, [-2, -2, -2, -2, -2, -2, -2, -2, -2, -2], 0, 3, 10);
    ChainThrough(t, {'D', 'S'}, n, {' ', 'M', 'P', 'T', 'd', 'e', 'l', 'n', 'o', 's', 'u'}, DisplayTable, 3, [-2, 0, 0], [0, 0, 0, 0, 0, 0, 0, 0, 0]);
    ChainThrough(n, {' ', 'M', 'P', 'T', 'd', 'e', 'l', 'n', 'o', 's', 'u'}, t, {'D', 'S'}, CanonicalTable, 3, [3, -1, -1], [-2, -2, -2, -2, -2, -2, -2, -2, -2, -2]);
  }

  /** `∧E` is displayed as `Simplification`, and `Simplification` is stored back as `∧E`. */
  lemma RoundTripAndElim(t: string, n: string)
    requires t == "∧E" && n == "Simplification"
    ensures ChangeRuleNames(t) == n && UnChangeRuleNames(n) == t
  {
    AndElimAlphabets();
    AndElimShown();
    AndElimStored();
    AndElimShownBefore1();
    AndElimShownBefore2();
    KeepPartJoin(t, {'E', '∧'}, DisplayTable, 0, [-2, 0, 0, 0], 0, 3, 4);
    AndElimShownAfter1();
    AndElimShownAfter2();
    AndElimShownAfter3();
    KeepPartJoin(n, {'S', 'a', 'c', 'f', 'i', 'l', 'm', 'n', 'o', 'p', 't'}, DisplayTable, 5, [0, 0, 0, 0, 0, 0, 0, 0], 3, 6, 8);
    KeepPartJoin(n, {'S', 'a', 'c', 'f', 'i', 'l', 'm', 'n', 'o', 'p', 't'}, DisplayTable, 5, [0, 0, 0, 0, 0, 0, 0, 0], 0, 3, 8);
    AndElimStoredBefore1();
    AndElimStoredBefore2();
    KeepPartJoin(n, {'S', 'a', 'c', 'f', 'i', 'l', 'm', 'n', 'o', 'p', 't'}, CanonicalTable, 0, [-2, 2, 2, -2], 0, 3, 4);
    AndElimStoredAfter1();
    AndElimStoredAfter2();
    AndElimStoredAfter3();
    KeepPartJoin(t, {'E', '∧'}, CanonicalTable, 5, [-2, -2, -2, -2, -2, -2, -2, -2, -2], 3, 6, 9);
    KeepPartJoin(t, {'E', '∧'}, CanonicalTable, 5, [-2, -2, -2, -2, -2, -2, -2, -2, -2], 0, 3, 9);
    ChainThrough(t, {'E', '∧'}, n, {'S', 'a', 'c', 'f', 'i', 'l', 'm', 'n', 'o', 'p', 't'}, DisplayTable, 4, [-2, 0, 0, 0], [0, 0, 0, 0, 0, 0, 0, 0]);
    ChainThrough(n, {'S', 'a', 'c', 'f', 'i', 'l', 'm', 'n', 'o', 'p', 't'}, t, {'E', '∧'}, CanonicalTable, 4, [-2, 2, 2, -2], [-2, -2, -2, -2, -2, -2, -2, -2, -2]);
  }

  /** `∨I` is displayed as `Addition`, and `Addition` is stored back as `∨I`. */
  lemma RoundTripOrIntro(t: string, n: string)
    requires t == "∨I" && n == "Addition"
    ensures ChangeRuleNames(t) == n && UnChangeRuleNames(n) == t
  {
    OrIntroAlphabets();
    OrIntroShown();
    OrIntroStored();
    OrIntroShownBefore1();
    OrIntroShownBefore2();
    KeepPartJoin(t, {'I', '∨'}, DisplayTable, 0, [-2, 0, 0, 0, 0], 0, 3, 5);
    OrIntroShownAfter1();
    OrIntroShownAfter2();
    OrIntroShownAfter3();
    KeepPartJoin(n, {'A', 'd', 'i', 'n', 'o', 't'}, DisplayTable, 6, [0, 0, 0, 0, 0, 0, 0], 3, 6, 7);
    KeepPartJoin(n, {'A', 'd', 'i', 'n', 'o', 't'}, DisplayTable, 6, [0, 0, 0, 0, 0, 0, 0], 0, 3, 7);
    OrIntroStoredBefore1();
    OrIntroStoredBefore2();
    KeepPartJoin(n, {'A', 'd', 'i', 'n', 'o', 't'}, CanonicalTable, 0, [-2, -2, -2, -2, -2], 0, 3, 5);
    OrIntroStoredAfter1();
    OrIntroStoredAfter2();
    OrIntroStoredAfter3();
    KeepPartJoin(t, {'I', '∨'}, CanonicalTable, 6, [-2, -2, -2, -2, -2, -2, -2, -2], 3, 6, 8);
    KeepPartJoin(t, {'I', '∨'}, CanonicalTable, 6, [-2, -2, -2, -2, -2, -2, -2, -2], 0, 3, 8);
    ChainThrough(t, {'I', '∨'}, n, {'A', 'd', 'i', 'n', 'o', 't'}, DisplayTable, 5, [-2, 0, 0, 0, 0], [0, 0, 0, 0, 0, 0, 0]);
    ChainThrough(n, {'A', 'd', 'i', 'n', 'o', 't'}, t, {'I', '∨'}, CanonicalTable, 5, [-2, -2, -2, -2, -2], [-2, -2, -2, -2, -2, -2, -2, -2]);
  }

  /** `∧I` is displayed as `Adjunction`, and `Adjunction` is stored back as `∧I`. */
  lemma RoundTripAndIntro(t: string, n: string)
    requires t == "∧I" && n == "Adjunction"
    ensures ChangeRuleNames(t) == n && UnChangeRuleNames(n) == t
  {
    AndIntroAlphabets();
    AndIntroShown();
    AndIntroStored();
    AndIntroShownBefore1();
    AndIntroShownBefore2();
    KeepPartJoin(t, {'I', '∧'}, DisplayTable, 0, [-2, 0, 0, 0, 1, 0], 0, 3, 6);
    AndIntroShownAfter1();
    AndIntroShownAfter2();
    KeepPartJoin(n, {'A', 'c', 'd', 'i', 'j', 'n', 'o', 't', 'u'}, DisplayTable, 7, [0, 0, 0, 0, 0, 0], 0, 3, 6);
    AndIntroStoredBefore1();
    AndIntroStoredBefore2();
    KeepPartJoin(n, {'A', 'c', 'd', 'i', 'j', 'n', 'o', 't', 'u'}, CanonicalTable, 0, [-2, -2, -2, -2, -2, -1], 0, 3, 6);
    AndIntroStoredAfter1();
    AndIntroStoredAfter2();
    AndIntroStoredAfter3();
    KeepPartJoin(t, {'I', '∧'}, CanonicalTable, 7, [-2, -2, -2, -2, -2, -2, -2], 3, 6, 7);
    KeepPartJoin(t, {'I', '∧'}, CanonicalTable, 7, [-2, -2, -2, -2, -2, -2, -2], 0, 3, 7);
    ChainThrough(t, {'I', '∧'}, n, {'A', 'c', 'd', 'i', 'j', 'n', 'o', 't', 'u'}, DisplayTable, 6, [-2, 0, 0, 0, 1, 0], [0, 0, 0, 0, 0, 0]);
    ChainThrough(n, {'A', 'c', 'd', 'i', 'j', 'n', 'o', 't', 'u'}, t, {'I', '∧'}, CanonicalTable, 6, [-2, -2, -2, -2, -2, -1], [-2, -2, -2, -2, -2, -2, -2]);
  }

  /** `↔E` is displayed as `Equivalence`, and `Equivalence` is stored back as `↔E`. */
  lemma RoundTripIffElim(t: string, n: string)
    requires t == "↔E" && n == "Equivalence"
    ensures ChangeRuleNames(t) == n && UnChangeRuleNames(n) == t
  {
    IffElimAlphabets();
    IffElimShown();
    IffElimStored();
    IffElimShownBefore1();
    IffElimShownBefore2();
    IffElimShownBefore3();
    KeepPartJoin(t, {'E', '↔'}, DisplayTable, 0, [-2, 0, 0, 0, 0, 0, 0], 3, 6, 7);
    KeepPartJoin(t, {'E', '↔'}, DisplayTable, 0, [-2, 0, 0, 0, 0, 0, 0], 0, 3, 7);
    IffElimShownAfter1();
    IffElimShownAfter2();
    KeepPartJoin(n, {'E', 'a', 'c', 'e', 'i', 'l', 'n', 'q', 'u', 'v'}, DisplayTable, 8, [0, 0, 0, 0, 0], 0, 3, 5);
    IffElimStoredBefore1();
    IffElimStoredBefore2();
    IffElimStoredBefore3();
    KeepPartJoin(n, {'E', 'a', 'c', 'e', 'i', 'l', 'n', 'q', 'u', 'v'}, CanonicalTable, 0, [-2, -2, -2, -2, -2, 1, 1], 3, 6, 7);
    KeepPartJoin(n, {'E', 'a', 'c', 'e', 'i', 'l', 'n', 'q', 'u', 'v'}, CanonicalTable, 0, [-2, -2, -2, -2, -2, 1, 1], 0, 3, 7);
    IffElimStoredAfter1();
    IffElimStoredAfter2();
    KeepPartJoin(t, {'E', '↔'}, CanonicalTable, 8, [-2, -2, -2, -2, -2, -2], 0, 3, 6);
    ChainThrough(t, {'E', '↔'}, n, {'E', 'a', 'c', 'e', 'i', 'l', 'n', 'q', 'u', 'v'}, DisplayTable, 7, [-2, 0, 0, 0, 0, 0, 0], [0, 0, 0, 0, 0]);
    ChainThrough(n, {'E', 'a', 'c', 'e', 'i', 'l', 'n', 'q', 'u', 'v'}, t, {'E', '↔'}, CanonicalTable, 7, [-2, -2, -2, -2, -2, 1, 1], [-2, -2, -2, -2, -2, -2]);
  }

  /** `→I` is displayed as `Conditional derivation`, and `Conditional derivation` is stored back as `→I`. */
  lemma RoundTripImpIntro(t: string, n: string)
    requires t == "→I" && n == "Conditional derivation"
    ensures ChangeRuleNames(t) == n && UnChangeRuleNames(n) == t
  {
    ImpIntroAlphabets();
    ImpIntroShown();
    ImpIntroStored();
    ImpIntroShownBefore1();
    ImpIntroShownBefore2();
    ImpIntroShownBefore3();
    KeepPartJoin(t, {'I', '→'}, DisplayTable, 0, [-2, 1, 0, 0, 0, 0, 0, 0], 3, 6, 8);
    KeepPartJoin(t, {'I', '→'}, DisplayTable, 0, [-2, 1, 0, 0, 0, 0, 0, 0], 0, 3, 8);
    ImpIntroShownAfter1();
    ImpIntroShownAfter2();
    KeepPartJoin(n, {' ', 'C', 'a', 'd', 'e', 'i', 'l', 'n', 'o', 'r', 't', 'v'}, DisplayTable, 9, [0, 0, 0, 0], 0, 3, 4);
    ImpIntroStoredBefore1();
    ImpIntroStoredBefore2();
    ImpIntroStoredBefore3();
    KeepPartJoin(n, {' ', 'C', 'a', 'd', 'e', 'i', 'l', 'n', 'o', 'r', 't', 'v'}, CanonicalTable, 0, [2, 0, 0, 0, 0, -1, 2, 1, 0], 3, 6, 9);
    KeepPartJoin(n, {' ', 'C', 'a', 'd', 'e', 'i', 'l', 'n', 'o', 'r', 't', 'v'}, CanonicalTable, 0, [2, 0, 0, 0, 0, -1, 2, 1, 0], 0, 3, 9);
    ImpIntroStoredAfter1();
    ImpIntroStoredAfter2();
    KeepPartJoin(t, {'I', '→'}, CanonicalTable, 10, [-2, -2, -2, -2], 0, 3, 4);
    ChainThrough(t, {'I', '→'}, n, {' ', 'C', 'a', 'd', 'e', 'i', 'l', 'n', 'o', 'r', 't', 'v'}, DisplayTable, 8, [-2, 1, 0, 0, 0, 0, 0, 0], [0, 0, 0, 0]);
    ChainThrough(n, {' ', 'C', 'a', 'd', 'e', 'i', 'l', 'n', 'o', 'r', 't', 'v'}, t, {'I', '→'}, CanonicalTable, 9, [2, 0, 0, 0, 0, -1, 2, 1, 0], [-2, -2, -2, -2]);
  }

  /** `∀E` is displayed as `Universal instantiation`, and `Universal instantiation` is stored back as `∀E`. */
  lemma RoundTripAllElim(t: string, n: string)
    requires t == "∀E" && n == "Universal instantiation"
    ensures ChangeRuleNames(t) == n && UnChangeRuleNames(n) == t
  {
    AllElimAlphabets();
    AllElimShown();
    AllElimStored();
    AllElimShownBefore1();
    AllElimShownBefore2();
    AllElimShownBefore3();
    KeepPartJoin(t, {'E', '∀'}, DisplayTable, 0, [-2, 0, 0, 0, 0, 0, 0, 0, 0], 3, 6, 9);
    KeepPartJoin(t, {'E', '∀'}, DisplayTable, 0, [-2, 0, 0, 0, 0, 0, 0, 0, 0], 0, 3, 9);
    AllElimShownAfter();
    AllElimStoredBefore1();
    AllElimStoredBefore2();
    AllElimStoredBefore3();
    AllElimStoredBefore4();
    KeepPartJoin(n, {' ', 'U', 'a', 'e', 'i', 'l', 'n', 'o', 'r', 's', 't', 'v'}, CanonicalTable, 0, [0, 0, 0, 0, 2, 1, 1, 1, 0, 0], 6, 9, 10);
    KeepPartJoin(n, {' ', 'U', 'a', 'e', 'i', 'l', 'n', 'o', 'r', 's', 't', 'v'}, CanonicalTable, 0, [0, 0, 0, 0, 2, 1, 1, 1, 0, 0], 3, 6, 10);
    KeepPartJoin(n, {' ', 'U', 'a', 'e', 'i', 'l', 'n', 'o', 'r', 's', 't', 'v'}, CanonicalTable, 0, [0, 0, 0, 0, 2, 1, 1, 1, 0, 0], 0, 3, 10);
    AllElimStoredAfter();
    ChainThrough(t, {'E', '∀'}, n, {' ', 'U', 'a', 'e', 'i', 'l', 'n', 'o', 'r', 's', 't', 'v'}, DisplayTable, 9, [-2, 0, 0, 0, 0, 0, 0, 0, 0], [0, 0, 0]);
    ChainThrough(n, {' ', 'U', 'a', 'e', 'i', 'l', 'n', 'o', 'r', 's', 't', 'v'}, t, {'E', '∀'}, CanonicalTable, 10, [0, 0, 0, 0, 2, 1, 1, 1, 0, 0], [-2, -2, -2]);
  }

  /** `∃I` is displayed as `Existential generalization`, and `Existential generalization` is stored back as `∃I`. */
  lemma RoundTripExIntro(t: string, n: string)
    requires t == "∃I" && n == "Existential generalization"
    ensures ChangeRuleNames(t) == n && UnChangeRuleNames(n) == t
  {
    ExIntroAlphabets();
    ExIntroShown();
    ExIntroStored();
    ExIntroShownBefore1();
    ExIntroShownBefore2();
    ExIntroShownBefore3();
    ExIntroShownBefore4();
    KeepPartJoin(t, {'I', '∃'}, DisplayTable, 0, [-2, 0, 0, 0, 0, 0, 0, 0, 0, 0], 6, 9, 10);
    KeepPartJoin(t, {'I', '∃'}, DisplayTable, 0, [-2, 0, 0, 0, 0, 0, 0, 0, 0, 0], 3, 6, 10);
    KeepPartJoin(t, {'I', '∃'}, DisplayTable, 0, [-2, 0, 0, 0, 0, 0, 0, 0, 0, 0], 0, 3, 10);
    ExIntroShownAfter();
    ExIntroStoredBefore1();
    ExIntroStoredBefore2();
    ExIntroStoredBefore3();
    ExIntroStoredBefore4();
    KeepPartJoin(n, {' ', 'E', 'a', 'e', 'g', 'i', 'l', 'n', 'o', 'r', 's', 't', 'x', 'z'}, CanonicalTable, 0, [0, 0, 0, 0, 2, 1, 1, 1, 0, 0, 0], 6, 9, 11);
    KeepPartJoin(n, {' ', 'E', 'a', 'e', 'g', 'i', 'l', 'n', 'o', 'r', 's', 't', 'x', 'z'}, CanonicalTable, 0, [0, 0, 0, 0, 2, 1, 1, 1, 0, 0, 0], 3, 6, 11);
    KeepPartJoin(n, {' ', 'E', 'a', 'e', 'g', 'i', 'l', 'n', 'o', 'r', 's', 't', 'x', 'z'}, CanonicalTable, 0, [0, 0, 0, 0, 2, 1, 1, 1, 0, 0, 0], 0, 3, 11);
    ExIntroStoredAfter();
    ChainThrough(t, {'I', '∃'}, n, {' ', 'E', 'a', 'e', 'g', 'i', 'l', 'n', 'o', 'r', 's', 't', 'x', 'z'}, DisplayTable, 10, [-2, 0, 0, 0, 0, 0, 0, 0, 0, 0], [0, 0]);
    ChainThrough(n, {' ', 'E', 'a', 'e', 'g', 'i', 'l', 'n', 'o', 'r', 's', 't', 'x', 'z'}, t, {'I', '∃'}, CanonicalTable, 11, [0, 0, 0, 0, 2, 1, 1, 1, 0, 0, 0], [-2, -2]);
  }

  /** `∃E` is displayed as `Existential instantiation`, and `Existential instantiation` is stored back as `∃E`. */
  lemma RoundTripExElim(t: string, n: string)
    requires t == "∃E" && n == "Existential instantiation"
    ensures ChangeRuleNames(t) == n && UnChangeRuleNames(n) == t
  {
    ExElimAlphabets();
    ExElimShown();
    ExElimStored();
    ExElimShownBefore1();
    ExElimShownBefore2();
    ExElimShownBefore3();
    ExElimShownBefore4();
    KeepPartJoin(t, {'E', '∃'}, DisplayTable, 0, [-2, 0, 0, 0, 0, 0, 0, 0, 0, 0, 1], 6, 9, 11);
    KeepPartJoin(t, {'E', '∃'}, DisplayTable, 0, [-2, 0, 0, 0, 0, 0, 0, 0, 0, 0, 1], 3, 6, 11);
    KeepPartJoin(t, {'E', '∃'}, DisplayTable, 0, [-2, 0, 0, 0, 0, 0, 0, 0, 0, 0, 1], 0, 3, 11);
    ExElimShownAfter();
    ExElimStoredBefore1();
    ExElimStoredBefore2();
    ExElimStoredBefore3();
    ExElimStoredBefore4();
    KeepPartJoin(n, {' ', 'E', 'a', 'e', 'i', 'l', 'n', 'o', 's', 't', 'x'}, CanonicalTable, 0, [0, 0, 0, 0, 2, 1, 1, 1, 0, 0, 0, -2], 6, 9, 12);
    KeepPartJoin(n, {' ', 'E', 'a', 'e', 'i', 'l', 'n', 'o', 's', 't', 'x'}, CanonicalTable, 0, [0, 0, 0, 0, 2, 1, 1, 1, 0, 0, 0, -2], 3, 6, 12);
    KeepPartJoin(n, {' ', 'E', 'a', 'e', 'i', 'l', 'n', 'o', 's', 't', 'x'}, CanonicalTable, 0, [0, 0, 0, 0, 2, 1, 1, 1, 0, 0, 0, -2], 0, 3, 12);
    ExElimStoredAfter();
    ChainThrough(t, {'E', '∃'}, n, {' ', 'E', 'a', 'e', 'i', 'l', 'n', 'o', 's', 't', 'x'}, DisplayTable, 11, [-2, 0, 0, 0, 0, 0, 0, 0, 0, 0, 1], [0]);
    ChainThrough(n, {' ', 'E', 'a', 'e', 'i', 'l', 'n', 'o', 's', 't', 'x'}, t, {'E', '∃'}, CanonicalTable, 12, [0, 0, 0, 0, 2, 1, 1, 1, 0, 0, 0, -2], [-2]);
  }

  /** `R` is displayed as `Repeat`, and `Repeat` is stored back as `R`. */
  lemma RoundTripRep(t: string, n: string)
    requires t == "R" && n == "Repeat"
    ensures ChangeRuleNames(t) == n && UnChangeRuleNames(n) == t
  {
    RepAlphabets();
    RepShown();
    RepStored();
    RepShownBefore1();
    RepShownBefore2();
    RepShownBefore3();
    RepShownBefore4();
    KeepPartJoin(t, {'R'}, DisplayTable, 0, [-2, -2, -2, -2, -2, -2, -2, -2, -2, -2, -2, -2], 6, 9, 12);
    KeepPartJoin(t, {'R'}, DisplayTable, 0, [-2, -2, -2, -2, -2, -2, -2, -2, -2, -2, -2, -2], 3, 6, 12);
    KeepPartJoin(t, {'R'}, DisplayTable, 0, [-2, -2, -2, -2, -2, -2, -2, -2, -2, -2, -2, -2], 0, 3, 12);
    RepStoredBefore1();
    RepStoredBefore2();
    RepStoredBefore3();
    RepStoredBefore4();
    RepStoredBefore5();
    KeepPartJoin(n, {'R', 'a', 'e', 'p', 't'}, CanonicalTable, 0, [-2, -2, -2, -2, -2, -2, -2, -2, -2, -2, -2, -2, -2], 9, 12, 13);
    KeepPartJoin(n, {'R', 'a', 'e', 'p', 't'}, CanonicalTable, 0, [-2, -2, -2, -2, -2, -2, -2, -2, -2, -2, -2, -2, -2], 6, 9, 13);
    KeepPartJoin(n, {'R', 'a', 'e', 'p', 't'}, CanonicalTable, 0, [-2, -2, -2, -2, -2, -2, -2, -2, -2, -2, -2, -2, -2], 3, 6, 13);
    KeepPartJoin(n, {'R', 'a', 'e', 'p', 't'}, CanonicalTable, 0, [-2, -2, -2, -2, -2, -2, -2, -2, -2, -2, -2, -2, -2], 0, 3, 13);
    assert KeepRun(n, {'R', 'a', 'e', 'p', 't'}, DisplayTable, 13, []);
    assert KeepRun(t, {'R'}, CanonicalTable, 14, []);
    ChainThrough(t, {'R'}, n, {'R', 'a', 'e', 'p', 't'}, DisplayTable, 12, [-2, -2, -2, -2, -2, -2, -2, -2, -2, -2, -2, -2], []);
    ChainThrough(n, {'R', 'a', 'e', 'p', 't'}, t, {'R'}, CanonicalTable, 13, [-2, -2, -2, -2, -2, -2, -2, -2, -2, -2, -2, -2, -2], []);
  }

  /** The canonical rule tokens, in the order of the display chain. */
  const Tokens: seq<string> := ["DNE", "→E", "MT", "DS", "∧E", "∨I", "∧I", "↔E", "→I", "∀E", "∃I", "∃E", "R"]

  /** The display name of each token. */
  const DisplayNames: seq<string> := ["Double Negation", "Modus Ponens", "Modus Tollens", "Modus Tollendo Ponens", "Simplification", "Addition", "Adjunction", "Equivalence", "Conditional derivation", "Universal instantiation", "Existential generalization", "Existential instantiation", "Repeat"]

  /**
   * Every canonical token survives the round trip through its display name:
   * `unChangeRuleNames(changeRuleNames(t)) == t`, and each display name is
   * stored back as its token.
   */
  lemma RoundTrip(i: nat)
    requires i < |Tokens|
    ensures ChangeRuleNames(Tokens[i]) == DisplayNames[i]
    ensures UnChangeRuleNames(DisplayNames[i]) == Tokens[i]
    ensures UnChangeRuleNames(ChangeRuleNames(Tokens[i])) == Tokens[i]
  {
    if i == 0 {
      RoundTripDne(Tokens[0], DisplayNames[0]);
    } else if i == 1 {
      RoundTripImpElim(Tokens[1], DisplayNames[1]);
    } else if i == 2 {
      RoundTripMt(Tokens[2], DisplayNames[2]);
    } else if i == 3 {
      RoundTripDs(Tokens[3], DisplayNames[3]);
    } else if i == 4 {
      RoundTripAndElim(Tokens[4], DisplayNames[4]);
    } else if i == 5 {
      RoundTripOrIntro(Tokens[5], DisplayNames[5]);
    } else if i == 6 {
      RoundTripAndIntro(Tokens[6], DisplayNames[6]);
    } else if i == 7 {
      RoundTripIffElim(Tokens[7], DisplayNames[7]);
    } else if i == 8 {
      RoundTripImpIntro(Tokens[8], DisplayNames[8]);
    } else if i == 9 {
      RoundTripAllElim(Tokens[9], DisplayNames[9]);
    } else if i == 10 {
      RoundTripExIntro(Tokens[10], DisplayNames[10]);
    } else if i == 11 {
      RoundTripExElim(Tokens[11], DisplayNames[11]);
    } else {
      RoundTripRep(Tokens[12], DisplayNames[12]);
    }
  }

  /** Every rule name the editor stores back is longer than five characters. */
  lemma CanonicalPatternsLong(lo: nat, hi: nat, s: string)
    requires lo <= hi <= 14 && hi - lo <= 5 && |s| < 6
    ensures KeepPart(s, (set c | c in s), CanonicalTable, 0, [-2, -2, -2, -2, -2, -2, -2, -2, -2, -2, -2, -2, -2, -2], lo, hi)
  {
  }

  /**
   * A justification shorter than six characters -- in particular the
   * premise and hypothesis markers `Pr` and `Hyp` -- is stored unchanged.
   */
  lemma UnChangeShort(s: string)
    requires |s| < 6
    ensures UnChangeRuleNames(s) == s
  {
    var cs := set c | c in s;
    assert Within(s, cs);
    CanonicalPatternsLong(0, 5, s);
    CanonicalPatternsLong(5, 10, s);
    CanonicalPatternsLong(10, 14, s);
    KeepPartJoin(s, cs, CanonicalTable, 0, [-2, -2, -2, -2, -2, -2, -2, -2, -2, -2, -2, -2, -2, -2], 5, 10, 14);
    KeepPartJoin(s, cs, CanonicalTable, 0, [-2, -2, -2, -2, -2, -2, -2, -2, -2, -2, -2, -2, -2, -2], 0, 5, 14);
    ChainPrefixFixed(s, cs, CanonicalTable, [-2, -2, -2, -2, -2, -2, -2, -2, -2, -2, -2, -2, -2, -2], 14);
    assert CanonicalTable[..14] == CanonicalTable;
  }
}

=== FILE: rule_names.dfy ===
/**
 * The rule-name translator: `changeRuleNames` turns canonical rule tokens
 * into the display names shown in the justification column, and
 * `unChangeRuleNames` turns display names back into canonical tokens
 * before an edit is stored or a proof is sent to the checker.
 *
 * Each is an ordered chain of JavaScript `String.prototype.replace` calls,
 * every one replacing the FIRST occurrence of its pattern only.  A pattern
 * is a plain string (case-sensitive) or a regular expression literal with
 * the `i` flag, some of which contain the class `[v∨]`.
 */
module RuleNames {
  import opened Wrappers

  /** One position of a pattern: a literal character or a bracketed class such as `[v∨]`. */
  datatype Atom = Ch(c: char) | AnyOf(chars: string)

  /**
   * A search pattern: a plain string (`ignoreCase` false), or a regular
   * expression literal `/before[cls]after/i`; a class-free regular
   * expression `/t/i` has `cls` and `after` empty.
   */
  datatype Pattern = Pattern(before: string, cls: string, after: string, ignoreCase: bool) {

    function Length(): nat
    {
      |before| + (if cls == [] then 0 else 1) + |after|
    }

    /** The `k`-th position of the pattern. */
    function AtomAt(k: nat): Atom
      requires k < Length()
    {
      if k < |before| then Ch(before[k])
      else if cls != [] && k == |before| then AnyOf(cls)
      else Ch(after[k - |before| - (if cls == [] then 0 else 1)])
    }
  }

  /** One `.replace(pattern, replacement)` step of a chain. */
  datatype Rule = Rule(pattern: Pattern, replacement: string)

  /**
   * The case-insensitive canonical form of a character, restricted to ASCII.
   * The patterns of both tables consist of ASCII characters and `∨`; under
   * the non-Unicode `i` flag no non-ASCII character canonicalises to an ASCII
   * one and nothing else canonicalises to `∨`, so comparing these forms is
   * exactly the engine's comparison for these patterns.
   */
  function Canon(c: char): char
  {
    if 'a' <= c <= 'z' then (c as int - 32) as char else c
  }

  predicate CharMatches(x: char, c: char, ignoreCase: bool)
  {
    if ignoreCase then Canon(x) == Canon(c) else x == c
  }

  predicate InClass(x: char, chars: string, ignoreCase: bool)
  {
    |chars| > 0 && (CharMatches(x, chars[0], ignoreCase) || InClass(x, chars[1..], ignoreCase))
  }

  predicate AtomMatches(x: char, a: Atom, ignoreCase: bool)
  {
    match a
    case Ch(c) => CharMatches(x, c, ignoreCase)
    case AnyOf(chars) => InClass(x, chars, ignoreCase)
  }

  /** Declarative reference: the pattern occurs in `s` starting at index `i`. */
  ghost predicate OccursAt(s: string, i: nat, p: Pattern)
  {
    && i + p.Length() <= |s|
    && forall k :: 0 <= k < p.Length() ==> AtomMatches(s[i + k], p.AtomAt(k), p.ignoreCase)
  }

  /** The scanning matcher: atoms `k..` of `p` match `s` at `i + k..`. */
  predicate MatchesFrom(s: string, i: nat, p: Pattern, k: nat)
    requires i + p.Length() <= |s| && k <= p.Length()
    decreases p.Length() - k
  {
    k == p.Length() || (AtomMatches(s[i + k], p.AtomAt(k), p.ignoreCase) && MatchesFrom(s, i, p, k + 1))
  }

  lemma {:induction false} MatchesFromSound(s: string, i: nat, p: Pattern, k: nat)
    requires i + p.Length() <= |s| && k <= p.Length()
    ensures MatchesFrom(s, i, p, k) <==>
            forall j :: k <= j < p.Length() ==> AtomMatches(s[i + j], p.AtomAt(j), p.ignoreCase)
    decreases p.Length() - k
  {
    if k < p.Length() {
      MatchesFromSound(s, i, p, k + 1);
    }
  }

  /** The leftmost occurrence of `p` in `s` at or after `i`, scanning left to right. */
  function FindFrom(s: string, p: Pattern, i: nat): Option<nat>
    decreases |s| - i
  {
    if i + p.Length() > |s| then None
    else if MatchesFrom(s, i, p, 0) then Some(i)
    else FindFrom(s, p, i + 1)
  }

  /** The scan finds exactly the leftmost occurrence, and none when there is none. */
  lemma {:induction false} FindFromSound(s: string, p: Pattern, i: nat)
    ensures FindFrom(s, p, i).Some? ==> i <= FindFrom(s, p, i).value && OccursAt(s, FindFrom(s, p, i).value, p)
    ensures FindFrom(s, p, i).Some? ==> forall j: nat :: i <= j < FindFrom(s, p, i).value ==> !OccursAt(s, j, p)
    ensures FindFrom(s, p, i).None? ==> forall j: nat :: i <= j ==> !OccursAt(s, j, p)
    decreases |s| - i
  {
    if i + p.Length() <= |s| {
      MatchesFromSound(s, i, p, 0);
      if !MatchesFrom(s, i, p, 0) {
        FindFromSound(s, p, i + 1);
      }
    }
  }

  /** `s.replace(pattern, replacement)`: only the leftmost occurrence is replaced. */
  function ReplaceFirst(s: string, r: Rule): string
  {
    match FindFrom(s, r.pattern, 0)
    case None => s
    case Some(i) =>
      if i + r.pattern.Length() <= |s| then s[..i] + r.replacement + s[i + r.pattern.Length()..] else s
  }

  /**
   * `replace` leaves a string in which the pattern does not occur as it is,
   * and otherwise rewrites exactly the leftmost occurrence, keeping the text
   * on either side.
   */
  lemma ReplaceFirstLeftmost(s: string, r: Rule)
    ensures (forall j: nat :: !OccursAt(s, j, r.pattern)) ==> ReplaceFirst(s, r) == s
    ensures forall i: nat :: OccursAt(s, i, r.pattern) && (forall j: nat :: j < i ==> !OccursAt(s, j, r.pattern)) ==>
              ReplaceFirst(s, r) == s[..i] + r.replacement + s[i + r.pattern.Length()..]
  {
    FindFromSound(s, r.pattern, 0);
  }

  /** The chain of replacements, applied in the declared order. */
  function ApplyInOrder(s: string, rules: seq<Rule>): string
    decreases |rules|
  {
    if rules == [] then s else ReplaceFirst(ApplyInOrder(s, rules[..|rules| - 1]), rules[|rules| - 1])
  }

  /** A string in which no pattern of the chain occurs passes through it unchanged. */
  lemma {:induction false} ApplyInOrderUnmatched(s: string, rules: seq<Rule>)
    requires forall k: nat, j: nat :: k < |rules| ==> !OccursAt(s, j, rules[k].pattern)
    ensures ApplyInOrder(s, rules) == s
    decreases |rules|
  {
    if rules != [] {
      ApplyInOrderUnmatched(s, rules[..|rules| - 1]);
      ReplaceFirstLeftmost(s, rules[|rules| - 1]);
    }
  }

  /** A plain string pattern. */
  function Plain(t: string): Pattern
  {
    Pattern(t, "", "", false)
  }

  /** A regular expression `/t/i`. */
  function NoCase(t: string): Pattern
  {
    Pattern(t, "", "", true)
  }

  /** A regular expression `/before[v∨]after/i`. */
  function NoCaseV(before: string, after: string): Pattern
  {
    Pattern(before, "v∨", after, true)
  }

  // The steps of `changeRuleNames`.
  const Dne := Rule(NoCase("dne"), "Double Negation")
  const ImpElim := Rule(Plain("→E"), "Modus Ponens")
  const Mt := Rule(Plain("MT"), "Modus Tollens")
  const Ds := Rule(Plain("DS"), "Modus Tollendo Ponens")
  const AndElim := Rule(Plain("∧E"), "Simplification")
  const OrIntro := Rule(Plain("∨I"), "Addition")
  const AndIntro := Rule(Plain("∧I"), "Adjunction")
  const IffElim := Rule(Plain("↔E"), "Equivalence")
  const ImpIntro := Rule(Plain("→I"), "Conditional derivation")
  const AllElim := Rule(Plain("∀E"), "Universal instantiation")
  const ExIntro := Rule(Plain("∃I"), "Existential generalization")
  const ExElim := Rule(Plain("∃E"), "Existential instantiation")
  const Rep := Rule(Plain("R"), "Repeat")

  /** The chain of `changeRuleNames`, in source order. */
  const DisplayTable: seq<Rule> :=
    [Dne, ImpElim, Mt, Ds, AndElim, OrIntro, AndIntro, IffElim, ImpIntro, AllElim, ExIntro, ExElim, Rep]

  // The steps of `unChangeRuleNames`.
  const DneBack := Rule(NoCase("double negation"), "DNE")
  const ImpElimBack := Rule(NoCase("modus ponens"), "→E")
  const MtBack := Rule(NoCase("modus tollens"), "MT")
  const DsBack := Rule(NoCase("modus tollendo ponens"), "DS")
  const AndElimBack := Rule(NoCase("simplification"), "∧E")
  const OrIntroBack := Rule(NoCase("addition"), "∨I")
  const AndIntroBack := Rule(NoCase("adjunction"), "∧I")
  const IffElimBack := Rule(NoCaseV("equi", "alence"), "↔E")
  const BiconditionBack := Rule(NoCase("bicondition"), "Bicondition")
  const ImpIntroBack := Rule(NoCaseV("conditional deri", "ation"), "→I")
  const AllElimBack := Rule(NoCaseV("uni", "ersal instantiation"), "∀E")
  const ExIntroBack := Rule(NoCase("existential generalization"), "∃I")
  const ExElimBack := Rule(NoCase("existential instantiation"), "∃E")
  const RepBack := Rule(NoCase("repeat"), "R")

  /** The chain of `unChangeRuleNames`, in source order. */
  const CanonicalTable: seq<Rule> :=
    [DneBack, ImpElimBack, MtBack, DsBack, AndElimBack, OrIntroBack, AndIntroBack,
     IffElimBack, BiconditionBack, ImpIntroBack, AllElimBack, ExIntroBack, ExElimBack, RepBack]

  /** `changeRuleNames` on a string argument. */
  function ChangeRuleNames(s: string): string
  {
    ApplyInOrder(s, DisplayTable)
  }

  /** `unChangeRuleNames` on a string argument. */
  function UnChangeRuleNames(s: string): string
  {
    ApplyInOrder(s, CanonicalTable)
  }

  /** A justification that mentions no rule token is displayed as it is. */
  lemma ChangeRuleNamesUnmatched(s: string)
    requires forall k: nat, j: nat :: k < |DisplayTable| ==> !OccursAt(s, j, DisplayTable[k].pattern)
    ensures ChangeRuleNames(s) == s
  {
    ApplyInOrderUnmatched(s, DisplayTable);
  }

  /** A justification that mentions no display name is stored as it is. */
  lemma UnChangeRuleNamesUnmatched(s: string)
    requires forall k: nat, j: nat :: k < |CanonicalTable| ==> !OccursAt(s, j, CanonicalTable[k].pattern)
    ensures UnChangeRuleNames(s) == s
  {
    ApplyInOrderUnmatched(s, CanonicalTable);
  }

  /*
   * Evidence that a chain maps one string to another.  A rule cannot
   * rewrite a string when one of its pattern's characters, in either case
   * under `i`, is missing from the string's alphabet, when the pattern is
   * longer than the string, or when a separate argument shows it occurs
   * nowhere.
   */

  /** Every character of `s` is drawn from `cs`. */
  ghost predicate Within(s: string, cs: set<char>)
  {
    forall i :: 0 <= i < |s| ==> s[i] in cs
  }

  /** The other case of an ASCII letter; any other character is its own other case. */
  function OtherCase(c: char): char
  {
    if 'a' <= c <= 'z' then (c as int - 32) as char
    else if 'A' <= c <= 'Z' then (c as int + 32) as char
    else c
  }

  lemma CharMatchesCases(x: char, c: char, ignoreCase: bool)
    requires CharMatches(x, c, ignoreCase)
    ensures x == c || (ignoreCase && x == OtherCase(c))
  {
  }

  ghost predicate NoOccurrence(s: string, p: Pattern)
  {
    forall j: nat :: !OccursAt(s, j, p)
  }

  /** The `k`-th character of the pattern's leading text cannot match anything in `cs`. */
  predicate MissingAt(cs: set<char>, p: Pattern, k: nat)
  {
    k < |p.before| && p.before[k] !in cs && (p.ignoreCase ==> OtherCase(p.before[k]) !in cs)
  }

  lemma MissingNoOccurrence(s: string, cs: set<char>, p: Pattern, k: nat)
    requires Within(s, cs) && MissingAt(cs, p, k)
    ensures NoOccurrence(s, p)
  {
    forall j: nat | OccursAt(s, j, p)
      ensures false
    {
      CharMatchesCases(s[j + k], p.AtomAt(k).c, p.ignoreCase);
    }
  }

  /**
   * Every index at which the pattern's first atom matches is listed in
   * `starts`, and the pattern breaks at its atom `breaks[m]` when laid at
   * `starts[m]`: so it occurs nowhere.
   */
  lemma AnchoredNoOccurrence(s: string, p: Pattern, starts: seq<nat>, breaks: seq<nat>)
    requires 0 < p.Length() && |starts| == |breaks|
    requires forall i :: 0 <= i < |s| && AtomMatches(s[i], p.AtomAt(0), p.ignoreCase) ==> i in starts
    requires forall m :: 0 <= m < |starts| ==>
               breaks[m] < p.Length() && starts[m] + breaks[m] < |s| &&
               !AtomMatches(s[starts[m] + breaks[m]], p.AtomAt(breaks[m]), p.ignoreCase)
    ensures NoOccurrence(s, p)
  {
    forall j: nat
      ensures !OccursAt(s, j, p)
    {
      if j < |s| && AtomMatches(s[j], p.AtomAt(0), p.ignoreCase) {
        var m :| 0 <= m < |starts| && starts[m] == j;
        assert !AtomMatches(s[j + breaks[m]], p.AtomAt(breaks[m]), p.ignoreCase);
      } else if j < |s| {
        assert !AtomMatches(s[j + 0], p.AtomAt(0), p.ignoreCase);
      }
    }
  }

  /** A whole string is one occurrence when its head, class position and tail match. */
  lemma OccursWhole(s: string, p: Pattern)
    requires |s| == p.Length()
    requires forall k :: 0 <= k < |p.before| ==> CharMatches(s[k], p.before[k], p.ignoreCase)
    requires p.cls != [] ==> InClass(s[|p.before|], p.cls, p.ignoreCase)
    requires forall k :: 0 <= k < |p.after| ==> CharMatches(s[|s| - |p.after| + k], p.after[k], p.ignoreCase)
    ensures OccursAt(s, 0, p)
  {
    forall k | 0 <= k < p.Length()
      ensures AtomMatches(s[0 + k], p.AtomAt(k), p.ignoreCase)
    {
      if k >= |p.before| && !(p.cls != [] && k == |p.before|) {
        assert s[0 + k] == s[|s| - |p.after| + (k - |p.before| - (if p.cls == [] then 0 else 1))];
      }
    }
  }

  /**
   * Certificate `k` that the pattern cannot occur in `s` (alphabet `cs`):
   * a missing character at `k >= 0`, the pattern longer than `s` at
   * `k == -2`, and a separately proved `NoOccurrence` otherwise.
   */
  ghost predicate Blocks(s: string, cs: set<char>, p: Pattern, k: int)
  {
    if k >= 0 then MissingAt(cs, p, k)
    else if k == -2 then p.Length() > |s|
    else NoOccurrence(s, p)
  }

  lemma BlocksKeeps(s: string, cs: set<char>, r: Rule, k: int)
    requires Within(s, cs) && Blocks(s, cs, r.pattern, k)
    ensures ReplaceFirst(s, r) == s
  {
    if k >= 0 {
      MissingNoOccurrence(s, cs, r.pattern, k);
    }
    ReplaceFirstLeftmost(s, r);
  }

  /** None of `rules[lo..lo + |ks|]` can rewrite `s`, by the certificates `ks`. */
  ghost predicate KeepRun(s: string, cs: set<char>, rules: seq<Rule>, lo: nat, ks: seq<int>)
  {
    lo + |ks| <= |rules| && forall j :: 0 <= j < |ks| ==> Blocks(s, cs, rules[lo + j].pattern, ks[j])
  }

  /** Entries `from..to` of the certificates `ks` for `rules[lo..]` hold. */
  ghost predicate KeepPart(s: string, cs: set<char>, rules: seq<Rule>, lo: nat, ks: seq<int>, from: nat, to: nat)
  {
    from <= to <= |ks| && lo + |ks| <= |rules| &&
    forall j :: from <= j < to ==> Blocks(s, cs, rules[lo + j].pattern, ks[j])
  }

  /** Two adjacent parts of a run form one part; the whole run is the part `0..|ks|`. */
  lemma KeepPartJoin(s: string, cs: set<char>, rules: seq<Rule>, lo: nat, ks: seq<int>, from: nat, mid: nat, to: nat)
    requires KeepPart(s, cs, rules, lo, ks, from, mid) && KeepPart(s, cs, rules, lo, ks, mid, to)
    ensures KeepPart(s, cs, rules, lo, ks, from, to)
    ensures from == 0 && to == |ks| ==> KeepRun(s, cs, rules, lo, ks)
  {
  }

  lemma {:induction false} ChainPrefixFixed(s: string, cs: set<char>, rules: seq<Rule>, ks: seq<int>, k: nat)
    requires Within(s, cs) && KeepRun(s, cs, rules, 0, ks) && k <= |ks|
    ensures ApplyInOrder(s, rules[..k]) == s
  {
    if k > 0 {
      ChainPrefixFixed(s, cs, rules, ks, k - 1);
      assert rules[..k][..k - 1] == rules[..k - 1];
      assert Blocks(s, cs, rules[0 + (k - 1)].pattern, ks[k - 1]);
      BlocksKeeps(s, cs, rules[k - 1], ks[k - 1]);
    }
  }

  lemma {:induction false} ChainSuffixFixed(s: string, n: string, ns: set<char>, rules: seq<Rule>, d: nat, ks: seq<int>, k: nat)
    requires d < k <= |rules| && ApplyInOrder(s, rules[..d + 1]) == n
    requires Within(n, ns) && KeepRun(n, ns, rules, d + 1, ks) && d + 1 + |ks| == |rules|
    ensures ApplyInOrder(s, rules[..k]) == n
  {
    if k > d + 1 {
      ChainSuffixFixed(s, n, ns, rules, d, ks, k - 1);
      assert rules[..k][..k - 1] == rules[..k - 1];
      assert Blocks(n, ns, rules[d + 1 + (k - 2 - d)].pattern, ks[k - 2 - d]);
      BlocksKeeps(n, ns, rules[k - 1], ks[k - 2 - d]);
    }
  }

  /**
   * The chain maps `s` to `n` when exactly one rule `d` applies: none before
   * it can rewrite `s`, its pattern spans `s` and its replacement is `n`,
   * and none after it can rewrite `n`.
   */
  lemma ChainThrough(s: string, cs: set<char>, n: string, ns: set<char>, rules: seq<Rule>, d: nat,
                     before: seq<int>, after: seq<int>)
    requires Within(s, cs) && Within(n, ns)
    requires |before| == d && KeepRun(s, cs, rules, 0, before)
    requires d < |rules| && rules[d].pattern.Length() == |s| && OccursAt(s, 0, rules[d].pattern)
    requires rules[d].replacement == n
    requires d + 1 + |after| == |rules| && KeepRun(n, ns, rules, d + 1, after)
    ensures ApplyInOrder(s, rules) == n
  {
    ChainPrefixFixed(s, cs, rules, before, d);
    assert rules[..d + 1][..d] == rules[..d];
    ReplaceFirstLeftmost(s, rules[d]);
    assert s[..0] + rules[d].replacement + s[|s|..] == n;
    ChainSuffixFixed(s, n, ns, rules, d, after, |rules|);
    assert rules[..|rules|] == rules;
  }
}

=== FILE: serialise.dfy ===
/**
 * The proof data sent with a check request.  Before sending, the editor
 * maps the document through `deepUnchange`: nested arrays are mapped
 * recursively and every line object is copied with its justification
 * passed through `unChangeRuleNames`, its formula untouched.
 */
module Serialise {
  import opened Document
  import opened RuleNames
  import RuleNameRoundTrip

  /** One line as sent: the same formula, the justification in canonical form. */
  function UnchangeLine(l: Line): Line
  {
    Line(l.wff, UnChangeRuleNames(l.just))
  }

  function DeepUnchange(a: seq<Node>): (b: seq<Node>)
    ensures |b| == |a|
  {
    if a == [] then [] else DeepUnchange(a[..|a| - 1]) + [DeepUnchangeNode(a[|a| - 1])]
  }

  function DeepUnchangeNode(n: Node): Node
  {
    match n
    case Leaf(l) => Leaf(UnchangeLine(l))
    case Sub(c) => Sub(DeepUnchange(c))
  }

  /** The nodes before the last are those of the shorter document. */
  lemma DeepUnchangeInit(a: seq<Node>)
    requires a != []
    ensures DeepUnchange(a)[..|a| - 1] == DeepUnchange(a[..|a| - 1])
    ensures DeepUnchange(a)[|a| - 1] == DeepUnchangeNode(a[|a| - 1])
  {
  }

  /** Serialisation keeps the nesting: the same subproofs and the same line positions. */
  lemma {:induction false} DeepUnchangeShape(a: seq<Node>)
    ensures SameShape(DeepUnchange(a), a)
    decreases a
  {
    if a != [] {
      var i := |a| - 1;
      DeepUnchangeShape(a[..i]);
      DeepUnchangeInit(a);
      var b := DeepUnchange(a);
      forall k | 0 <= k < |a|
        ensures NodeSameShape(b[k], a[k])
      {
        if k < i {
          assert b[k] == DeepUnchange(a[..i])[k] && a[k] == a[..i][k];
        } else {
          match a[i]
          case Leaf(_) =>
          case Sub(c) => DeepUnchangeShape(c);
        }
      }
    }
  }

  /**
   * Serialisation rewrites every line in place and nothing else: line
   * `k + 1` of the request is line `k + 1` of the proof with its
   * justification in canonical form.
   */
  lemma {:induction false} DeepUnchangeLines(a: seq<Node>)
    ensures |Lines(DeepUnchange(a))| == |Lines(a)|
    ensures forall k :: 0 <= k < |Lines(a)| ==> Lines(DeepUnchange(a))[k] == UnchangeLine(Lines(a)[k])
    decreases a
  {
    if a != [] {
      var i := |a| - 1;
      DeepUnchangeLines(a[..i]);
      DeepUnchangeInit(a);
      var n' := DeepUnchangeNode(a[i]);
      assert Lines(DeepUnchange(a)) == Lines(DeepUnchange(a[..i])) + NodeLines(n');
      assert |NodeLines(n')| == |NodeLines(a[i])| &&
             forall k :: 0 <= k < |NodeLines(a[i])| ==> NodeLines(n')[k] == UnchangeLine(NodeLines(a[i])[k]) by {
        match a[i]
        case Leaf(_) =>
        case Sub(c) => DeepUnchangeLines(c);
      }
      UnchangeAppend(Lines(a[..i]), NodeLines(a[i]), Lines(DeepUnchange(a[..i])), NodeLines(n'));
    }
  }

  /** Two blocks rewritten line by line make their concatenation rewritten line by line. */
  lemma UnchangeAppend(x1: seq<Line>, x2: seq<Line>, y1: seq<Line>, y2: seq<Line>)
    requires |y1| == |x1| && forall k :: 0 <= k < |x1| ==> y1[k] == UnchangeLine(x1[k])
    requires |y2| == |x2| && forall k :: 0 <= k < |x2| ==> y2[k] == UnchangeLine(x2[k])
    ensures |y1 + y2| == |x1 + x2|
    ensures forall k :: 0 <= k < |x1 + x2| ==> (y1 + y2)[k] == UnchangeLine((x1 + x2)[k])
  {
    forall k | 0 <= k < |x1 + x2|
      ensures (y1 + y2)[k] == UnchangeLine((x1 + x2)[k])
    {
      if k >= |x1| {
        assert (y1 + y2)[k] == y2[k - |x1|];
      }
    }
  }

  /** Premise and hypothesis rows reach the checker with their markers intact. */
  lemma MarkersSurvive(l: Line)
    requires l.just == Premise || l.just == Hypothesis
    ensures UnchangeLine(l) == l
  {
    RuleNameRoundTrip.UnChangeShort(l.just);
  }
}

=== FILE: session.dfy ===
/**
 * The editing session of one proof table.
 *
 * Besides the document, a proof table remembers the conclusion it should
 * reach, the number of premises it was started with, which line is open
 * for editing (`openline`, 1-based; 0 for none), whether the open field
 * is the justification (`jopen`), and the one input box on the page
 * (`oInput`).  Every click first commits the open input box to the
 * document, then changes the state, then redraws; redrawing creates a new
 * input box on the open line when that field is editable and otherwise
 * leaves the old one in place.
 *
 * The normalisers of typed formulas and justifications are parameters.
 */
module Session {
  import opened Document
  import opened Flatten
  import opened RuleNames
  import opened Edits
  import Serialise
  import RuleNameRoundTrip

  /** The input box: none, or the formula or justification field of line `pos + 1`. */
  datatype Input = NoInput | WffInput(pos: nat, value: string) | JInput(pos: nat, value: string)

  datatype Editor = Editor(doc: seq<Node>, conc: string, numPrems: nat, openline: nat, jopen: bool, input: Input)

  /** What a check sends: the serialised proof, the wanted conclusion and the premise count. */
  datatype Request = Request(proofData: seq<Node>, wantedConc: string, numPrems: nat)

  /* Premises */

  predicate IsPremise(n: Node)
  {
    n.Leaf? && n.line.just == Premise
  }

  /** The premises given at the start: top-level lines justified `Pr`. */
  function NumPremises(a: seq<Node>): nat
  {
    if a == [] then 0 else NumPremises(a[..|a| - 1]) + (if IsPremise(a[|a| - 1]) then 1 else 0)
  }

  /** Counting premises distributes over concatenation. */
  lemma {:induction false} NumPremisesAppend(a: seq<Node>, b: seq<Node>)
    ensures NumPremises(a + b) == NumPremises(a) + NumPremises(b)
    decreases |b|
  {
    if b == [] {
      assert a + b == a;
    } else {
      var b' := b[..|b| - 1];
      assert (a + b)[..|a + b| - 1] == a + b';
      assert (a + b)[|a + b| - 1] == b[|b| - 1];
      NumPremisesAppend(a, b');
    }
  }

  /**
   * A problem's usual start: a block of premises followed by nodes that
   * are not premises.  The count is the length of that block.
   */
  lemma {:induction false} NumPremisesOfBlock(ps: seq<Node>, rest: seq<Node>)
    requires forall i :: 0 <= i < |ps| ==> IsPremise(ps[i])
    requires forall i :: 0 <= i < |rest| ==> !IsPremise(rest[i])
    ensures NumPremises(ps + rest) == |ps|
  {
    NumPremisesAppend(ps, rest);
    AllPremises(ps);
    NoPremises(rest);
  }

  lemma {:induction false} AllPremises(ps: seq<Node>)
    requires forall i :: 0 <= i < |ps| ==> IsPremise(ps[i])
    ensures NumPremises(ps) == |ps|
    decreases |ps|
  {
    if ps != [] {
      AllPremises(ps[..|ps| - 1]);
    }
  }

  lemma {:induction false} NoPremises(rest: seq<Node>)
    requires forall i :: 0 <= i < |rest| ==> !IsPremise(rest[i])
    ensures NumPremises(rest) == 0
    decreases |rest|
  {
    if rest != [] {
      NoPremises(rest[..|rest| - 1]);
    }
  }

  /* Rendering and the input box */

  /** The input box points at an existing line, and the document is well formed. */
  predicate Valid(e: Editor)
  {
    && WellFormed(e.doc)
    && (e.input.WffInput? ==> e.input.pos < LeafCount(e.doc))
    && (e.input.JInput? ==> e.input.pos < LeafCount(e.doc))
  }

  /** Line `line` exists and its formula cell can be edited: it is not a premise. */
  predicate WffEditable(a: seq<Node>, line: nat)
  {
    1 <= line <= LeafCount(a) && Lines(a)[line - 1].just != Premise
  }

  /** Line `line` exists and its justification can be edited: neither a premise nor a hypothesis. */
  predicate JustEditable(a: seq<Node>, line: nat)
  {
    1 <= line <= LeafCount(a) && Lines(a)[line - 1].just != Premise && Lines(a)[line - 1].just != Hypothesis
  }

  /**
   * `displayMe` as far as the state is concerned: on the open line a
   * formula box opens unless the line is a premise, and a justification
   * box opens unless the line is a premise or a hypothesis; the box starts
   * with the stored formula, or the display name of the stored
   * justification.
   */
  function Render(e: Editor): (r: Editor)
    ensures r == e.(input := r.input)
    ensures !e.jopen && WffEditable(e.doc, e.openline) ==>
              r.input == WffInput(e.openline - 1, Lines(e.doc)[e.openline - 1].wff)
    ensures e.jopen && JustEditable(e.doc, e.openline) ==>
              r.input == JInput(e.openline - 1, ChangeRuleNames(Lines(e.doc)[e.openline - 1].just))
    ensures !(!e.jopen && WffEditable(e.doc, e.openline)) && !(e.jopen && JustEditable(e.doc, e.openline)) ==>
              r.input == e.input
    ensures Valid(e) ==> Valid(r)
  {
    if 1 <= e.openline <= LeafCount(e.doc) then
      var l := Lines(e.doc)[e.openline - 1];
      if !e.jopen && l.just != Premise then
        e.(input := WffInput(e.openline - 1, l.wff))
      else if e.jopen && l.just != Premise && l.just != Hypothesis then
        e.(input := JInput(e.openline - 1, ChangeRuleNames(l.just)))
      else e
    else e
  }

  /** With no editable field open, redrawing keeps the old input box. */
  lemma RenderKeepsInput(e: Editor)
    requires e.openline == 0 || e.openline > LeafCount(e.doc)
    ensures Render(e) == e
  {
  }

  /**
   * `registerInput`: the text in the input box is committed to its line,
   * a formula through the formula normaliser, a justification through
   * `unChangeRuleNames` and the justification normaliser.  Only that line
   * changes; the box itself stays.
   */
  function RegisterInput(e: Editor, fixWff: string -> string, fixJ: string -> string): (r: Editor)
    requires Valid(e)
    ensures Valid(r)
    ensures r == e.(doc := r.doc)
    ensures SameShape(r.doc, e.doc) && LeafCount(r.doc) == LeafCount(e.doc)
    ensures e.input.NoInput? ==> r == e
    ensures e.input.WffInput? ==>
              Lines(r.doc) == Lines(e.doc)[e.input.pos := Line(fixWff(e.input.value), Lines(e.doc)[e.input.pos].just)]
    ensures e.input.JInput? ==>
              Lines(r.doc) == Lines(e.doc)[e.input.pos := Line(Lines(e.doc)[e.input.pos].wff, fixJ(UnChangeRuleNames(e.input.value)))]
  {
    match e.input
    case NoInput => SameShapeReflexive(e.doc); e
    case WffInput(p, v) =>
      var d := ChangeWffValue(e.doc, p, v, fixWff);
      SameShapeWellFormed(d, e.doc);
      e.(doc := d)
    case JInput(p, v) =>
      var d := ChangeJValue(e.doc, p, v, fixJ);
      SameShapeWellFormed(d, e.doc);
      e.(doc := d)
  }

  /** The box stays after a commit, so committing again changes nothing. */
  lemma RegisterInputIdempotent(e: Editor, fixWff: string -> string, fixJ: string -> string)
    requires Valid(e)
    ensures RegisterInput(RegisterInput(e, fixWff, fixJ), fixWff, fixJ) == RegisterInput(e, fixWff, fixJ)
  {
    match e.input
    case NoInput =>
    case WffInput(p, v) => ChangeWffValueTwice(e.doc, p, v, fixWff);
    case JInput(p, v) => ChangeJValueTwice(e.doc, p, v, fixJ);
  }

  /**
   * The input box's `onchange`: a formula is normalised; a justification is
   * normalised in canonical form and shown again under its display name.
   */
  function TypeInput(e: Editor, text: string, fixWff: string -> string, fixJ: string -> string): (r: Editor)
    ensures Valid(e) ==> Valid(r)
    ensures r == e.(input := r.input)
    ensures r.input.NoInput? <==> e.input.NoInput?
    ensures e.input.WffInput? ==> r.input == WffInput(e.input.pos, fixWff(text))
    ensures e.input.JInput? ==> r.input == JInput(e.input.pos, ChangeRuleNames(fixJ(UnChangeRuleNames(text))))
  {
    match e.input
    case NoInput => e
    case WffInput(p, _) => e.(input := WffInput(p, fixWff(text)))
    case JInput(p, _) => e.(input := JInput(p, ChangeRuleNames(fixJ(UnChangeRuleNames(text)))))
  }

  /**
   * Typing a rule's display name (or its token, in any letter case the
   * normaliser accepts) stores the token: the box shows the display name,
   * and committing it maps the name back.
   */
  lemma TypedRuleNameStored(e: Editor, text: string, i: nat, fixWff: string -> string, fixJ: string -> string)
    requires Valid(e) && e.input.JInput? && i < |RuleNameRoundTrip.Tokens|
    requires fixJ(UnChangeRuleNames(text)) == RuleNameRoundTrip.Tokens[i]
    requires fixJ(RuleNameRoundTrip.Tokens[i]) == RuleNameRoundTrip.Tokens[i]
    ensures TypeInput(e, text, fixWff, fixJ).input.value == RuleNameRoundTrip.DisplayNames[i]
    ensures Lines(RegisterInput(TypeInput(e, text, fixWff, fixJ), fixWff, fixJ).doc)[e.input.pos].just
            == RuleNameRoundTrip.Tokens[i]
  {
    RuleNameRoundTrip.RoundTrip(i);
  }

  /* The proof table and its buttons */

  /**
   * `makeProof(pardiv, pstart, conc)`: the premise count is taken once,
   * from the top-level `Pr` lines of the start; line 1 is open.
   */
  function MakeProof(pstart: seq<Node>, conc: string): (e: Editor)
    ensures e.doc == pstart && e.conc == conc && e.numPrems == NumPremises(pstart)
    ensures e.openline == 1 && !e.jopen
    ensures WellFormed(pstart) ==> Valid(e)
    ensures LeafCount(pstart) > 0 && Lines(pstart)[0].just != Premise <==> e.input.WffInput?
    ensures e.input.WffInput? ==> e.input == WffInput(0, Lines(pstart)[0].wff)
  {
    Render(Editor(pstart, conc, NumPremises(pstart), 1, false, NoInput))
  }

  /**
   * A new-line or new-subproof link below line `n + 1` (`addNewLine`,
   * `addNewSubProof`, and with `uppa` their "finish subproof" variants):
   * commit, insert into the committed document, open the formula of line
   * `n + 2`, redraw.
   */
  function AddClick(e: Editor, n: nat, newsp: bool, uppa: bool, fixWff: string -> string, fixJ: string -> string): (r: Editor)
    requires Valid(e) && n < LeafCount(e.doc)
    ensures Valid(r)
    ensures r.conc == e.conc && r.numPrems == e.numPrems
    ensures r.doc == AddNLtoPD(RegisterInput(e, fixWff, fixJ).doc, n, newsp, uppa)
    ensures LeafCount(r.doc) == LeafCount(e.doc) + |NodeLines(NewNode(newsp))|
    ensures !uppa || |Resolve(e.doc, n)| == 1 || ClosesSubproof(e.doc, Resolve(e.doc, n)) ==>
              var d := RegisterInput(e, fixWff, fixJ).doc;
              Lines(r.doc) == Lines(d)[..n + 1] + NodeLines(NewNode(newsp)) + Lines(d)[n + 1..]
    ensures r.openline == n + 2 && !r.jopen
  {
    var d := RegisterInput(e, fixWff, fixJ).doc;
    var d' := AddNLtoPD(d, n, newsp, uppa);
    AddNLtoPDWellFormed(d, n, newsp, uppa);
    assert LeafCount(d') == LeafCount(d) + |NodeLines(NewNode(newsp))| &&
           (!uppa || |Resolve(e.doc, n)| == 1 || ClosesSubproof(e.doc, Resolve(e.doc, n)) ==>
              Lines(d') == Lines(d)[..n + 1] + NodeLines(NewNode(newsp)) + Lines(d)[n + 1..]) by {
      ResolveSameShape(d, e.doc, n);
      if ClosesSubproof(e.doc, Resolve(e.doc, n)) {
        ClosesSubproofSameShape(e.doc, d, Resolve(d, n));
      }
      AddedLines(d, n, newsp, uppa);
    }
    Render(Editor(d', e.conc, e.numPrems, n + 2, false, RegisterInput(e, fixWff, fixJ).input))
  }

  /**
   * Every insertion at a line adds exactly the new node's lines; where the
   * editor draws the link, they come right after line `n + 1` and every
   * other line keeps its order.
   */
  lemma AddedLines(a: seq<Node>, n: nat, newsp: bool, uppa: bool)
    requires n < LeafCount(a)
    ensures LeafCount(AddNLtoPD(a, n, newsp, uppa)) == LeafCount(a) + |NodeLines(NewNode(newsp))|
    ensures !uppa || |Resolve(a, n)| == 1 || ClosesSubproof(a, Resolve(a, n)) ==>
              Lines(AddNLtoPD(a, n, newsp, uppa)) == Lines(a)[..n + 1] + NodeLines(NewNode(newsp)) + Lines(a)[n + 1..]
  {
    if uppa && |Resolve(a, n)| >= 2 {
      AddToParentLines(a, n, newsp);
      if ClosesSubproof(a, Resolve(a, n)) {
        AddToParentAfterLastLine(a, n, newsp);
      }
    }
  }

  /**
   * After adding below a line (or finishing a subproof from its last
   * line), the formula box is open on the new line and empty.
   */
  lemma AddFocusesNewLine(e: Editor, n: nat, newsp: bool, uppa: bool, fixWff: string -> string, fixJ: string -> string)
    requires Valid(e) && n < LeafCount(e.doc)
    requires !uppa || |Resolve(e.doc, n)| == 1 || ClosesSubproof(e.doc, Resolve(e.doc, n))
    ensures var r := AddClick(e, n, newsp, uppa, fixWff, fixJ);
            && r.input == WffInput(n + 1, "")
            && Lines(r.doc)[n + 1] == Line("", if newsp then Hypothesis else "")
  {
    var r0 := RegisterInput(e, fixWff, fixJ);
    var d := r0.doc;
    var r := AddClick(e, n, newsp, uppa, fixWff, fixJ);
    var x := NewNode(newsp);
    var l := Line("", if newsp then Hypothesis else "");
    assert NodeLines(x) == [l] by {
      if newsp {
        LinesSingle(Leaf(l));
      }
    }
    assert Lines(r.doc)[n + 1] == l by {
      assert |Lines(d)| == LeafCount(e.doc);
      assert Lines(r.doc) == Lines(d)[..n + 1] + [l] + Lines(d)[n + 1..];
    }
    assert r == Render(Editor(r.doc, e.conc, e.numPrems, n + 2, false, r0.input));
  }

  /**
   * The fallback "new line" and "new subproof" buttons, drawn under the
   * table when its last cell holds no add links, which for a well-formed
   * document happens exactly when it has no lines: `addNewLine(0)` or
   * `addNewSubProof(0)`, then line 1 is opened and the table redrawn.
   * Nothing is committed first.
   */
  function FallbackAddClick(e: Editor, newsp: bool): (r: Editor)
    requires Valid(e) && LeafCount(e.doc) == 0
    ensures Valid(r)
    ensures r.conc == e.conc && r.numPrems == e.numPrems
    ensures r.doc == [NewNode(newsp)]
    ensures r.openline == 1 && !r.jopen
    ensures r.input == WffInput(0, "")
  {
    var d := AddNLtoPD(e.doc, 0, newsp, false);
    FirstNode(e.doc, newsp);
    Render(Editor(d, e.conc, e.numPrems, 1, false, e.input))
  }

  /** Adding to a document without lines gives the new node alone, whose first line is empty. */
  lemma FirstNode(a: seq<Node>, newsp: bool)
    requires WellFormed(a) && LeafCount(a) == 0
    ensures AddNLtoPD(a, 0, newsp, false) == [NewNode(newsp)]
    ensures WellFormed([NewNode(newsp)])
    ensures LeafCount([NewNode(newsp)]) >= 1
    ensures Lines([NewNode(newsp)])[0] == Line("", if newsp then Hypothesis else "")
  {
    var x := NewNode(newsp);
    AddNLtoPDWellFormed(a, 0, newsp, false);
    assert a == [] by {
      WellFormedFewerNodes(a);
    }
    assert a + [x] == [x];
    LinesSingle(x);
    if newsp {
      LinesSingle(Leaf(Line("", Hypothesis)));
    }
  }

  /**
   * The delete link of line `pos + 1`: commit, close the input box,
   * delete from the committed document (asking for confirmation on a
   * hypothesis), redraw.
   */
  function DeleteClick(e: Editor, pos: nat, confirmed: bool, fixWff: string -> string, fixJ: string -> string): (r: Editor)
    requires Valid(e) && pos < LeafCount(e.doc)
    ensures Valid(r)
    ensures r.conc == e.conc && r.numPrems == e.numPrems
    ensures r.openline == 0 && !r.jopen && r.input == NoInput
    ensures pos < LeafCount(RegisterInput(e, fixWff, fixJ).doc)
    ensures r.doc == DeletePDLine(RegisterInput(e, fixWff, fixJ).doc, pos, confirmed).value
    ensures !OpensSubproof(Resolve(e.doc, pos)) ==>
              Lines(r.doc) == Lines(RegisterInput(e, fixWff, fixJ).doc)[..pos] + Lines(RegisterInput(e, fixWff, fixJ).doc)[pos + 1..]
    ensures OpensSubproof(Resolve(e.doc, pos)) && !confirmed ==> r.doc == RegisterInput(e, fixWff, fixJ).doc
    ensures OpensSubproof(Resolve(e.doc, pos)) && confirmed ==>
              var d := RegisterInput(e, fixWff, fixJ).doc;
              var q := Resolve(e.doc, pos)[..|Resolve(e.doc, pos)| - 1];
              && IsNodePath(d, q) && NodeAt(d, q).Sub?
              && pos + |Lines(NodeAt(d, q).children)| <= LeafCount(d)
              && Lines(r.doc) == Lines(d)[..pos] + Lines(d)[pos + |Lines(NodeAt(d, q).children)|..]
  {
    var d := RegisterInput(e, fixWff, fixJ).doc;
    ResolveSameShape(d, e.doc, pos);
    DeletePDLineWellFormed(d, pos, confirmed);
    assert !OpensSubproof(Resolve(d, pos)) ==>
             Lines(DeletePDLine(d, pos, confirmed).value) == Lines(d)[..pos] + Lines(d)[pos + 1..] by {
      if !OpensSubproof(Resolve(d, pos)) {
        DeleteLine(d, pos, confirmed);
      }
    }
    assert OpensSubproof(Resolve(d, pos)) && confirmed ==>
             var q := Resolve(d, pos)[..|Resolve(d, pos)| - 1];
             && IsNodePath(d, q) && NodeAt(d, q).Sub?
             && pos + |Lines(NodeAt(d, q).children)| <= LeafCount(d)
             && Lines(DeletePDLine(d, pos, confirmed).value) == Lines(d)[..pos] + Lines(d)[pos + |Lines(NodeAt(d, q).children)|..] by {
      if OpensSubproof(Resolve(d, pos)) && confirmed {
        DeleteSubproof(d, pos);
      }
    }
    Editor(DeletePDLine(d, pos, confirmed).value, e.conc, e.numPrems, 0, false, NoInput)
  }

  /**
   * A formula cell click on line `line`: commit, open that line's formula,
   * redraw.  The cell is clickable only on lines that are not premises.
   */
  function WffClick(e: Editor, line: nat, fixWff: string -> string, fixJ: string -> string): (r: Editor)
    requires Valid(e) && 1 <= line <= LeafCount(e.doc)
    ensures Valid(r)
    ensures r.conc == e.conc && r.numPrems == e.numPrems && r.openline == line && !r.jopen
    ensures r.doc == RegisterInput(e, fixWff, fixJ).doc
    ensures WffEditable(r.doc, line) ==> r.input == WffInput(line - 1, Lines(r.doc)[line - 1].wff)
  {
    Render(RegisterInput(e, fixWff, fixJ).(openline := line, jopen := false))
  }

  /**
   * A justification cell click on line `line`: commit, open that line's
   * justification, redraw.  The box shows the display name.
   */
  function JClick(e: Editor, line: nat, fixWff: string -> string, fixJ: string -> string): (r: Editor)
    requires Valid(e) && 1 <= line <= LeafCount(e.doc)
    ensures Valid(r)
    ensures r.conc == e.conc && r.numPrems == e.numPrems && r.openline == line && r.jopen
    ensures r.doc == RegisterInput(e, fixWff, fixJ).doc
    ensures JustEditable(r.doc, line) ==> r.input == JInput(line - 1, ChangeRuleNames(Lines(r.doc)[line - 1].just))
  {
    Render(RegisterInput(e, fixWff, fixJ).(openline := line, jopen := true))
  }

  /**
   * The check button: commit, close the input box, redraw, and send the
   * serialised proof with the conclusion and the premise count taken at
   * the start.
   */
  function CheckClick(e: Editor, fixWff: string -> string, fixJ: string -> string): (r: (Editor, Request))
    requires Valid(e)
    ensures Valid(r.0)
    ensures r.0.conc == e.conc && r.0.numPrems == e.numPrems
    ensures r.0.openline == 0 && !r.0.jopen && r.0.input == NoInput
    ensures r.0.doc == RegisterInput(e, fixWff, fixJ).doc
    ensures r.1.wantedConc == e.conc && r.1.numPrems == e.numPrems
    ensures SameShape(r.1.proofData, r.0.doc)
    ensures |Lines(r.1.proofData)| == |Lines(r.0.doc)|
    ensures forall k :: 0 <= k < |Lines(r.0.doc)| ==> Lines(r.1.proofData)[k] == Serialise.UnchangeLine(Lines(r.0.doc)[k])
  {
    var d := RegisterInput(e, fixWff, fixJ).doc;
    Serialise.DeepUnchangeShape(d);
    Serialise.DeepUnchangeLines(d);
    (Editor(d, e.conc, e.numPrems, 0, false, NoInput), Request(Serialise.DeepUnchange(d), e.conc, e.numPrems))
  }

  /* Sessions: sequences of user actions */

  datatype Action =
    | Add(n: nat, newsp: bool, uppa: bool)
    | AddFirst(newsp: bool)
    | Delete(pos: nat, confirmed: bool)
    | ClickWff(line: nat)
    | ClickJ(line: nat)
    | Type(text: string)
    | CheckProof

  /**
   * The action can be taken: it names an existing line, or, for the
   * fallback buttons, the proof has no lines. This is wider than the
   * controls the table draws, which omits some of them on premise and
   * hypothesis lines and draws the escape buttons only on a subproof's
   * last line.
   */
  predicate Enabled(e: Editor, act: Action)
  {
    match act
    case Add(n, _, _) => n < LeafCount(e.doc)
    case AddFirst(_) => LeafCount(e.doc) == 0
    case Delete(pos, _) => pos < LeafCount(e.doc)
    case ClickWff(line) => 1 <= line <= LeafCount(e.doc)
    case ClickJ(line) => 1 <= line <= LeafCount(e.doc)
    case Type(_) => true
    case CheckProof => true
  }

  function Perform(e: Editor, act: Action, fixWff: string -> string, fixJ: string -> string): (r: Editor)
    requires Valid(e) && Enabled(e, act)
    ensures Valid(r) && r.conc == e.conc && r.numPrems == e.numPrems
  {
    match act
    case Add(n, newsp, uppa) => AddClick(e, n, newsp, uppa, fixWff, fixJ)
    case AddFirst(newsp) => FallbackAddClick(e, newsp)
    case Delete(pos, confirmed) => DeleteClick(e, pos, confirmed, fixWff, fixJ)
    case ClickWff(line) => WffClick(e, line, fixWff, fixJ)
    case ClickJ(line) => JClick(e, line, fixWff, fixJ)
    case Type(text) => TypeInput(e, text, fixWff, fixJ)
    case CheckProof => CheckClick(e, fixWff, fixJ).0
  }

  /**
   * Runs a session; an action that is not enabled (it names no line, or
   * it is a fallback button on a proof that has lines) is ignored.
   */
  function Replay(e: Editor, acts: seq<Action>, fixWff: string -> string, fixJ: string -> string): Editor
    requires Valid(e)
    decreases |acts|
  {
    if acts == [] then e
    else
      var e' := if Enabled(e, acts[0]) then Perform(e, acts[0], fixWff, fixJ) else e;
      Replay(e', acts[1..], fixWff, fixJ)
  }

  /**
   * Whatever the user does, the document stays well formed, the input box
   * points at a line, and every check sends the premise count of the
   * start: premises typed in later are not counted as given.
   */
  lemma {:induction false} ReplayKeepsInvariant(pstart: seq<Node>, conc: string, acts: seq<Action>,
                                                fixWff: string -> string, fixJ: string -> string)
    requires WellFormed(pstart)
    ensures Valid(Replay(MakeProof(pstart, conc), acts, fixWff, fixJ))
    ensures Replay(MakeProof(pstart, conc), acts, fixWff, fixJ).numPrems == NumPremises(pstart)
    ensures Replay(MakeProof(pstart, conc), acts, fixWff, fixJ).conc == conc
  {
    ReplayFrom(MakeProof(pstart, conc), acts, fixWff, fixJ);
  }

  lemma {:induction false} ReplayFrom(e: Editor, acts: seq<Action>, fixWff: string -> string, fixJ: string -> string)
    requires Valid(e)
    ensures Valid(Replay(e, acts, fixWff, fixJ))
    ensures Replay(e, acts, fixWff, fixJ).numPrems == e.numPrems
    ensures Replay(e, acts, fixWff, fixJ).conc == e.conc
    decreases |acts|
  {
    if acts != [] {
      var e' := if Enabled(e, acts[0]) then Perform(e, acts[0], fixWff, fixJ) else e;
      ReplayFrom(e', acts[1..], fixWff, fixJ);
    }
  }
}

=== FILE: wrappers.dfy ===
/** The optional-value datatype used where the proof editor returns `undefined`. */
module Wrappers {

  /** `None` stands for JavaScript's `undefined`; `Some(v)` for a defined result. */
  datatype Option<+T> = None | Some(value: T)
}
